=== FILE: README.md ===
# A Dafny model of a Micropub endpoint

This project models the core of a Micropub server. The server accepts posts
over the Micropub protocol of the W3C Recommendation and stores them as
Markdown files with a YAML front matter header, ready for a static site
generator. The model covers five parts of that core:

- **the update patch algebra** (`Mf2Patch`): the add, remove and replace
  operations of section 3.4 of the Micropub Recommendation, applied to the
  `properties` map of an mf2 object;
- **the format translations** (`Frontmatter`, `Jf2`, `ParseBody`):
  - the key renaming between mf2 and the static site generator's names;
  - splitting a post into a front matter header and a body, and parsing it
    back;
  - wrapping flat jf2 values as mf2 property sequences;
  - turning form bodies into jf2;
  - the form-field accumulation of the multipart decoder;
- **classification and naming** (`PostTypes`, `Utils`, `Config`, and the slug
  part of `Content`): the ordered first-match post-type classifier, slug
  derivation, `slugify`, `pick`, the URL-to-filename mapping, and the default
  formatters and options;
- **the orchestration** (`Content`): create, update, delete and undelete over
  a store of documents, including the existence checks, the date stamping, the
  patch dispatch, the uploads, and the soft delete expressed as an update;
- **the request gates** (`Auth`, `Endpoint`): token extraction and
  exclusivity (section 3.1 of RFC 6750), the token verification decision,
  scope intersection, the configuration and method gates, action defaulting
  and dispatch, the query endpoint, and the media listing with its sorting and
  paging.

JavaScript values are the datatype `Values.Value`. An object is a sequence of
key/value entries kept in insertion order: the first occurrence of a key is
the one read, and an assignment overwrites in place or appends. JavaScript
enumerates integer-like keys (`"1"`, `"42"`) before all others, in ascending
order; the model keeps them in insertion order too, so what it says about key
order holds in the source only for objects without such keys. This makes
"a later entry overwrites an earlier one" something the model can state. An
mf2 object is `Mf2(types, properties)`, where the properties are a
`map<string, seq<Value>>`.

Errors the source raises as HTTP errors become `Wrappers.Failure` values,
each carrying its status: 400, 401, 403, 404, 405, or 500 for a JavaScript
`TypeError`. Everything the source reads from outside becomes a parameter:

- the clock;
- URL parsing, which gives an origin and a pathname;
- the token endpoint's answer;
- the fetched page title;
- the result of storing an upload;
- the `mf2tojf2` conversion;
- the listing of the media directory.

The store is an immutable `map<string, Frontmatter.Doc>` from filename to
document. A document is its header entries paired with its body text, which
stands for the YAML text the source writes.

Where the documented behaviour and the code differ, or the code has an
evident defect, the model
follows the code:

- `mediaFilename` and `uploadImage` reject any falsy filename, not only an
  empty string.
- Deleting through the handler is always the soft delete, because the handler
  never passes `permanent`.
- A stored post whose header holds a `null` (a like or bookmark whose page has
  no title is stored that way) cannot be updated, deleted, undeleted or read
  back with `q=source`: the conversion throws and the answer is 500 (see
  Findings). When the conversion succeeds, its result is that of the
  corrected conversion.
- A map-form delete with a non-array value throws only when the item holds
  values under that key; for a missing or empty property it removes nothing.

## Model

| member | source | states |
|---|---|---|
| Mf2Patch.Without | src/mf2.js:11-26 | a value survives the filter exactly when it was in the sequence and is not listed; add keeps the patch values not already present this way, and remove keeps the values not listed |
| Mf2Patch.Outcome | src/mf2.js:14 | an operation reports "nothing changed" (`false`) exactly when the properties equal the snapshot; otherwise it returns the item with the same type tag |
| Mf2Patch.AddProperties | src/mf2.js:6-15 | add reports no change exactly when every patch value is already under its key. Otherwise: the type is untouched; the keys are the old keys plus the patch keys; unpatched keys are unchanged; each patched key keeps its old sequence as a prefix, and after it come only patch values that were absent |
| Mf2Patch.DeleteKeys | src/mf2.js:17-23 | list-form delete reports no change exactly when no named key exists; otherwise exactly the unnamed keys remain, with their values, and the type is untouched |
| Mf2Patch.DeleteValues | src/mf2.js:24-32 | map-form delete reports no change exactly when no listed value occurs under its key (and no listed key holds an empty sequence). Unlisted keys are unchanged. A listed key stays exactly when some value survives, and then holds exactly the survivors |
| Mf2Patch.WithoutNothing | src/mf2.js:26 | removing values none of which occur leaves the sequence as it was |
| Mf2Patch.Replacements | src/mf2.js:38-41 | the replaced keys are exactly the patch keys with array values; for each, the last array given for it wins; non-arrays are skipped |
| Mf2Patch.UpdateProperties | src/mf2.js:35-43 | replace reports no change exactly when every replacement equals the stored sequence. Otherwise: the type is untouched; the keys are the old keys plus the replaced ones; other keys are unchanged; each replaced key holds its new array |
| Mf2Patch.AddIdempotent | src/mf2.js:9-14 | applying the same add patch to its own result reports no change |
| Mf2Patch.ReplaceWithoutArraysIsNoop | src/mf2.js:38-42 | a replace patch with no array values reports no change |
| Mf2Patch.DeleteValuesOfAbsentKeys | src/mf2.js:24-32 | deleting values from keys that do not exist reports no change |
| Mf2Patch.SoftDeleteRoundTrip | src/mf2.js:9-13 | on a live item, adding `deleted: [true]` and then deleting the key `deleted` gives back the original item |
| Mf2Patch.SoftDeleteTwiceIsNoop | src/mf2.js:9-14 | adding `deleted: [true]` to an item already marked deleted reports no change |
| Frontmatter.TranslateProperties | src/frontmatter.js:12-19 | the translated object has exactly the renamed keys of its input |
| Frontmatter.TranslateLastWins | src/frontmatter.js:15-17 | an entry whose renamed key no later entry shares ends up, with its value, under the renamed key |
| Frontmatter.NoAliasNoCollision | src/frontmatter.js:3-16 | keys that are distinct and are none of the dictionary's targets never collide after renaming |
| Frontmatter.RenameInjective | src/frontmatter.js:3-16 | renaming is injective on keys that are not dictionary targets |
| Frontmatter.TranslateWithoutCollision | src/frontmatter.js:12-19 | without collisions, translation is the entry-wise rename in input order |
| Frontmatter.TranslateRoundTrip | src/frontmatter.js:12-19 | reverse translation undoes forward translation for distinct keys outside {title, tags, date} |
| Frontmatter.RenameAllBack | src/frontmatter.js:3-16 | the inverted dictionary undoes the forward renaming entry by entry |
| Frontmatter.RenameBack | src/frontmatter.js:3-16 | a key renamed forward and back is the original key |
| Frontmatter.TranslateCollisionLaterWins | src/frontmatter.js:16 | when `name` and `title` both occur, the later entry's value ends up under `title` |
| Frontmatter.TranslateKeepsDistinct | src/frontmatter.js:14-18 | the translated object never repeats a key |
| Frontmatter.TranslateSameOneWay | src/frontmatter.js:12-19 | without collisions, objects with the same contents in another order translate to the same value under every key |
| Frontmatter.TranslateRespectsSameObject | src/frontmatter.js:12-19 | without collisions, translation ignores key order: the same contents give the same translated contents |
| Frontmatter.TranslateKeepsPlainKey | src/frontmatter.js:16 | a key outside the dictionary passes through with its value |
| Frontmatter.ToFrontmatter | src/frontmatter.js:21-31 | the header is the data plus a truthy `client_id`, minus `content` and `access_token`. The body is `content.html` when it is non-empty, else a string `content`, else the empty string |
| Frontmatter.Header | src/frontmatter.js:22-29 | the header keeps every other key's value, drops `content` and `access_token`, and adds a truthy `client_id` |
| Frontmatter.Body | src/frontmatter.js:30 | the body is `content.html`, else `content`, else empty |
| Frontmatter.ToFrontmatterKeepsDistinct | src/frontmatter.js:23-29 | a header built from distinct keys has distinct keys |
| Frontmatter.ParseFrontmatter | src/frontmatter.js:33-42 | the parsed object starts, in insertion order, with `type` (the header's truthy `type`, else `entry`). `content` is the body trimmed of JavaScript whitespace and overrides the header's. Every other key keeps its header value |
| Frontmatter.ParseKeepsDistinct | src/frontmatter.js:37-41 | parsing a header with distinct keys gives distinct keys |
| Text.TrimStart | src/frontmatter.js:38 | the start of a string is dropped up to its first non-whitespace character, with whitespace as `String.prototype.trim` defines it |
| Text.TrimEnd | src/frontmatter.js:38 | the end of a string is dropped back to its last non-whitespace character |
| Frontmatter.ParseInvertsToFrontmatter | src/frontmatter.js:21-42 | parsing a written document gives back the data (up to key order) when `type` is truthy, `content` is a trimmed string and there is no `access_token` |
| Frontmatter.ParsedKeysNotAliases | src/frontmatter.js:3-16 | a post renamed forward carries no key the reverse dictionary would rename wrongly |
| Frontmatter.StoredPostFacts | src/frontmatter.js:12-42 | a post translated, written and parsed back has distinct, collision-free keys and the translated contents |
| Frontmatter.StoredPostDistinct | src/frontmatter.js:21-42 | writing and parsing back a post with distinct keys gives distinct keys |
| Frontmatter.DocumentRoundTrip | src/content.js:74-75 | translating, writing, parsing and translating back returns the post that was created (up to key order), for typed posts with trimmed string content |
| Frontmatter.ToMf2 | src/frontmatter.js:44-59 | the type tag is `h-` followed by the truthy `type`, else `entry`; the property keys are the input keys minus `type` |
| Frontmatter.Mf2Props | src/frontmatter.js:51-57 | the first n entries contribute exactly their keys minus `type` |
| Frontmatter.ToMf2Wraps | src/frontmatter.js:52-55 | an object with a truthy `type` becomes a one-element sequence of its own mf2 form; an array is kept as it is; any other value becomes a one-element sequence |
| Frontmatter.ToMf2AsWritten | src/frontmatter.js:44-59 | when the code as written does not throw, it agrees with the corrected conversion |
| Frontmatter.Mf2PropsAsWritten | src/frontmatter.js:51-57 | when the loop as written does not throw, its properties agree with the corrected loop |
| Frontmatter.ToMf2AsWrittenFailsOnNull | src/frontmatter.js:52 | the conversion as written throws exactly when a value other than `type`, at the top level or inside a nested typed object, is `null`; otherwise it equals the corrected one |
| Frontmatter.PropsFailOnNull | src/frontmatter.js:51-53 | the loop as written throws exactly when one of the entries it visits is, or holds, a `null` |
| Frontmatter.NullTitleCrashes | src/frontmatter.js:52 | a post whose `name` is `null` crashes the conversion as written; the corrected one wraps it as `[null]` |
| PostTypes.FirstMatch | src/postTypes.js:4-15 | the result is the type of the first rule whose key is truthy, and `note` exactly when no rule's key is truthy |
| PostTypes.Classify | src/postTypes.js:1-16 | `null` input throws. Non-objects and empty objects give no type. A non-empty object gets the rule-based type |
| PostTypes.ClassifyIsFirstMatch | src/postTypes.js:3-15 | the `rsvp` rule comes first; otherwise the first matching rule in source order decides |
| PostTypes.RsvpExactly | src/postTypes.js:3 | a post is an rsvp exactly when `rsvp` is one of yes/no/maybe/interested and `in-reply-to` is truthy |
| PostTypes.NoteExactly | src/postTypes.js:4-15 | a post is a note exactly when none of the rule keys is truthy |
| PostTypes.ReplyBeatsLike | src/postTypes.js:4-6 | `in-reply-to` outranks `like-of`, whatever the key order |
| PostTypes.NamesDistinct | src/postTypes.js:3-15 | the type names are distinct, so a name identifies one type |
| Utils.Pick | src/utils.js:8-16 | the picked keys are exactly the allowed keys present, with their values unchanged |
| Utils.PickIdempotent | src/utils.js:8-16 | picking twice with the same list is picking once |
| Utils.PickAllIsIdentity | src/utils.js:8-16 | allowing every key keeps the whole map |
| Utils.KeepOnly | src/utils.js:20 | only word characters, hyphens and spaces survive |
| Utils.Hyphenate | src/utils.js:22 | every space becomes one hyphen and nothing else changes |
| Utils.Slugify | src/utils.js:18-22 | a slug holds only `[a-z0-9_-]` and is no longer than its text |
| Utils.SlugIsFixedPoint | src/utils.js:18-22 | a text that is already a slug is its own slug |
| Utils.SlugifyIdempotent | src/utils.js:18-22 | slugifying a slug changes nothing |
| Utils.InteriorSpacesBecomeHyphens | src/utils.js:21-22 | in already trimmed lower-case text of kept characters, each space becomes one hyphen |
| Utils.SurroundingSpacesIgnored | src/utils.js:21 | a leading or trailing space does not change the slug |
| Utils.DropTrailingSlash | src/utils.js:27 | at most one trailing slash is removed, and one is removed when present |
| Utils.StripSlashes | src/utils.js:29-30 | one leading and one trailing slash are removed |
| Utils.UrlToFilename | src/utils.js:24-35 | a filename exists exactly when the URL parses, its origin is `me` without a trailing slash, and its path is non-empty. The filename is the stripped dir and path, empty parts dropped, joined by `/`, plus `.md` |
| Config.WithDefaults | src/config.js:1-31 | each option left out takes its default: `src`, `uploads`, translation on, the default configuration, and an empty `me` and token endpoint. Each given option, including `translateProps` and `config`, wins |
| Config.FormatSlug | src/config.js:32 | the slug path is the type, a slash, and the slug |
| Config.FormatFilename | src/config.js:33 | the filename is the directory without one trailing slash, a slash, the slug and `.md` |
| Config.EpochSeconds | src/config.js:34 | the timestamp is the clock in seconds rounded to the nearest second |
| Config.MediaFilename | src/config.js:34 | there is no name exactly for a falsy filename. Otherwise the name starts with the directory without one trailing slash, a slash and the timestamp, ends with `_` and the filename, and has exactly the length of those parts |
| Config.MediaFilenameParts | src/config.js:34 | a media name splits back at fixed places into the directory and timestamp, `_`, and the filename |
| Config.MediaFilenameInjective | src/config.js:34 | within one directory and second, two truthy filenames get the same media name exactly when they read the same |
| Auth.ScopeSymmetric | src/auth.js:34-38 | the scope check is symmetric in its two arguments |
| Auth.ScopeOfListedToken | src/auth.js:34-38 | a one-word action is granted exactly when it is one of the scope's words |
| Auth.IsValidScope | src/auth.js:34-38 | an action is granted exactly when some word of the required scope is also a word of the token's scope |
| Auth.BearerToken | src/auth.js:19 | the header token is the second space-separated segment, when there is one, and holds no space |
| Auth.BodyToken | src/auth.js:20 | the body token exists exactly when the body is an object with an `access_token` key, and it is that key's value |
| Auth.ParseToken | src/auth.js:18-24 | a truthy token in both the header and the body is a 400. Otherwise the truthy header token is used, else the body's `access_token` |
| Auth.IsAuthorized | src/auth.js:26-32 | no truthy token gives 401. A failed verification, or one for another `me`, gives 403. Otherwise the result is the verification response |
| Auth.BearerTokenOfScheme | src/auth.js:19 | the token of `Bearer <t>` is `t` |
| Auth.TokenInBothPlacesRejected | src/auth.js:22 | a token in both places is a 400 whatever the token endpoint would say |
| Jf2.FormToJf2 | src/jf2.js:5-15 | a falsy form gives nothing. Otherwise `type` comes first in insertion order (the form's own `type` if present, else `h`, else `entry`), `h` is dropped, and every other key is copied |
| Jf2.FormFacts | src/jf2.js:7-13 | the assignments produce the `formToJf2` result described above |
| Jf2.FormKeys | src/jf2.js:10-13 | keys other than `type` and `h` are copied from the form |
| Jf2.TypeFromBody | src/jf2.js:11-12 | a form key `type` overrides the default |
| Jf2.FormTypeFirst | src/jf2.js:7-9 | `type` is always the first key in insertion order |
| Jf2.AssignKeepsHead | src/jf2.js:11-13 | copying entries never moves the first key in insertion order |
| Jf2.ToJf2 | src/jf2.js:17-18 | the JSON conversion is used exactly when the content type contains `application/json`, the form conversion otherwise; there is no jf2 exactly for a falsy form body |
| Jf2.FormBodyJf2 | src/jf2.js:5-18 | a truthy body that is not JSON becomes a post whose first key is `type` (its own, else its `h`, else `entry`), without `h`, and a second conversion leaves it unchanged |
| Jf2.FormToJf2Idempotent | src/jf2.js:5-15 | converting a converted form again gives the same post |
| ParseBody.Normalize | src/parseBody.js:19-20 | one trailing `[]` is removed, and nothing else |
| ParseBody.AddProperty | src/parseBody.js:18-27 | a plain field overwrites. A `name[]` field appends to the array under `name`, starting one when the key is absent or falsy, and throws onto a truthy non-array. Other keys are untouched |
| ParseBody.ParseMultipart | src/parseBody.js:45-50 | the parsed body is the fields plus `files`, and fails exactly when a field handler throws |
| ParseBody.ParseFieldsKeys | src/parseBody.js:18-45 | when no field handler throws, the parsed body has a key exactly when some field's name, with one trailing `[]` removed, is that key |
| ParseBody.ArrayFieldsAccumulate | src/parseBody.js:19-23 | `name[]` fields accumulate into one array in arrival order |
| ParseBody.AccumulateStep | src/parseBody.js:21-23 | one more `name[]` field appends its value |
| ParseBody.PlainFieldLastWins | src/parseBody.js:24-25 | a plain field is worth the value of its last occurrence |
| ParseBody.GetAll | src/parseBody.js:59 | a key has values exactly when some pair carries it |
| ParseBody.DataToJson | src/parseBody.js:56-64 | a missing form gives nothing; otherwise the keys are exactly the field names with `[]` stripped |
| ParseBody.DataToJsonValue | src/parseBody.js:58-63 | a key with one value maps to that scalar, and a key with several maps to all of them in order |
| ParseBody.SingleArrayFieldIsScalar | src/parseBody.js:61 | a lone `tags[]` field gives a scalar, not a one-element array |
| Content.FirstTruthy | src/content.js:22 | the cite is the first truthy one of the candidates, and is missing exactly when none is truthy |
| Content.GenerateSlug | src/content.js:14-27 | every generated slug is a slug |
| Content.ExplicitSlugWins | src/content.js:16-18 | a truthy `mp-slug` is the slug of any post, whatever its type, name or prefix: the slug of the `mp-slug` text, with no prefix |
| Content.ArticleSlugIsName | src/content.js:16-20 | an article without `mp-slug` but with a truthy name is slugged from the name alone, whatever the prefix |
| Content.PrefixedNameSlug | src/content.js:16-20 | any other post without `mp-slug` but with a truthy name is slugged from `<prefix>-<name>` when the prefix is truthy, and from the name alone otherwise |
| Content.CitedWorkSlug | src/content.js:16-26 | a post with neither `mp-slug` nor name is slugged from the first truthy one of `watch-of`, `read-of`, `listen-of`, `play-of`: the prefix and a hyphen unless it is an article or the prefix is falsy, then the work's name, a hyphen and its publication date |
| Content.CitedJoin | src/content.js:15-26 | the parts of such a slug, joined by hyphens, read as the prefix part, the work's name, a hyphen and its date |
| Content.ExplicitSlugExample | src/content.js:17-18 | `mp-slug: "My Post"` gives `my-post` for every type and prefix |
| Content.ArticleSlugExample | src/content.js:16-20 | the article `{name: "Title"}` gives `title`, whatever the prefix |
| Content.CitedWorkExample | src/content.js:16-26 | a watch of `{name: "Star Wars", published: 1977}` at second 1234 gives `1234-star-wars-1977` |
| Content.GetPost | src/content.js:29-35 | an unmappable URL is a 400, a missing file a 404; otherwise the stored document for that filename |
| Content.UploadImage | src/content.js:37-43 | an upload yields a URL exactly when the file has a truthy filename and the store accepts it. The URL is `me` followed by the media filename of that file at that instant |
| Content.Photos | src/content.js:61-70 | there are never more photos than uploaded files |
| Content.PhotosAreUploads | src/content.js:61-70 | every photo is the URL some file's upload gave, and there is one photo per file exactly when every upload succeeds |
| Content.UploadedUrl | src/content.js:63-65 | one file contributes its upload URL, or nothing |
| Content.PhotosInOrder | src/content.js:62-65 | photos are listed in upload order |
| Content.AllUploadsListed | src/content.js:62-65 | when every upload succeeds, photo i is the URL of file i |
| Content.FailedUploadsSkipped | src/content.js:63-68 | failed uploads contribute nothing |
| Content.AttachFiles | src/content.js:60-72 | truthy `files` is always removed. `photo` is set to the upload URLs when at least one succeeded and is otherwise unchanged. A non-iterable `files` throws. Other keys are untouched |
| Content.WithTitle | src/content.js:48-50 | a like or bookmark without a name takes the fetched title; nothing else changes |
| Content.Stamp | src/content.js:51-52 | `date` is stamped when neither `date` nor `published` is present, `updated` otherwise; nothing else changes |
| Content.StampedIsDated | src/content.js:52 | after stamping, a post always has a `date` or `published` |
| Content.PostTypeOf | src/content.js:46-47 | a missing or empty post has no type; otherwise the classifier's type |
| Content.PostSlug | src/content.js:54 | the slug path starts with the post type's name and a slash |
| Content.Location | src/content.js:78 | the location is `me` without a trailing slash, a slash, and the slug path |
| Content.Publish | src/content.js:55-78 | an existing file is a 400 "file exists". Otherwise exactly one file is added at the derived filename, holding the written post; other files are unchanged; the location is returned |
| Content.CreateContent | src/content.js:45-79 | an unclassifiable post is a 400; otherwise the post is prepared and published under its slug. A successful create keeps every existing file as it was |
| Content.CreatedUrl | src/content.js:53-78 | the URL create answers lies under `me`, a slash and the post type's directory |
| Content.LocationOfTypedSlug | src/content.js:78 | a slug path under a type directory gives a URL under that directory |
| Content.CreateTwiceFails | src/content.js:57-58 | creating the same post again at the same instant fails with "file exists" |
| Content.LocationNamesFile | src/content.js:54-78 | the location of a slug maps back to the filename the post was written to |
| Content.CreatedPostIsFound | src/content.js:45-79 | the location create returns leads back to the created document |
| Content.TypedSlugEnd | src/config.js:32 | a non-empty slug gives a path that does not end in a slash |
| Content.EmptyArticleSlugMissesFile | src/content.js:54-78 | an article whose title has no slug characters is written to `article/.md`, but its location maps to `article.md` |
| Content.UnsluggableTitle | src/content.js:19-26 | a title of punctuation only gives an empty slug |
| Content.EmptySlugPaths | src/config.js:32-33 | an empty slug gives the filename `src/article/.md` and a location ending in `/article/` |
| Content.EmptySlugUrl | src/utils.js:28-31 | the URL ending in `/article/` maps to `src/article.md` |
| Content.PatchProps | src/mf2.js:9-11 | an add patch is usable exactly when all its values are arrays; otherwise `filter` throws (500) |
| Content.DeletePatch | src/mf2.js:24-30 | a map-form delete throws (500) exactly when some entry has a non-array value under a key the item holds with values. Otherwise its keys are the entry keys, and each holds what the last entry with that key removes |
| Content.RemovedProps | src/mf2.js:25-26 | the removal map has exactly the entry keys, and the last entry for a key decides what it removes |
| Content.DeletePatchOfArrays | src/mf2.js:24-30 | for a patch of arrays only, the map-form delete reads the same map as an add |
| Content.HandleUpdate | src/content.js:81-85 | a truthy `add` decides: non-array values throw, else the add patch. Otherwise a truthy `delete` decides: an array deletes the named keys, an object deletes values (throwing as the map-form delete does), anything else changes nothing. Otherwise a truthy `replace` is applied. Otherwise nothing changes. A change never touches the type, and every throw is 500 |
| Content.AddTakesPrecedence | src/content.js:82 | a truthy `add` decides alone, whatever else the body holds |
| Content.DeleteTakesPrecedence | src/content.js:83-84 | without a truthy `add`, a truthy `delete` decides alone, whatever `replace` says |
| Content.DeleteOfAbsentProperty | src/mf2.js:24-30 | a map-form delete of a property the item lacks changes nothing, whatever value it lists |
| Content.SoftDeletePatch | src/content.js:106 | soft delete is the add of `deleted: [true]` |
| Content.UndeletePatch | src/content.js:113 | undelete is the deletion of the key `deleted` |
| Content.Mf2Of | src/content.js:90-92 | a stored post converts exactly when its translated header holds no `null` (otherwise 500); the converted item is the corrected `toMf2` of that header |
| Content.UpdateContent | src/content.js:87-103 | a lookup failure, a post holding `null` or a failing patch is returned as it is, and no change is "nothing to update". Otherwise only the post's file is rewritten, with the updated item. Success answers the URL and keeps every file; a 500 comes only from the conversion or the patch |
| Content.UpdateNeedsPatch | src/content.js:87-94 | an update succeeds only when its body carries a truthy `add`, `delete` or `replace` |
| Content.Rewrite | src/content.js:94-102 | no change is "nothing to update"; otherwise only that one file is rewritten |
| Content.DeleteContent | src/content.js:105-111 | soft delete is the update adding `deleted` and keeps every file; permanent delete removes the post's file after the lookup |
| Content.UndeleteContent | src/content.js:113 | undelete is the update deleting `deleted`; when it succeeds it answers the URL and keeps every file |
| Content.SoftDeleteTwiceFails | src/content.js:106 | soft-deleting a readable post already marked deleted is "nothing to update" |
| Content.UndeleteLiveFails | src/content.js:113 | undeleting a readable post that is not marked deleted is "nothing to update" |
| Content.SoftDeleteKeepsFile | src/content.js:106 | soft-deleting a readable live post succeeds and keeps every file |
| Endpoint.ActionOf | src/index.js:89 | the action is the body's truthy `action`, else the default, lower-cased. A missing or `null` body, or a non-string action, throws |
| Endpoint.LowerIdempotent | src/index.js:89 | lower-casing twice is lower-casing once |
| Endpoint.ScopeAllows | src/index.js:90 | the action is allowed exactly when the scope grants it; a missing scope throws |
| Endpoint.Dispatch | src/index.js:96-108 | an action other than create/update/delete/undelete is a 400 naming it. Delete is the update that adds `deleted: [true]` and undelete the update that deletes `deleted`, both for the body's `url`; a delete keeps every file |
| Endpoint.DispatchCreate | src/index.js:97-98 | create is a bare 400 exactly when the body's jf2 has no post type, and a successful create stores exactly one new file |
| Endpoint.DispatchByUrl | src/index.js:99-104 | update, delete and undelete answer a failed lookup of the body's `url` with that failure; success answers that URL with the same set of files; an update succeeds only when the body carries a truthy `add`, `delete` or `replace` |
| Endpoint.MicropubPost | src/index.js:89-120 | a `scope` that is missing or not a string is a 500 and insufficient scope a 403, both changing nothing. 201 only for create, 204 only for update/delete/undelete. Any failure that changes the store is a 400, and an unknown action changes nothing |
| Endpoint.Act | src/index.js:95-120 | a permitted action answers 201 only for create and 204 only for update, delete and undelete. An unknown action fails and changes nothing, a failure after a change is a 400, and a delete keeps every file |
| Endpoint.Respond | src/index.js:110-120 | a failed action changes nothing. An empty result is a 400. A create answers 201 with the location, any other action 204 |
| Endpoint.MicropubHandler | src/index.js:80-121 | an unconfigured server is a 400 and a method other than GET or POST a 405. A failed authorization answers its own failure (401, 403 or 400) and changes nothing. An authorized GET is the query answer for the body. GET never changes the store, and only POST can. A 401, 403, 405 or 500 never changes the store |
| Endpoint.IsConfigured | src/index.js:52 | a server is configured exactly when it has a store, a truthy `me` and a truthy token endpoint |
| Endpoint.IsMethodAllowed | src/index.js:54 | a method is allowed exactly when it is GET or POST |
| Endpoint.MicropubQuery | src/index.js:56-77 | no query is a 400. The answer is a configuration object exactly when `q` is `config` or a configuration key: the whole configuration, or an object with that key alone. Any other query is a 400 unless it is `q=source` with a truthy `url`, which is the source query. A query never answers 201, 204 or a media listing |
| Endpoint.SourceQuery | src/index.js:69-77 | a lookup failure is returned and a post holding `null` is a 500. Otherwise the answer is the whole item, or, when properties are requested, exactly the requested properties the item has, with their values |
| Endpoint.NotLessTransitive | src/index.js:134 | the descending order is transitive |
| Endpoint.Insert | src/index.js:134 | inserting into a descending list keeps it descending and adds exactly one element |
| Endpoint.SortDesc | src/index.js:134 | the sorted listing is descending and a permutation of the input |
| Endpoint.SortDescOfSorted | src/index.js:134 | sorting an already descending list leaves it as it is |
| Endpoint.MediaUrls | src/index.js:129-132 | each file's URL is `me` followed by its path |
| Endpoint.Page | src/index.js:135 | the page is the window starting at `offset`: exactly `limit` items, or all that remain after `offset` when fewer do (none past the end), in their sorted order |
| Endpoint.MediaQuery | src/index.js:123-141 | anything but `q=source` is a 400, and a missing directory a 400. An existing directory always gives a listing: the items are the sorted URLs from `offset` on; `count` is their number, which is exactly the default-10 `limit` or all that remain after `offset` when fewer do; `total` is the number of files |
| Endpoint.SliceSorted | src/index.js:135 | a slice of a descending list is descending and part of it |
| Endpoint.MediaHandler | src/index.js:143-167 | the same gates as for posts. GET is the listing. An authorized POST is answered exactly as `MediaPost` answers its body and token |
| Endpoint.MediaPost | src/index.js:150-163 | a bad action or a failed scope check answers that failure; a scope without `media create` is a 403. With scope, no file is a 400 "no files to upload"; otherwise the first file's upload decides: its failure, a 400 when it gives no URL, or 201 with the uploaded URL, which lies under the media directory |
| Endpoint.FirstFile | src/index.js:155-156 | there is a first file exactly when `files` has a length, and it is the array's first element, or the string's first character |
| Endpoint.HandlerDeleteKeepsFiles | src/index.js:101-102 | a delete through the handler never removes a file |
| Endpoint.HandlerUpdateKeepsFiles | src/index.js:99-104 | an update or undelete through the handler never adds or removes a file, and an update answers 204 only when its body carries a patch |
| Endpoint.HandlerCreateAddsOneFile | src/index.js:97-115 | a 201 from the handler means exactly one new file was stored, all earlier files kept |
| Endpoint.MediaScopeEitherWord | src/index.js:152-153 | a token granted `media` or `create` may upload, and one granted only `update` may not |
| Endpoint.PairScope | src/auth.js:34-38 | a one-word scope grants a two-word action exactly when it is one of the two words |

## Left out

- YAML serialisation and parsing: a document is its header entries and body text, and the store keeps that pair instead of the text.
- The `mf2tojf2` library: it is the parameter `mf2ToJf2`, and `jsonToJf2` is only a call to it. `toJf2` runs for every POST action, not only create (src/index.js:92), and a form body loses its `h` key there; `update`, `delete` and `undelete` read only `action`, `url` and the patch keys, and the parameter never fails, so the model's dispatch gives the same answers.
- Fetches: the page title of a like or bookmark is the parameter `title`, and the token endpoint call is the parameter `validate`.
- Request decoding plumbing (Busboy, streams, `req.json`, `formData`, URL search parameters): the decoded body is an input. A field handler that throws is modelled as a missing body; only the multipart stream's `error` event rejects the parse in the source (src/parseBody.js:46), and what the stream does with an exception from its listener is not modelled.
- `new URL` parsing: it is the parameter `parse`, which gives an origin and a pathname or fails.
- Response construction and JSON serialisation: answers are the `Endpoint.Response` datatype.
- The storage backend (`src/store.js`): the store is a map, and every write, upload listing and delete succeeds unless a parameter says otherwise. This makes "file cannot be updated" and "file cannot be deleted" unreachable.
- Clock reads: the `Clock` parameter holds one instant, in milliseconds and as an ISO string, and stands for every read in one request: the `new Date()` of create and the one `mediaFilename` makes per upload (src/config.js:34). Uploads that straddle a second boundary would get a later timestamp in the source.
- Key-order-sensitive deep equality and reference equality of nested values: values compare structurally, and mf2 properties are a map.
- The patch operations' `undefined` result for a missing item, properties map or patch: the handler only ever passes a converted item with properties and a truthy patch.
- `Endpoint.MediaQuery`: string-valued `offset`/`limit` (concatenated, not added, by the source) and negative offsets are not modelled; paging parameters are natural numbers.
- `Endpoint.ActionOf`: lower-cases ASCII letters only, while `toLowerCase` maps all of Unicode. An action with non-ASCII capitals (`"CRÉATE"`) keeps them in the model; no non-ASCII character lower-cases to a letter of `create`, `update`, `delete`, `undelete` or `media`, so both dispatch the same action. For such an unsupported action they can differ in the scope check and in the text of the "not supported" message.
- `Endpoint.SortDesc`: strings are compared by code point, while JavaScript's `<` compares UTF-16 code units. Listings that mix characters above U+FFFF with characters in U+E000-U+FFFF (`1_😀` against `1_Ａ`) sort in the opposite order to the source.
- `Utils.Slugify`: lower-casing is ASCII only. `\w` is ASCII in the source as well, so the model differs only for the few non-ASCII characters whose lower case is ASCII (the Kelvin sign, the dotted capital I): the source keeps their ASCII letter and the model drops them.
- Prototype keys such as `__proto__` or `constructor` in dictionaries and objects.
- A string value in a map-form delete patch, under a key the item holds with values: the source matches substrings through `String.prototype.includes`, and the model treats it like any other non-array value (500). Under a key the item lacks or holds empty, the model, like the source, removes nothing.
- `Auth.IsAuthorized`: compares `me` strictly, while the source's `!=` would also accept a non-string that coerces to `me`.
- Custom `formatSlug`, `formatFilename` and `mediaFilename` options: only the defaults are modelled.
- Permanent delete is modelled in `Content.DeleteContent`, but the handler never requests it.
- Logging.
- Numbers: `Values.Num` holds integers only, so a header value such as `rating: 4.5` has no model; floating point is not modelled.
- An option passed explicitly as `undefined`: `{...defaults, ...options}` copies it over the default (so `translateProps: undefined` turns translation off), but `Config.UserOptions` cannot express an explicit `undefined`, only a left-out option.
- `Jf2.FormToJf2`: the copying of keys other than `type` and `h` is stated only for forms without repeated keys.
- `ParseBody.ArrayFieldsAccumulate`: stated only when no plain field of the same key occurs among the fields.
- `Jf2.FormToJf2`: `type` is the first key of the result only in the model. JavaScript enumerates integer-like keys (`"1"`) before `type`, while the model keeps every key in insertion order.
- `Jf2.FormTypeFirst`: holds for the model's insertion order; in the source an integer-like key of the form comes before `type`.
- `Jf2.AssignKeepsHead`: holds for the model's insertion order; JavaScript's `Object.assign` would list an integer-like key of the source object before the target's head.
- `Frontmatter.ParseFrontmatter`: `type` is the first key of the parsed object only in the model; an integer-like header key comes before it in JavaScript.
- `Frontmatter.Body`: a truthy `content` that is neither a string nor an object with a truthy `html` is written as its string conversion. That is a modelling choice: the YAML library that writes the body is not part of this model and may reject such a value instead.

## Findings

| source | as written | input that shows it | evidently intended | confidence | as-written member | corrected member |
|---|---|---|---|---|---|---|
| src/frontmatter.js:52 | `typeof value === 'object' && value.type` is evaluated for `null`, whose type is `'object'`, so reading `.type` throws a `TypeError`. A like or bookmark whose page has no `<title>` is stored with `name: null` (src/content.js:48-50, src/utils.js:5), so every later update, delete or query of that post fails with 500 | the post `{type: 'entry', name: null}`, exhibited by Frontmatter.NullTitleCrashes | a `null` value is wrapped as `[null]` like any other scalar | not executed | Frontmatter.ToMf2AsWritten | Frontmatter.ToMf2 |

=== FILE: auth.dfy ===
/** Token extraction, token verification decisions and scope checks. The call
    to the token endpoint is a parameter. */
module Auth {
  import opened Wrappers
  import opened Values
  import opened Text

  /** `isValidScope`: `requiredScopes.split(' ').some(...)` over the tokens
      of `scope`. It holds exactly when the two token lists share a token. */
  function IsValidScope(scope: string, required: string): (b: bool)
    ensures b <==> exists t :: t in Split(required, ' ') && t in Split(scope, ' ')
  {
    var words := Split(required, ' ');
    var valid := Split(scope, ' ');
    var b := AnyIncluded(words, valid);
    assert b <==> exists t :: t in words && t in valid by {
      if b {
        var i :| 0 <= i < |words| && words[i] in valid;
        assert words[i] in words;
      }
      if exists t :: t in words && t in valid {
        var t :| t in words && t in valid;
        var i :| 0 <= i < |words| && words[i] == t;
      }
    }
    b
  }

  /** `words.some(w => valid.includes(w))`, scanning from the front. */
  function AnyIncluded(words: seq<string>, valid: seq<string>): (b: bool)
    ensures b <==> exists i :: 0 <= i < |words| && words[i] in valid
    decreases |words|
  {
    if |words| == 0 then false
    else if words[0] in valid then true
    else
      var rest := AnyIncluded(words[1..], valid);
      assert forall i :: 1 <= i < |words| ==> words[i] == words[1..][i - 1];
      rest
  }

  /** Scope checking is symmetric in its two arguments. */
  lemma ScopeSymmetric(a: string, b: string)
    ensures IsValidScope(a, b) <==> IsValidScope(b, a)
  {
  }

  /** A scope list grants every one of its own tokens, and a token grants
      nothing absent from the list. */
  lemma {:induction false} ScopeOfListedToken(scope: string, action: string)
    requires ' ' !in action
    ensures IsValidScope(scope, action) <==> action in Split(scope, ' ')
  {
    assert Split(action, ' ') == [action] by {
      SplitWithoutSeparator(action);
    }
  }

  /** A string without the separator splits into itself. */
  lemma {:induction false} SplitWithoutSeparator(s: string)
    requires ' ' !in s
    ensures Split(s, ' ') == [s]
    decreases |s|
  {
    if |s| > 0 {
      assert ' ' !in s[1..] by {
        assert forall c :: c in s[1..] ==> c in s;
      }
      SplitWithoutSeparator(s[1..]);
      assert [s[0]] + s[1..] == s;
    }
  }

  /** The segment after the first space of an `Authorization` header
      (`split(' ')[1]`), if there is one. */
  function BearerToken(header: Option<string>): (r: Option<string>)
    ensures r.Some? <==> header.Some? && |Split(header.value, ' ')| >= 2
    ensures r.Some? ==> ' ' !in r.value
  {
    match header
    case None => None
    case Some(h) =>
      var parts := Split(h, ' ');
      if |parts| >= 2 then
        SplitPiecesFree(h, ' ');
        assert parts[1] in parts;
        Some(parts[1])
      else None
  }

  /** `body?.access_token`: only an object body carries one. */
  function BodyToken(body: Option<Value>): (r: Option<Value>)
    ensures r.Some? <==> body.Some? && body.value.Obj? && "access_token" in Keys(body.value.entries)
    ensures r.Some? ==> ("access_token", r.value) in body.value.entries
  {
    if body.Some? && body.value.Obj? then Get(body.value.entries, "access_token") else None
  }

  /** `parseToken`: a truthy header token, else the body's token. Both present
      is an `invalid_request` (section 3.1 of RFC 6750). */
  function ParseToken(header: Option<string>, body: Option<Value>): (r: Result<Option<Value>>)
    ensures r.Err? <==> (BearerToken(header).Some? && BearerToken(header).value != "")
                        && (BodyToken(body).Some? && Truthy(BodyToken(body).value))
    ensures r.Err? ==> r.error.Status() == 400
    ensures r.Ok? && BearerToken(header).Some? && BearerToken(header).value != "" ==>
              r.value == Some(Str(BearerToken(header).value))
    ensures r.Ok? && !(BearerToken(header).Some? && BearerToken(header).value != "") ==>
              r.value == BodyToken(body)
  {
    var bearer := BearerToken(header);
    var access := BodyToken(body);
    var bearerTruthy := bearer.Some? && bearer.value != "";
    var accessTruthy := access.Some? && Truthy(access.value);
    if bearerTruthy && accessTruthy then
      Err(BadRequest("access token is present in the header and POST body"))
    else if bearerTruthy then Ok(Some(Str(bearer.value)))
    else Ok(access)
  }

  /** `isAuthorized`: no truthy token is Unauthorized; a token the endpoint
      does not confirm, or confirms for another `me`, is Forbidden; otherwise
      the verification response. `validate` stands for the token endpoint
      call; `None` is a failed call. */
  function IsAuthorized(header: Option<string>, body: Option<Value>,
                        validate: Value -> Option<Value>, me: string): (r: Result<Entries>)
    ensures ParseToken(header, body).Err? ==> r == Err(ParseToken(header, body).error)
    ensures ParseToken(header, body).Ok? ==>
              var token := ParseToken(header, body).value;
              if token.None? || !Truthy(token.value) then r == Err(Unauthorized)
              else
                var auth := validate(token.value);
                if auth.Some? && auth.value.Obj? && Get(auth.value.entries, "me") == Some(Str(me))
                then r == Ok(auth.value.entries)
                else r.Err? && r.error.Status() == 403
  {
    var token :- ParseToken(header, body);
    if token.None? || !Truthy(token.value) then Err(Unauthorized)
    else
      var auth := validate(token.value);
      if auth.None? || !Truthy(auth.value) then Err(Forbidden(""))
      else if auth.value.Obj? && Get(auth.value.entries, "me") == Some(Str(me)) then Ok(auth.value.entries)
      else Err(Forbidden(""))
  }

  /** The token of a `Bearer <token>` header is the text after the space. */
  lemma {:induction false} BearerTokenOfScheme(h: string)
    requires ' ' !in h
    ensures BearerToken(Some("Bearer " + h)) == Some(h)
  {
    SplitWithoutSeparator(h);
    SplitWithoutSeparator("Bearer");
    SplitJoin(["Bearer", h], ' ');
    assert Join(["Bearer", h], [' ']) == "Bearer " + h;
  }

  /** The two token sources are exclusive: a truthy token in both places is
      rejected whatever the validator says. */
  lemma {:induction false} TokenInBothPlacesRejected(h: string, token: Value, validate: Value -> Option<Value>, me: string)
    requires ' ' !in h && h != ""
    requires Truthy(token)
    ensures IsAuthorized(Some("Bearer " + h), Some(Obj([("access_token", token)])), validate, me).Err?
    ensures IsAuthorized(Some("Bearer " + h), Some(Obj([("access_token", token)])), validate, me).error.Status() == 400
  {
    BearerTokenOfScheme(h);
  }
}

=== FILE: config.dfy ===
/** The endpoint's options: defaults, the user's overrides, and the default
    path formatters. */
module Config {
  import opened Wrappers
  import opened Values
  import opened Text
  import Utils

  /** The options the endpoint reads. `hasStore` stands for the presence of a
      store object; the store itself is modelled by the operations on it. */
  datatype Options = Options(
    me: string,
    tokenEndpoint: string,
    contentDir: string,
    mediaDir: string,
    translateProps: bool,
    config: Entries,
    hasStore: bool)

  /** What a user passes to the constructor; `None` is an option the user
      leaves out. */
  datatype UserOptions = UserOptions(
    me: Option<string>,
    tokenEndpoint: Option<string>,
    contentDir: Option<string>,
    mediaDir: Option<string>,
    translateProps: Option<bool>,
    config: Option<Entries>,
    hasStore: bool)

  const DefaultContentDir: string := "src"
  const DefaultMediaDir: string := "uploads"

  /** The default Micropub configuration answered to `q=config`. */
  const DefaultMicropubConfig: Entries := [
    ("media-endpoint", Str("")),
    ("syndicate-to", Arr([])),
    ("post-types", Arr([
      Obj([("type", Str("note")), ("name", Str("Note"))]),
      Obj([("type", Str("photo")), ("name", Str("Photo"))]),
      Obj([("type", Str("reply")), ("name", Str("Reply"))]),
      Obj([("type", Str("bookmark")), ("name", Str("Bookmark"))]),
      Obj([("type", Str("like")), ("name", Str("Like"))]),
      Obj([("type", Str("article")), ("name", Str("Article"))]),
      Obj([("type", Str("rsvp")), ("name", Str("RSVP"))]),
      Obj([("type", Str("repost")), ("name", Str("Repost"))]),
      Obj([("type", Str("watch")), ("name", Str("Watch"))]),
      Obj([("type", Str("read")), ("name", Str("Read"))]),
      Obj([("type", Str("listen")), ("name", Str("Listen"))]),
      Obj([("type", Str("game")), ("name", Str("Game"))])
    ]))
  ]

  /** `{...defaultConfig, ...options}`: every option the user gives wins, the
      rest take the defaults (`me` and `tokenEndpoint` default to empty). */
  function WithDefaults(u: UserOptions): (o: Options)
    ensures u.contentDir.None? ==> o.contentDir == DefaultContentDir
    ensures u.mediaDir.None? ==> o.mediaDir == DefaultMediaDir
    ensures u.translateProps.None? ==> o.translateProps
    ensures u.config.None? ==> o.config == DefaultMicropubConfig
    ensures u.me.None? ==> o.me == ""
    ensures u.tokenEndpoint.None? ==> o.tokenEndpoint == ""
    ensures forall d :: u.contentDir == Some(d) ==> o.contentDir == d
    ensures forall d :: u.mediaDir == Some(d) ==> o.mediaDir == d
    ensures forall m :: u.me == Some(m) ==> o.me == m
    ensures forall t :: u.tokenEndpoint == Some(t) ==> o.tokenEndpoint == t
    ensures forall b :: u.translateProps == Some(b) ==> o.translateProps == b
    ensures forall c :: u.config == Some(c) ==> o.config == c
    ensures o.hasStore == u.hasStore
  {
    Options(
      u.me.GetOr(""),
      u.tokenEndpoint.GetOr(""),
      u.contentDir.GetOr(DefaultContentDir),
      u.mediaDir.GetOr(DefaultMediaDir),
      u.translateProps.GetOr(true),
      u.config.GetOr(DefaultMicropubConfig),
      u.hasStore)
  }

  /** `formatSlug`: the post type as a directory in front of the slug. */
  function FormatSlug(postType: string, slug: string): (r: string)
    ensures StartsWith(r, postType + "/")
    ensures r[|postType| + 1..] == slug
  {
    postType + "/" + slug
  }

  /** `formatFilename`: the directory without one trailing slash, the slug and
      the `.md` extension. */
  function FormatFilename(dir: string, slug: string): (r: string)
    ensures EndsWith(r, "/" + slug + ".md")
    ensures r[..|r| - |slug| - 4] == Utils.DropTrailingSlash(dir)
  {
    Utils.DropTrailingSlash(dir) + "/" + slug + ".md"
  }

  /** `Math.round(ms / 1000)` for a non-negative clock reading. */
  function EpochSeconds(ms: nat): (secs: nat)
    ensures secs * 1000 - 500 <= ms < secs * 1000 + 500
  {
    (ms + 500) / 1000
  }

  /** `mediaFilename`: `None` (the source's `null`) for a falsy file name,
      otherwise the directory without one trailing slash, the upload time in
      seconds, `_` and the file name as a string. */
  function MediaFilename(dir: string, filename: Value, nowMs: nat): (r: Option<string>)
    ensures r.None? <==> !Truthy(filename)
    ensures r.Some? ==> EndsWith(r.value, "_" + JsString(filename))
    ensures r.Some? ==> StartsWith(r.value, Utils.DropTrailingSlash(dir) + "/" + NatToString(EpochSeconds(nowMs)))
    ensures r.Some? ==>
              |r.value| == |Utils.DropTrailingSlash(dir)| + 1 + |NatToString(EpochSeconds(nowMs))| + 1 + |JsString(filename)|
  {
    if !Truthy(filename) then None
    else
      var prefix := Utils.DropTrailingSlash(dir) + "/" + NatToString(EpochSeconds(nowMs));
      assert (prefix + "_" + JsString(filename))[..|prefix|] == prefix;
      Some(prefix + "_" + JsString(filename))
  }

  /** A media name splits back into its parts: the directory, the upload
      second and the file name sit at fixed places, so the stored name
      determines the file name. */
  lemma MediaFilenameParts(dir: string, filename: Value, nowMs: nat)
    requires Truthy(filename)
    ensures var head := Utils.DropTrailingSlash(dir) + "/" + NatToString(EpochSeconds(nowMs));
            var name := MediaFilename(dir, filename, nowMs).value;
            && name[..|head|] == head
            && name[|head|] == '_'
            && name[|head| + 1..] == JsString(filename)
  {
  }

  /** Two truthy file names uploaded in the same second to the same
      directory get the same media name exactly when they read the same. */
  lemma MediaFilenameInjective(dir: string, a: Value, b: Value, nowMs: nat)
    requires Truthy(a) && Truthy(b)
    ensures MediaFilename(dir, a, nowMs) == MediaFilename(dir, b, nowMs) <==> JsString(a) == JsString(b)
  {
    MediaFilenameParts(dir, a, nowMs);
    MediaFilenameParts(dir, b, nowMs);
  }
}

=== FILE: content.dfy ===
/** The post operations over a store of documents: slug derivation, lookup,
    creation, update, and soft and permanent deletion. */
module Content {
  import opened Wrappers
  import opened Values
  import opened Text
  import Utils
  import Config
  import Frontmatter
  import PostTypes
  import Mf2Patch
  import SlugLiterals

  /** The store: file name to stored document. A document is the stored text
      already split into its header and body. */
  type Store = map<string, Frontmatter.Doc>

  /** `v?.k` for a value that may not be an object (a property read on any
      other value finds nothing the model distinguishes). */
  function Prop(v: Value, k: string): (r: Option<Value>)
    ensures !v.Obj? ==> r.None?
  {
    if v.Obj? then Get(v.entries, k) else None
  }

  /** Whether `v?.k` is truthy. */
  predicate TruthyProp(v: Value, k: string) {
    Prop(v, k).Some? && Truthy(Prop(v, k).value)
  }

  // ---------------------------------------------------------------------
  // Slugs

  /** The properties naming a cited work, in the order `generateSlug` tries
      them. */
  const CiteKeys: seq<string> := ["watch-of", "read-of", "listen-of", "play-of"]

  /** The value of the first key whose value is truthy, as a chain of `||`
      gives it; a chain of falsy values gives nothing the caller can read a
      property from. */
  function FirstTruthy(jf2: Entries, keys: seq<string>): (c: Option<Value>)
    ensures c.Some? <==> exists i :: 0 <= i < |keys| && TruthyAt(jf2, keys[i])
    ensures c.Some? ==> Truthy(c.value)
    ensures forall i ::
              (0 <= i < |keys| && TruthyAt(jf2, keys[i]) && forall j :: 0 <= j < i ==> !TruthyAt(jf2, keys[j]))
              ==> c == Get(jf2, keys[i])
    decreases |keys|
  {
    if |keys| == 0 then None
    else if TruthyAt(jf2, keys[0]) then Get(jf2, keys[0])
    else
      var c := FirstTruthy(jf2, keys[1..]);
      assert forall i :: 1 <= i < |keys| ==> keys[1..][i - 1] == keys[i];
      c
  }

  /** The name and publication date of a cited work, when truthy. */
  function CiteParts(cite: Option<Value>): (parts: seq<string>)
    ensures |parts| <= 2
  {
    match cite
    case None => []
    case Some(c) =>
      (if TruthyProp(c, "name") then [JsString(Prop(c, "name").value)] else [])
      + (if TruthyProp(c, "published") then [JsString(Prop(c, "published").value)] else [])
  }

  /** Whether the slug starts with the prefix: never for articles, never
      with an explicit `mp-slug`, never with a falsy prefix. */
  predicate Prefixed(postType: string, jf2: Entries, prefix: Value) {
    postType != "article" && !TruthyAt(jf2, "mp-slug") && Truthy(prefix)
  }

  /** The parts `generateSlug` joins: the prefix if any, then the `mp-slug`,
      else the `name`, else the cited work's name and date. */
  function SlugParts(postType: string, jf2: Entries, prefix: Value): seq<string> {
    (if Prefixed(postType, jf2, prefix) then [JsString(prefix)] else [])
    + (if TruthyAt(jf2, "mp-slug") then [JsString(Get(jf2, "mp-slug").value)]
       else if TruthyAt(jf2, "name") then [JsString(Get(jf2, "name").value)]
       else CiteParts(FirstTruthy(jf2, CiteKeys)))
  }

  /** `generateSlug`: the hyphen-joined parts, slugified. */
  function GenerateSlug(postType: string, jf2: Entries, prefix: Value): (slug: string)
    ensures Utils.IsSlug(slug)
  {
    Utils.Slugify(Join(SlugParts(postType, jf2, prefix), "-"))
  }

  /** What the prefix contributes in front of the name or cited work: the
      prefix and a hyphen, or nothing. */
  function Lead(postType: string, jf2: Entries, prefix: Value): string {
    if Prefixed(postType, jf2, prefix) then JsString(prefix) + "-" else ""
  }

  /** A truthy `mp-slug` decides the slug alone, whatever the type, the name
      or the prefix: it is slugified as given. */
  lemma {:induction false} ExplicitSlugWins(postType: string, jf2: Entries, prefix: Value)
    requires TruthyAt(jf2, "mp-slug")
    ensures GenerateSlug(postType, jf2, prefix) == Utils.Slugify(JsString(Get(jf2, "mp-slug").value))
  {
    assert SlugParts(postType, jf2, prefix) == [JsString(Get(jf2, "mp-slug").value)];
  }

  /** An article is named by its title alone, without the prefix. */
  lemma {:induction false} ArticleSlugIsName(jf2: Entries, prefix: Value)
    requires !TruthyAt(jf2, "mp-slug") && TruthyAt(jf2, "name")
    ensures GenerateSlug("article", jf2, prefix) == Utils.Slugify(JsString(Get(jf2, "name").value))
  {
    assert SlugParts("article", jf2, prefix) == [JsString(Get(jf2, "name").value)];
  }

  /** Any other named post is slugged as `<prefix>-<name>`, or as the name
      alone when the prefix is falsy. */
  lemma {:induction false} PrefixedNameSlug(postType: string, jf2: Entries, prefix: Value)
    requires postType != "article" && !TruthyAt(jf2, "mp-slug") && TruthyAt(jf2, "name")
    ensures Truthy(prefix) ==>
              GenerateSlug(postType, jf2, prefix) == Utils.Slugify(JsString(prefix) + "-" + JsString(Get(jf2, "name").value))
    ensures !Truthy(prefix) ==>
              GenerateSlug(postType, jf2, prefix) == Utils.Slugify(JsString(Get(jf2, "name").value))
  {
    var name := JsString(Get(jf2, "name").value);
    if Truthy(prefix) {
      assert SlugParts(postType, jf2, prefix) == [JsString(prefix), name];
      assert Join([JsString(prefix), name], "-") == JsString(prefix) + "-" + name;
    } else {
      assert SlugParts(postType, jf2, prefix) == [name];
    }
  }

  /** A post with neither `mp-slug` nor name is slugged after the first
      truthy cited work, by its name and publication date, behind the prefix
      unless the post is an article. */
  lemma {:induction false} CitedWorkSlug(postType: string, jf2: Entries, prefix: Value, k: nat)
    requires !TruthyAt(jf2, "mp-slug") && !TruthyAt(jf2, "name")
    requires k < |CiteKeys| && TruthyAt(jf2, CiteKeys[k]) && forall j :: 0 <= j < k ==> !TruthyAt(jf2, CiteKeys[j])
    requires TruthyProp(Get(jf2, CiteKeys[k]).value, "name") && TruthyProp(Get(jf2, CiteKeys[k]).value, "published")
    ensures var work := Get(jf2, CiteKeys[k]).value;
            GenerateSlug(postType, jf2, prefix)
              == Utils.Slugify(Lead(postType, jf2, prefix) + JsString(Prop(work, "name").value)
                               + "-" + JsString(Prop(work, "published").value))
  {
    CitedJoin(postType, jf2, prefix, k);
  }

  /** The joined parts of a slug taken from the first truthy cited work. */
  lemma {:induction false} CitedJoin(postType: string, jf2: Entries, prefix: Value, k: nat)
    requires !TruthyAt(jf2, "mp-slug") && !TruthyAt(jf2, "name")
    requires k < |CiteKeys| && TruthyAt(jf2, CiteKeys[k]) && forall j :: 0 <= j < k ==> !TruthyAt(jf2, CiteKeys[j])
    requires TruthyProp(Get(jf2, CiteKeys[k]).value, "name") && TruthyProp(Get(jf2, CiteKeys[k]).value, "published")
    ensures var work := Get(jf2, CiteKeys[k]).value;
            Join(SlugParts(postType, jf2, prefix), "-")
              == Lead(postType, jf2, prefix) + JsString(Prop(work, "name").value) + "-" + JsString(Prop(work, "published").value)
  {
    var work := Get(jf2, CiteKeys[k]).value;
    var title := JsString(Prop(work, "name").value);
    var date := JsString(Prop(work, "published").value);
    var lead := if Prefixed(postType, jf2, prefix) then [JsString(prefix)] else [];
    CitedParts(postType, jf2, prefix, k);
    JoinBehind(lead, title, date);
  }

  /** The parts of a slug taken from the first truthy cited work. */
  lemma {:induction false} CitedParts(postType: string, jf2: Entries, prefix: Value, k: nat)
    requires !TruthyAt(jf2, "mp-slug") && !TruthyAt(jf2, "name")
    requires k < |CiteKeys| && TruthyAt(jf2, CiteKeys[k]) && forall j :: 0 <= j < k ==> !TruthyAt(jf2, CiteKeys[j])
    requires TruthyProp(Get(jf2, CiteKeys[k]).value, "name") && TruthyProp(Get(jf2, CiteKeys[k]).value, "published")
    ensures var work := Get(jf2, CiteKeys[k]).value;
            SlugParts(postType, jf2, prefix)
              == (if Prefixed(postType, jf2, prefix) then [JsString(prefix)] else [])
                 + [JsString(Prop(work, "name").value), JsString(Prop(work, "published").value)]
  {
    var work := Get(jf2, CiteKeys[k]).value;
    assert FirstTruthy(jf2, CiteKeys) == Some(work);
  }

  /** `mp-slug: "My Post"` gives the slug `my-post`. */
  lemma ExplicitSlugExample(postType: string, prefix: Value)
    ensures GenerateSlug(postType, [("mp-slug", Str("My Post"))], prefix) == "my-post"
  {
    ExplicitSlugWins(postType, [("mp-slug", Str("My Post"))], prefix);
    SlugLiterals.MyPost();
  }

  /** The article `{name: "Title"}` gives the slug `title`. */
  lemma ArticleSlugExample(prefix: Value)
    ensures GenerateSlug("article", [("name", Str("Title"))], prefix) == "title"
  {
    ArticleSlugIsName([("name", Str("Title"))], prefix);
    SlugLiterals.Title();
  }

  /** A watch of `{name: "Star Wars", published: 1977}` at second 1234 gives
      the slug `1234-star-wars-1977`. */
  lemma CitedWorkExample()
    ensures GenerateSlug("watch", [("watch-of", Obj([("name", Str("Star Wars")), ("published", Num(1977))]))], Num(1234))
            == "1234-star-wars-1977"
  {
    CitedExampleText();
    SlugLiterals.StarWars();
  }

  /** The text the example above slugifies. */
  lemma CitedExampleText()
    ensures Join(SlugParts("watch", [("watch-of", Obj([("name", Str("Star Wars")), ("published", Num(1977))]))], Num(1234)), "-")
            == "1234-Star Wars-1977"
  {
    var work := Obj([("name", Str("Star Wars")), ("published", Num(1977))]);
    var jf2 := [("watch-of", work)];
    assert Get(jf2, "mp-slug") == None && Get(jf2, "name") == None;
    assert Get(jf2, CiteKeys[0]) == Some(work);
    assert Prop(work, "name") == Some(Str("Star Wars"));
    assert Prop(work, "published") == Some(Num(1977));
    CitedJoin("watch", jf2, Num(1234), 0);
    SlugLiterals.Digits();
    assert Lead("watch", jf2, Num(1234)) == "1234-";
    SlugLiterals.StarWarsText();
  }

  // ---------------------------------------------------------------------
  // Lookup

  /** `getPost`: the file the URL names and its document; BadRequest when
      the URL names no file, NotFound when the store lacks it. */
  function GetPost(url: string, opts: Config.Options, parse: string -> Option<Utils.UrlParts>, store: Store)
    : (r: Result<(string, Frontmatter.Doc)>)
    ensures var f := Utils.UrlToFilename(parse, url, opts.me, opts.contentDir);
            && (f.None? <==> r.Err? && r.error.BadRequest?)
            && (f.Some? && f.value !in store <==> r.Err? && r.error.NotFound?)
            && (r.Ok? ==> f == Some(r.value.0) && r.value.0 in store && r.value.1 == store[r.value.0])
  {
    match Utils.UrlToFilename(parse, url, opts.me, opts.contentDir)
    case None => Err(BadRequest(url + " is not valid"))
    case Some(f) =>
      if f !in store then Err(NotFound(f + " does not exist"))
      else Ok((f, store[f]))
  }

  // ---------------------------------------------------------------------
  // Uploads

  /** `uploadImage`: nothing for a file without a truthy name; the public
      URL when the store (`accepted`) takes the file. The default media
      formatter names every truthy file name, so its BadRequest (`Could not
      generate filename`) never arises. */
  function UploadImage(file: Value, opts: Config.Options, nowMs: nat, accepted: bool): (r: Result<Option<string>>)
    ensures r.Ok?
    ensures r.value.Some? <==> accepted && TruthyProp(file, "filename")
    ensures r.value.Some? ==>
              && StartsWith(r.value.value, opts.me + Utils.DropTrailingSlash(opts.mediaDir) + "/")
              && EndsWith(r.value.value, "_" + JsString(Prop(file, "filename").value))
    ensures r.value.Some? ==>
              r.value.value == opts.me + Config.MediaFilename(opts.mediaDir, Prop(file, "filename").value, nowMs).value
  {
    if !TruthyProp(file, "filename") then Ok(None)
    else
      match Config.MediaFilename(opts.mediaDir, Prop(file, "filename").value, nowMs)
      case None => Err(BadRequest("Could not generate filename"))
      case Some(f) =>
        if accepted then
          assert (opts.me + f)[..|opts.me|] == opts.me;
          assert (opts.me + f)[|opts.me|..] == f;
          Ok(Some(opts.me + f))
        else Ok(None)
  }

  /** The URL one file contributes to `photo`: failures are logged and
      skipped. */
  function UploadedUrl(file: Value, opts: Config.Options, nowMs: nat, accepts: Value -> bool): (u: seq<string>)
    ensures |u| <= 1
    ensures |u| == 1 <==> UploadImage(file, opts, nowMs, accepts(file)).Ok? &&
                          UploadImage(file, opts, nowMs, accepts(file)).value.Some?
  {
    match UploadImage(file, opts, nowMs, accepts(file))
    case Ok(Some(url)) => [url]
    case _ => []
  }

  /** Every URL of `urls` is the upload of one of `files`. */
  predicate FromUploads(urls: seq<string>, files: seq<Value>, opts: Config.Options, nowMs: nat, accepts: Value -> bool) {
    forall j :: 0 <= j < |urls| ==>
      exists i :: 0 <= i < |files| && UploadedUrl(files[i], opts, nowMs, accepts) == [urls[j]]
  }

  /** Every one of `files` is uploaded. */
  predicate AllUploaded(files: seq<Value>, opts: Config.Options, nowMs: nat, accepts: Value -> bool) {
    forall i :: 0 <= i < |files| ==> |UploadedUrl(files[i], opts, nowMs, accepts)| == 1
  }

  /** The uploaded URLs of `files`, in upload order. */
  function Photos(files: seq<Value>, opts: Config.Options, nowMs: nat, accepts: Value -> bool): (urls: seq<string>)
    ensures |urls| <= |files|
    decreases |files|
  {
    if |files| == 0 then []
    else
      Photos(files[..|files| - 1], opts, nowMs, accepts)
      + UploadedUrl(files[|files| - 1], opts, nowMs, accepts)
  }

  /** Every photo URL is the upload of one of the files, and there are as
      many URLs as files exactly when every upload succeeds. */
  lemma {:induction false} PhotosAreUploads(files: seq<Value>, opts: Config.Options, nowMs: nat, accepts: Value -> bool)
    ensures FromUploads(Photos(files, opts, nowMs, accepts), files, opts, nowMs, accepts)
    ensures |Photos(files, opts, nowMs, accepts)| == |files| <==> AllUploaded(files, opts, nowMs, accepts)
    decreases |files|
  {
    if |files| > 0 {
      var init := files[..|files| - 1];
      PhotosAreUploads(init, opts, nowMs, accepts);
      UploadsStep(files, Photos(init, opts, nowMs, accepts), opts, nowMs, accepts);
      AllUploadedStep(files, opts, nowMs, accepts);
    }
  }

  /** One more file keeps `FromUploads`. */
  lemma UploadsStep(files: seq<Value>, before: seq<string>, opts: Config.Options, nowMs: nat, accepts: Value -> bool)
    requires |files| > 0
    requires FromUploads(before, files[..|files| - 1], opts, nowMs, accepts)
    ensures FromUploads(before + UploadedUrl(files[|files| - 1], opts, nowMs, accepts), files, opts, nowMs, accepts)
  {
    var init := files[..|files| - 1];
    var last := UploadedUrl(files[|files| - 1], opts, nowMs, accepts);
    var urls := before + last;
    forall j | 0 <= j < |urls|
      ensures exists i :: 0 <= i < |files| && UploadedUrl(files[i], opts, nowMs, accepts) == [urls[j]]
    {
      if j < |before| {
        var i :| 0 <= i < |init| && UploadedUrl(init[i], opts, nowMs, accepts) == [before[j]];
        assert init[i] == files[i];
      } else {
        assert last == [urls[j]];
      }
    }
  }

  /** All of a non-empty list is uploaded exactly when all but the last file
      are and the last one is too. */
  lemma AllUploadedStep(files: seq<Value>, opts: Config.Options, nowMs: nat, accepts: Value -> bool)
    requires |files| > 0
    ensures AllUploaded(files, opts, nowMs, accepts) <==>
            AllUploaded(files[..|files| - 1], opts, nowMs, accepts)
            && |UploadedUrl(files[|files| - 1], opts, nowMs, accepts)| == 1
  {
    var init := files[..|files| - 1];
    assert forall i :: 0 <= i < |init| ==> init[i] == files[i];
  }


  /** Uploads happen in order: the URLs of a longer list extend those of a
      shorter one. */
  lemma {:induction false} PhotosInOrder(a: seq<Value>, b: seq<Value>, opts: Config.Options, nowMs: nat, accepts: Value -> bool)
    ensures Photos(a + b, opts, nowMs, accepts) == Photos(a, opts, nowMs, accepts) + Photos(b, opts, nowMs, accepts)
    decreases |b|
  {
    if |b| == 0 {
      assert a + b == a;
    } else {
      var init := b[..|b| - 1];
      var last := UploadedUrl(b[|b| - 1], opts, nowMs, accepts);
      assert (a + b)[..|a + b| - 1] == a + init;
      assert (a + b)[|a + b| - 1] == b[|b| - 1];
      assert Photos(a + b, opts, nowMs, accepts) == Photos(a + init, opts, nowMs, accepts) + last;
      assert Photos(b, opts, nowMs, accepts) == Photos(init, opts, nowMs, accepts) + last;
      PhotosInOrder(a, init, opts, nowMs, accepts);
    }
  }

  /** When every upload succeeds, `photo` lists every file, in order. */
  lemma {:induction false} AllUploadsListed(files: seq<Value>, opts: Config.Options, nowMs: nat, accepts: Value -> bool)
    requires forall i :: 0 <= i < |files| ==> |UploadedUrl(files[i], opts, nowMs, accepts)| == 1
    ensures |Photos(files, opts, nowMs, accepts)| == |files|
    ensures forall i :: 0 <= i < |files| ==>
              [Photos(files, opts, nowMs, accepts)[i]] == UploadedUrl(files[i], opts, nowMs, accepts)
    decreases |files|
  {
    if |files| > 0 {
      var init := files[..|files| - 1];
      AllUploadsListed(init, opts, nowMs, accepts);
    }
  }

  /** When no upload succeeds there is no `photo`. */
  lemma {:induction false} FailedUploadsSkipped(files: seq<Value>, opts: Config.Options, nowMs: nat, accepts: Value -> bool)
    requires forall i :: 0 <= i < |files| ==> !accepts(files[i])
    ensures Photos(files, opts, nowMs, accepts) == []
    decreases |files|
  {
    if |files| > 0 {
      FailedUploadsSkipped(files[..|files| - 1], opts, nowMs, accepts);
    }
  }

  /** The upload step of `createContent`: for a truthy `files`, the uploaded
      URLs become `photo` (only if there is one) and `files` goes. Iterating
      a string visits characters, which carry no file name; any other
      non-array is not iterable, a `TypeError`. */
  function AttachFiles(jf2: Entries, opts: Config.Options, nowMs: nat, accepts: Value -> bool): (r: Result<Entries>)
    ensures !TruthyAt(jf2, "files") ==> r == Ok(jf2)
    ensures r.Err? <==> TruthyAt(jf2, "files") && !Get(jf2, "files").value.Arr? && !Get(jf2, "files").value.Str?
    ensures r.Ok? && TruthyAt(jf2, "files") ==> Get(r.value, "files") == None
    ensures r.Ok? ==> forall k :: k != "files" && k != "photo" ==> Get(r.value, k) == Get(jf2, k)
    ensures r.Ok? && TruthyAt(jf2, "files") && Get(jf2, "files").value.Arr? ==>
              var urls := Photos(Get(jf2, "files").value.items, opts, nowMs, accepts);
              Get(r.value, "photo") == if |urls| > 0 then Some(Arr(Strs(urls))) else Get(jf2, "photo")
    ensures r.Ok? && TruthyAt(jf2, "files") && Get(jf2, "files").value.Str? ==>
              Get(r.value, "photo") == Get(jf2, "photo")
  {
    if !TruthyAt(jf2, "files") then Ok(jf2)
    else
      match Get(jf2, "files").value
      case Arr(items) =>
        var urls := Photos(items, opts, nowMs, accepts);
        var withPhotos := if |urls| > 0 then Set(jf2, "photo", Arr(Strs(urls))) else jf2;
        Ok(Delete(withPhotos, "files"))
      case Str(_) => Ok(Delete(jf2, "files"))
      case _ => Err(Internal("jf2.files is not iterable"))
  }

  // ---------------------------------------------------------------------
  // Creation

  /** The clock reading of a request: milliseconds since the epoch and the
      same instant as an ISO 8601 string. */
  datatype Clock = Clock(nowMs: nat, iso: string)

  /** A like or bookmark without a name takes the title of the page it
      points at (`title`, fetched by the caller; `Null` when the page has
      none). */
  function WithTitle(jf2: Entries, t: PostTypes.PostType, title: Value): (r: Entries)
    ensures (t == PostTypes.Like || t == PostTypes.Bookmark) && !TruthyAt(jf2, "name") ==>
              Get(r, "name") == Some(title)
    ensures !((t == PostTypes.Like || t == PostTypes.Bookmark) && !TruthyAt(jf2, "name")) ==> r == jf2
    ensures forall k :: k != "name" ==> Get(r, k) == Get(jf2, k)
  {
    if (t == PostTypes.Like || t == PostTypes.Bookmark) && !TruthyAt(jf2, "name") then Set(jf2, "name", title)
    else jf2
  }

  /** Date stamping: `date` when the post has neither `date` nor
      `published`, `updated` otherwise. An author's date is never
      overwritten. */
  function Stamp(jf2: Entries, iso: string): (r: Entries)
    ensures !TruthyAt(jf2, "date") && !TruthyAt(jf2, "published") ==>
              Get(r, "date") == Some(Str(iso)) && Get(r, "updated") == Get(jf2, "updated")
    ensures TruthyAt(jf2, "date") || TruthyAt(jf2, "published") ==>
              Get(r, "updated") == Some(Str(iso)) && Get(r, "date") == Get(jf2, "date")
    ensures forall k :: k != "date" && k != "updated" ==> Get(r, k) == Get(jf2, k)
  {
    Set(jf2, if !TruthyAt(jf2, "date") && !TruthyAt(jf2, "published") then "date" else "updated", Str(iso))
  }

  /** A stamped post always carries a truthy `date` or `published`. */
  lemma StampedIsDated(jf2: Entries, iso: string)
    requires iso != ""
    ensures TruthyAt(Stamp(jf2, iso), "date") || TruthyAt(Stamp(jf2, iso), "published")
  {
  }

  /** The classification `createContent` relies on; `None` is the source's
      `null` (no type, or nothing to classify). */
  function PostTypeOf(jf2: Option<Entries>): (t: Option<PostTypes.PostType>)
    ensures jf2.None? ==> t.None?
    ensures jf2.Some? ==> (t.None? <==> |jf2.value| == 0)
    ensures jf2.Some? && |jf2.value| > 0 ==> t == Some(PostTypes.ClassifyEntries(jf2.value))
  {
    match jf2
    case None => None
    case Some(e) => PostTypes.Classify(Obj(e)).value
  }

  /** The post as stamped before its slug is derived. */
  function Prepared(jf2: Entries, t: PostTypes.PostType, title: Value, now: Clock): Entries {
    Stamp(WithTitle(jf2, t, title), now.iso)
  }

  /** The post's slug with the type directory: `Math.round(date / 1000)` is
      the prefix. */
  function PostSlug(jf2: Entries, t: PostTypes.PostType, title: Value, now: Clock): (slug: string)
    ensures StartsWith(slug, t.Name() + "/")
  {
    Config.FormatSlug(t.Name(), GenerateSlug(t.Name(), Prepared(jf2, t, title, now), Num(Config.EpochSeconds(now.nowMs))))
  }

  /** The URL of a post: `me` without one trailing slash, `/`, the slug. */
  function Location(me: string, slug: string): (url: string)
    ensures StartsWith(url, Utils.DropTrailingSlash(me) + "/")
    ensures url[|Utils.DropTrailingSlash(me)| + 1..] == slug
  {
    Utils.DropTrailingSlash(me) + "/" + slug
  }

  /** The document `createContent` writes for a stamped post with its files
      attached. */
  function Document(post: Entries, opts: Config.Options, clientId: Value): Frontmatter.Doc {
    var output := if opts.translateProps then Frontmatter.TranslateProperties(post, false) else post;
    Frontmatter.ToFrontmatter(output, clientId)
  }

  /** The writing half of `createContent` for a stamped post and its slug:
      BadRequest (`file exists`) when the file is already stored; otherwise
      the post's URL and the store with exactly one new file. */
  function Publish(post: Entries, slug: string, opts: Config.Options, clientId: Value, nowMs: nat,
                   accepts: Value -> bool, store: Store): (r: Result<(string, Store)>)
    ensures var f := Config.FormatFilename(opts.contentDir, slug);
            && (f in store ==> r == Err(BadRequest("file exists")))
            && (f !in store ==> (r.Err? <==> AttachFiles(post, opts, nowMs, accepts).Err?))
            && (r.Ok? ==>
                  && f !in store
                  && r.value.0 == Location(opts.me, slug)
                  && r.value.1.Keys == store.Keys + {f}
                  && (forall g :: g in store ==> r.value.1[g] == store[g])
                  && r.value.1[f] == Document(AttachFiles(post, opts, nowMs, accepts).value, opts, clientId))
  {
    var f := Config.FormatFilename(opts.contentDir, slug);
    if f in store then Err(BadRequest("file exists"))
    else
      var attached :- AttachFiles(post, opts, nowMs, accepts);
      Ok((Location(opts.me, slug), store[f := Document(attached, opts, clientId)]))
  }

  /** `createContent`: BadRequest for a missing or empty post; otherwise the
      post is stamped, named and written. */
  function CreateContent(jf2: Option<Entries>, opts: Config.Options, clientId: Value, now: Clock,
                         title: Value, accepts: Value -> bool, store: Store): (r: Result<(string, Store)>)
    ensures PostTypeOf(jf2).None? <==> r == Err(BadRequest(""))
    ensures PostTypeOf(jf2).Some? ==>
              var t := PostTypeOf(jf2).value;
              r == Publish(Prepared(jf2.value, t, title, now), PostSlug(jf2.value, t, title, now),
                           opts, clientId, now.nowMs, accepts, store)
    ensures r.Ok? ==> forall g :: g in store ==> g in r.value.1 && r.value.1[g] == store[g]
  {
    var t := PostTypeOf(jf2);
    if t.None? then Err(BadRequest(""))
    else
      Publish(Prepared(jf2.value, t.value, title, now), PostSlug(jf2.value, t.value, title, now),
              opts, clientId, now.nowMs, accepts, store)
  }

  /** The URL create answers is `me`, a slash, the post type and a slash,
      followed by the slug. */
  lemma {:induction false} CreatedUrl(jf2: Option<Entries>, opts: Config.Options, clientId: Value, now: Clock,
                                      title: Value, accepts: Value -> bool, store: Store)
    requires CreateContent(jf2, opts, clientId, now, title, accepts, store).Ok?
    ensures StartsWith(CreateContent(jf2, opts, clientId, now, title, accepts, store).value.0,
                       Utils.DropTrailingSlash(opts.me) + "/" + PostTypeOf(jf2).value.Name() + "/")
  {
    var t := PostTypeOf(jf2).value;
    LocationOfTypedSlug(opts.me, t.Name(), PostSlug(jf2.value, t, title, now));
  }

  /** A slug path under a type directory gives a URL under that directory. */
  lemma LocationOfTypedSlug(me: string, name: string, slug: string)
    requires StartsWith(slug, name + "/")
    ensures StartsWith(Location(me, slug), Utils.DropTrailingSlash(me) + "/" + name + "/")
  {
    var head := Utils.DropTrailingSlash(me) + "/";
    assert Location(me, slug)[..|head| + |name| + 1] == head + slug[..|name| + 1];
  }

  /** A file the store already holds cannot be created again: the same
      request a second time fails with `file exists`. */
  lemma {:induction false} CreateTwiceFails(jf2: Option<Entries>, opts: Config.Options, clientId: Value, now: Clock,
                                            title: Value, accepts: Value -> bool, store: Store)
    requires CreateContent(jf2, opts, clientId, now, title, accepts, store).Ok?
    ensures var again := CreateContent(jf2, opts, clientId, now, title, accepts,
                                       CreateContent(jf2, opts, clientId, now, title, accepts, store).value.1);
            again == Err(BadRequest("file exists"))
  {
  }

  /** With the default formatters, the URL a creation answers leads back to
      the file it wrote, as long as the slug is not empty and the content
      directory is relative. `parse` is the URL parser; it is required to
      split the answered URL into the site's origin and the slug's path. */
  lemma {:induction false} LocationNamesFile(parse: string -> Option<Utils.UrlParts>, me: string, contentDir: string, slug: string)
    requires slug != "" && slug[|slug| - 1] != '/'
    requires contentDir != "" && contentDir[0] != '/'
    requires parse(Location(me, slug)) == Some(Utils.UrlParts(Utils.DropTrailingSlash(me), "/" + slug))
    ensures Utils.UrlToFilename(parse, Location(me, slug), me, contentDir) == Some(Config.FormatFilename(contentDir, slug))
  {
    var d := Utils.StripSlashes(contentDir);
    assert d == Utils.DropTrailingSlash(contentDir);
    assert d != "" by {
      if |contentDir| == 1 {
        assert d == contentDir;
      }
    }
    var p := Utils.StripSlashes("/" + slug);
    assert ("/" + slug)[1..] == slug;
    assert p == slug;
  }

  /** A post created with a non-empty slug is found again under the URL the
      creation answered. */
  lemma {:induction false} CreatedPostIsFound(jf2: Option<Entries>, opts: Config.Options, clientId: Value, now: Clock,
                                              title: Value, accepts: Value -> bool, store: Store,
                                              parse: string -> Option<Utils.UrlParts>)
    requires CreateContent(jf2, opts, clientId, now, title, accepts, store).Ok?
    requires var t := PostTypeOf(jf2).value;
             GenerateSlug(t.Name(), Prepared(jf2.value, t, title, now), Num(Config.EpochSeconds(now.nowMs))) != ""
    requires opts.contentDir != "" && opts.contentDir[0] != '/'
    requires var t := PostTypeOf(jf2).value;
             var slug := PostSlug(jf2.value, t, title, now);
             parse(Location(opts.me, slug)) == Some(Utils.UrlParts(Utils.DropTrailingSlash(opts.me), "/" + slug))
    ensures var created := CreateContent(jf2, opts, clientId, now, title, accepts, store).value;
            var found := GetPost(created.0, opts, parse, created.1);
            found.Ok? && found.value.1 == created.1[found.value.0]
            && found.value.0 == Config.FormatFilename(opts.contentDir, PostSlug(jf2.value, PostTypeOf(jf2).value, title, now))
  {
    var t := PostTypeOf(jf2).value;
    var slug := PostSlug(jf2.value, t, title, now);
    var g := GenerateSlug(t.Name(), Prepared(jf2.value, t, title, now), Num(Config.EpochSeconds(now.nowMs)));
    TypedSlugEnd(t.Name(), g);
    LocationNamesFile(parse, opts.me, opts.contentDir, slug);
  }

  /** A type directory and a non-empty slug make a slug path that does not
      end in a slash. */
  lemma {:induction false} TypedSlugEnd(postType: string, g: string)
    requires g != "" && Utils.IsSlug(g)
    ensures var slug := Config.FormatSlug(postType, g);
            slug != "" && slug[|slug| - 1] != '/'
  {
    var slug := Config.FormatSlug(postType, g);
    assert slug[|slug| - 1] == g[|g| - 1];
    assert Utils.SlugChar(g[|g| - 1]);
  }

  /** An empty slug breaks the way back: an article whose title has no
      character `slugify` keeps is written to `src/article/.md`, but its URL
      maps to `src/article.md`. */
  lemma EmptyArticleSlugMissesFile(parse: string -> Option<Utils.UrlParts>)
    requires parse("https://example.com/article/") == Some(Utils.UrlParts("https://example.com", "/article/"))
    ensures GenerateSlug("article", [("type", Str("entry")), ("name", Str("!!!"))], Num(1)) == ""
    ensures Config.FormatFilename("src", Config.FormatSlug("article", "")) == "src/article/.md"
    ensures Location("https://example.com/", Config.FormatSlug("article", "")) == "https://example.com/article/"
    ensures Utils.UrlToFilename(parse, "https://example.com/article/", "https://example.com/", "src") == Some("src/article.md")
  {
    UnsluggableTitle();
    EmptySlugPaths();
    EmptySlugUrl(parse);
  }

  lemma UnsluggableTitle()
    ensures GenerateSlug("article", [("type", Str("entry")), ("name", Str("!!!"))], Num(1)) == ""
  {
    var jf2 := [("type", Str("entry")), ("name", Str("!!!"))];
    assert Get(jf2, "mp-slug") == None;
    assert Get(jf2, "name") == Some(Str("!!!"));
    assert SlugParts("article", jf2, Num(1)) == ["!!!"];
    assert Utils.KeepOnly(Lower("!!!")) == "";
  }

  lemma EmptySlugPaths()
    ensures Config.FormatFilename("src", Config.FormatSlug("article", "")) == "src/article/.md"
    ensures Location("https://example.com/", Config.FormatSlug("article", "")) == "https://example.com/article/"
  {
    var slug := Config.FormatSlug("article", "");
    assert slug == "article/";
    assert Utils.DropTrailingSlash("src") == "src";
    assert Config.FormatFilename("src", slug) == "src" + "/" + "article/" + ".md";
    assert Utils.DropTrailingSlash("https://example.com/") == "https://example.com";
    assert Location("https://example.com/", slug) == "https://example.com" + "/" + "article/";
    Literals();
  }

  lemma EmptySlugUrl(parse: string -> Option<Utils.UrlParts>)
    requires parse("https://example.com/article/") == Some(Utils.UrlParts("https://example.com", "/article/"))
    ensures Utils.UrlToFilename(parse, "https://example.com/article/", "https://example.com/", "src") == Some("src/article.md")
  {
    assert Utils.DropTrailingSlash("https://example.com/") == "https://example.com";
    assert ("/article/")[1..] == "article/";
    assert Utils.DropTrailingSlash("article/") == "article";
    assert Utils.StripSlashes("/article/") == "article";
    assert Utils.StripSlashes("src") == "src";
    assert Utils.UrlToFilename(parse, "https://example.com/article/", "https://example.com/", "src")
        == Some("src" + "/" + "article" + ".md");
    Literals();
  }

  lemma Literals()
    ensures "src" + "/" + "article/" + ".md" == "src/article/.md"
    ensures "https://example.com" + "/" + "article/" == "https://example.com/article/"
    ensures "src" + "/" + "article" + ".md" == "src/article.md"
  {
  }

  // ---------------------------------------------------------------------
  // Update and deletion

  /** The header data of a stored document: its parsed header, translated
      back to mf2 names when the site translates them. */
  function StoredData(post: Frontmatter.Doc, translate: bool): Entries {
    var parsed := Frontmatter.ParseFrontmatter(post);
    if translate then Frontmatter.TranslateProperties(parsed, true) else parsed
  }

  /** The mf2 item a stored document stands for, converted by `toMf2` as the
      source writes it: a header holding a `null` makes the conversion throw,
      which the handler answers with 500. Otherwise the item is the corrected
      conversion of the stored data. */
  function Mf2Of(post: Frontmatter.Doc, translate: bool): (r: Result<Mf2>)
    ensures r.Err? <==> Frontmatter.HasNull(Obj(StoredData(post, translate)))
    ensures r.Err? ==> r.error.Status() == 500
    ensures r.Ok? ==> r.value == Frontmatter.ToMf2(Obj(StoredData(post, translate)))
  {
    Frontmatter.ToMf2AsWrittenFailsOnNull(Obj(StoredData(post, translate)));
    Frontmatter.ToMf2AsWritten(Obj(StoredData(post, translate)))
  }

  /** The patch of an add: every value must be an array, because `filter`
      is called on each one and throws otherwise. */
  function PatchProps(v: Value): (r: Result<Props>)
    ensures r.Err? <==> ArrayProps(ObjectEntries(v)).None?
    ensures r.Err? ==> r.error.Status() == 500
    ensures r.Ok? ==> Some(r.value) == ArrayProps(ObjectEntries(v))
  {
    match ArrayProps(ObjectEntries(v))
    case None => Err(Internal("value.filter is not a function"))
    case Some(p) => Ok(p)
  }

  /** The property names of a list-form delete, as `delete` reads them. */
  function Names(names: seq<Value>): (r: seq<string>)
    ensures |r| == |names| && forall i :: 0 <= i < |names| ==> r[i] == JsString(names[i])
  {
    seq(|names|, i requires 0 <= i < |names| => JsString(names[i]))
  }

  /** A map-form delete entry that makes `value.includes` throw: its value is
      not an array, and the item holds at least one value under its key, so
      the `filter` callback runs. */
  predicate Throws(entry: (string, Value), props: Props) {
    !entry.1.Arr? && entry.0 in props && props[entry.0] != []
  }

  /** What a map-form delete entry removes: its array, or nothing. */
  function Removed(v: Value): seq<Value> {
    if v.Arr? then v.items else []
  }

  /** `p` holds, under each key of `e`, what the last entry with that key
      removes. */
  predicate LastWins(e: Entries, p: Props) {
    forall i :: 0 <= i < |e| && e[i].0 !in Keys(e[i + 1..]) ==> e[i].0 in p && p[e[i].0] == Removed(e[i].1)
  }

  /** The patch of a map-form delete against the properties `props`. A
      non-array value fails (500) only where the callback runs; under a key
      the item lacks or holds empty it removes nothing. A later entry
      overwrites an earlier one with the same key. */
  function DeletePatch(e: Entries, props: Props): (r: Result<Props>)
    ensures r.Err? <==> exists i :: 0 <= i < |e| && Throws(e[i], props)
    ensures r.Err? ==> r.error.Status() == 500
    ensures r.Ok? ==> forall k :: k in r.value <==> k in Keys(e)
    ensures r.Ok? ==> LastWins(e, r.value)
  {
    if exists i :: 0 <= i < |e| && Throws(e[i], props) then Err(Internal("value.includes is not a function"))
    else Ok(RemovedProps(e))
  }

  /** What each key of a map-form delete removes, built entry by entry so
      that a later entry overwrites an earlier one with the same key. */
  function RemovedProps(e: Entries): (p: Props)
    ensures forall k :: k in p <==> k in Keys(e)
    ensures LastWins(e, p)
    decreases |e|
  {
    if |e| == 0 then map[]
    else
      var init := e[..|e| - 1];
      var m := RemovedProps(init);
      KeysOfPrefix(e);
      LastWinsStep(e, m);
      m[e[|e| - 1].0 := Removed(e[|e| - 1].1)]
  }

  /** The keys of a non-empty object are those before its last entry, then
      the last key. */
  lemma KeysOfPrefix(e: Entries)
    requires |e| > 0
    ensures Keys(e) == Keys(e[..|e| - 1]) + [e[|e| - 1].0]
  {
  }

  /** Appending an entry keeps `LastWins` once the map records that entry. */
  lemma LastWinsStep(e: Entries, m: Props)
    requires |e| > 0 && LastWins(e[..|e| - 1], m)
    ensures LastWins(e, m[e[|e| - 1].0 := Removed(e[|e| - 1].1)])
  {
    forall i | 0 <= i < |e| - 1 && e[i].0 !in Keys(e[i + 1..])
      ensures e[..|e| - 1][i].0 !in Keys(e[..|e| - 1][i + 1..]) && e[i].0 != e[|e| - 1].0
    {
      LastOccurrenceInPrefix(e, i);
    }
  }

  /** The last occurrence of a key before the final entry is also its last
      occurrence in the prefix without that entry. */
  lemma LastOccurrenceInPrefix(e: Entries, i: int)
    requires 0 <= i < |e| - 1 && e[i].0 !in Keys(e[i + 1..])
    ensures e[..|e| - 1][i].0 !in Keys(e[..|e| - 1][i + 1..]) && e[i].0 != e[|e| - 1].0
  {
    var init := e[..|e| - 1];
    var ks := Keys(e[i + 1..]);
    assert ks[|e| - i - 2] == e[|e| - 1].0;
    assert Keys(init[i + 1..]) == ks[..|ks| - 1];
  }

  /** A patch of arrays only is read alike by add and by the map-form delete. */
  lemma DeletePatchOfArrays(e: Entries, props: Props)
    requires forall i :: 0 <= i < |e| ==> e[i].1.Arr?
    ensures DeletePatch(e, props) == Ok(ArrayProps(e).value)
  {
    RemovedArrays(e);
  }

  lemma {:induction false} RemovedArrays(e: Entries)
    requires forall i :: 0 <= i < |e| ==> e[i].1.Arr?
    ensures ArrayProps(e) == Some(RemovedProps(e))
    decreases |e|
  {
    if |e| > 0 {
      var init := e[..|e| - 1];
      assert forall i :: 0 <= i < |e| - 1 ==> init[i] == e[i];
      RemovedArrays(init);
    }
  }

  /** `handleUpdate`: the first truthy one of `add`, `delete` and `replace`
      decides; `None` (the source's `false` or `undefined`) when the update
      changes nothing. An array `delete` names properties, an object `delete`
      lists values, and any other `delete` changes nothing. The type of the
      item is never touched. */
  function HandleUpdate(body: Value, item: Mf2): (r: Result<Option<Mf2>>)
    ensures r.Ok? && r.value.Some? ==> r.value.value.types == item.types && r.value.value != item
    ensures r.Err? ==> r.error.Status() == 500
    ensures TruthyProp(body, "add") ==>
              var p := ArrayProps(ObjectEntries(Prop(body, "add").value));
              && (p.None? ==> r.Err?)
              && (p.Some? ==> r == Ok(Mf2Patch.AddProperties(item, p.value)))
    ensures !TruthyProp(body, "add") && TruthyProp(body, "delete") ==>
              match Prop(body, "delete").value
              case Arr(names) => r == Ok(Mf2Patch.DeleteKeys(item, Names(names)))
              case Obj(entries) =>
                var p := DeletePatch(entries, item.properties);
                && (p.Err? ==> r.Err?)
                && (p.Ok? ==> r == Ok(Mf2Patch.DeleteValues(item, p.value)))
              case _ => r == Ok(None)
    ensures !TruthyProp(body, "add") && !TruthyProp(body, "delete") && TruthyProp(body, "replace") ==>
              r == Ok(Mf2Patch.UpdateProperties(item, ObjectEntries(Prop(body, "replace").value)))
    ensures !TruthyProp(body, "add") && !TruthyProp(body, "delete") && !TruthyProp(body, "replace") ==> r == Ok(None)
  {
    if TruthyProp(body, "add") then
      var p :- PatchProps(Prop(body, "add").value);
      Ok(Mf2Patch.AddProperties(item, p))
    else if TruthyProp(body, "delete") then
      match Prop(body, "delete").value
      case Arr(names) => Ok(Mf2Patch.DeleteKeys(item, Names(names)))
      case Obj(entries) =>
        var p :- DeletePatch(entries, item.properties);
        Ok(Mf2Patch.DeleteValues(item, p))
      case _ => Ok(None)
    else if TruthyProp(body, "replace") then
      Ok(Mf2Patch.UpdateProperties(item, ObjectEntries(Prop(body, "replace").value)))
    else Ok(None)
  }

  /** `add` wins over `delete` and `replace` in the same request. */
  lemma AddTakesPrecedence(add: Value, others: Entries, item: Mf2)
    requires Truthy(add)
    ensures HandleUpdate(Obj([("add", add)] + others), item) == HandleUpdate(Obj([("add", add)]), item)
  {
    assert Get([("add", add)] + others, "add") == Some(add);
  }

  /** Without a truthy `add`, `delete` wins over `replace` in the same
      request. */
  lemma DeleteTakesPrecedence(del: Value, others: Entries, item: Mf2)
    requires Truthy(del) && !TruthyAt(others, "add")
    ensures HandleUpdate(Obj([("delete", del)] + others), item) == HandleUpdate(Obj([("delete", del)]), item)
  {
    assert Get([("delete", del)] + others, "delete") == Some(del);
    assert Get([("delete", del)] + others, "add") == Get(others, "add");
    assert Get([("delete", del)], "add") == None;
  }

  /** A map-form delete of a property the item lacks changes nothing,
      whatever value it lists: the `filter` callback never runs. */
  lemma DeleteOfAbsentProperty(name: string, v: Value, item: Mf2)
    requires name !in item.properties
    ensures HandleUpdate(Obj([("delete", Obj([(name, v)]))]), item) == Ok(None)
  {
    var entries := [(name, v)];
    assert Get([("delete", Obj(entries))], "add") == None;
    assert Get([("delete", Obj(entries))], "delete") == Some(Obj(entries));
    assert !Throws(entries[0], item.properties);
    assert Keys(entries) == [name];
    assert DeletePatch(entries, item.properties) == Ok(map[name := Removed(v)]);
  }

  /** The body of a soft delete: add `deleted: [true]`. */
  const SoftDeleteBody: Value := Obj([("add", Obj([("deleted", Arr([Bool(true)]))]))])

  /** The body of an undelete: delete the `deleted` property. */
  const UndeleteBody: Value := Obj([("delete", Arr([Str("deleted")]))])

  /** The soft-delete body is the add patch `{deleted: [true]}`. */
  lemma SoftDeletePatch(item: Mf2)
    ensures HandleUpdate(SoftDeleteBody, item) == Ok(Mf2Patch.AddProperties(item, map["deleted" := [Bool(true)]]))
  {
    var inner: Entries := [("deleted", Arr([Bool(true)]))];
    assert Get(SoftDeleteBody.entries, "add") == Some(Obj(inner));
    assert inner[..0] == [];
    assert ArrayProps(inner) == Some(map["deleted" := [Bool(true)]]);
  }

  /** The undelete body is the delete list `["deleted"]`. */
  lemma UndeletePatch(item: Mf2)
    ensures HandleUpdate(UndeleteBody, item) == Ok(Mf2Patch.DeleteKeys(item, ["deleted"]))
  {
    assert Get(UndeleteBody.entries, "add") == None;
    assert Get(UndeleteBody.entries, "delete") == Some(Arr([Str("deleted")]));
    var names := [Str("deleted")];
    assert Names(names) == ["deleted"];
  }

  /** `updateContent`: the stored post, patched and written back under the
      same file; the URL is the answer. BadRequest (`nothing to update`)
      when the patch changes nothing. `mf2ToJf2` is the mf2-to-jf2
      conversion library. */
  function UpdateContent(url: string, body: Value, opts: Config.Options, parse: string -> Option<Utils.UrlParts>,
                         mf2ToJf2: Value -> Entries, store: Store): (r: Result<(string, Store)>)
    ensures GetPost(url, opts, parse, store).Err? ==> r == Err(GetPost(url, opts, parse, store).error)
    ensures GetPost(url, opts, parse, store).Ok? ==>
              var (f, post) := GetPost(url, opts, parse, store).value;
              var item := Mf2Of(post, opts.translateProps);
              && (item.Err? ==> r == Err(item.error))
              && (item.Ok? ==>
                    var update := HandleUpdate(body, item.value);
                    && (update.Err? ==> r == Err(update.error))
                    && (update == Ok(None) ==> r == Err(BadRequest("nothing to update")))
                    && (update.Ok? && update.value.Some? ==>
                          && r.Ok? && r.value.0 == url
                          && r.value.1.Keys == store.Keys
                          && (forall g :: g in store && g != f ==> r.value.1[g] == store[g])
                          && r.value.1[f] == Document(mf2ToJf2(Obj([("items", Arr([Item(update.value.value)]))])), opts, Null)))
    ensures r.Ok? ==> r.value.0 == url && r.value.1.Keys == store.Keys
    ensures r.Err? && r.error.Status() == 500 ==>
              GetPost(url, opts, parse, store).Ok? && (Mf2Of(GetPost(url, opts, parse, store).value.1, opts.translateProps).Err? ||
                                                        HandleUpdate(body, Mf2Of(GetPost(url, opts, parse, store).value.1, opts.translateProps).value).Err?)
  {
    match GetPost(url, opts, parse, store)
    case Err(e) => Err(e)
    case Ok((f, post)) =>
      var item :- Mf2Of(post, opts.translateProps);
      var updated :- HandleUpdate(body, item);
      Rewrite(url, f, updated, opts, mf2ToJf2, store)
  }

  /** An update succeeds only when its body carries a truthy `add`,
      `delete` or `replace`: without one there is nothing to update. */
  lemma UpdateNeedsPatch(url: string, body: Value, opts: Config.Options, parse: string -> Option<Utils.UrlParts>,
                         mf2ToJf2: Value -> Entries, store: Store)
    ensures UpdateContent(url, body, opts, parse, mf2ToJf2, store).Ok? ==>
              TruthyProp(body, "add") || TruthyProp(body, "delete") || TruthyProp(body, "replace")
  {
    if UpdateContent(url, body, opts, parse, mf2ToJf2, store).Ok? {
      var item := Mf2Of(GetPost(url, opts, parse, store).value.1, opts.translateProps);
      assert item.Ok?;
      var update := HandleUpdate(body, item.value);
      assert update.Ok? && update.value.Some?;
    }
  }

  /** The writing half of `updateContent`: nothing to write is BadRequest;
      otherwise the file `f` is replaced by the updated item, rendered back
      to jf2, and nothing else changes. */
  function Rewrite(url: string, f: string, updated: Option<Mf2>, opts: Config.Options,
                   mf2ToJf2: Value -> Entries, store: Store): (r: Result<(string, Store)>)
    requires f in store
    ensures updated.None? ==> r == Err(BadRequest("nothing to update"))
    ensures updated.Some? ==>
              && r.Ok? && r.value.0 == url
              && r.value.1.Keys == store.Keys
              && (forall g :: g in store && g != f ==> r.value.1[g] == store[g])
              && r.value.1[f] == Document(mf2ToJf2(Obj([("items", Arr([Item(updated.value)]))])), opts, Null)
  {
    match updated
    case None => Err(BadRequest("nothing to update"))
    case Some(u) => Ok((url, store[f := Document(mf2ToJf2(Obj([("items", Arr([Item(u)]))])), opts, Null)]))
  }

  /** `deleteContent`: a soft delete is an update adding `deleted: [true]`;
      a permanent delete removes the file. */
  function DeleteContent(url: string, opts: Config.Options, permanent: bool, parse: string -> Option<Utils.UrlParts>,
                         mf2ToJf2: Value -> Entries, store: Store): (r: Result<(string, Store)>)
    ensures !permanent ==> r == UpdateContent(url, SoftDeleteBody, opts, parse, mf2ToJf2, store)
    ensures !permanent && r.Ok? ==> r.value.1.Keys == store.Keys
    ensures permanent && GetPost(url, opts, parse, store).Err? ==> r == Err(GetPost(url, opts, parse, store).error)
    ensures permanent && GetPost(url, opts, parse, store).Ok? ==>
              r == Ok((url, store - {GetPost(url, opts, parse, store).value.0}))
  {
    if !permanent then UpdateContent(url, SoftDeleteBody, opts, parse, mf2ToJf2, store)
    else
      var (f, _) :- GetPost(url, opts, parse, store);
      Ok((url, store - {f}))
  }

  /** `undeleteContent`: an update deleting the `deleted` property. */
  function UndeleteContent(url: string, opts: Config.Options, parse: string -> Option<Utils.UrlParts>,
                           mf2ToJf2: Value -> Entries, store: Store): (r: Result<(string, Store)>)
    ensures r == UpdateContent(url, UndeleteBody, opts, parse, mf2ToJf2, store)
    ensures r.Ok? ==> r.value.0 == url && r.value.1.Keys == store.Keys
  {
    UpdateContent(url, UndeleteBody, opts, parse, mf2ToJf2, store)
  }

  /** Soft-deleting a post already marked deleted changes nothing, so it
      fails as `nothing to update`. */
  lemma {:induction false} SoftDeleteTwiceFails(url: string, opts: Config.Options, parse: string -> Option<Utils.UrlParts>,
                                                mf2ToJf2: Value -> Entries, store: Store)
    requires GetPost(url, opts, parse, store).Ok?
    requires Mf2Of(GetPost(url, opts, parse, store).value.1, opts.translateProps).Ok?
    requires var item := Mf2Of(GetPost(url, opts, parse, store).value.1, opts.translateProps).value;
             "deleted" in item.properties && Bool(true) in item.properties["deleted"]
    ensures DeleteContent(url, opts, false, parse, mf2ToJf2, store) == Err(BadRequest("nothing to update"))
  {
    var item := Mf2Of(GetPost(url, opts, parse, store).value.1, opts.translateProps).value;
    SoftDeletePatch(item);
    Mf2Patch.SoftDeleteTwiceIsNoop(item);
  }

  /** Undeleting a post that is not marked deleted fails as `nothing to
      update`. */
  lemma {:induction false} UndeleteLiveFails(url: string, opts: Config.Options, parse: string -> Option<Utils.UrlParts>,
                                             mf2ToJf2: Value -> Entries, store: Store)
    requires GetPost(url, opts, parse, store).Ok?
    requires Mf2Of(GetPost(url, opts, parse, store).value.1, opts.translateProps).Ok?
    requires "deleted" !in Mf2Of(GetPost(url, opts, parse, store).value.1, opts.translateProps).value.properties
    ensures UndeleteContent(url, opts, parse, mf2ToJf2, store) == Err(BadRequest("nothing to update"))
  {
    UndeletePatch(Mf2Of(GetPost(url, opts, parse, store).value.1, opts.translateProps).value);
  }

  /** Soft-deleting a live post keeps every file and answers the URL. */
  lemma {:induction false} SoftDeleteKeepsFile(url: string, opts: Config.Options, parse: string -> Option<Utils.UrlParts>,
                                               mf2ToJf2: Value -> Entries, store: Store)
    requires GetPost(url, opts, parse, store).Ok?
    requires Mf2Of(GetPost(url, opts, parse, store).value.1, opts.translateProps).Ok?
    requires "deleted" !in Mf2Of(GetPost(url, opts, parse, store).value.1, opts.translateProps).value.properties
    ensures var r := DeleteContent(url, opts, false, parse, mf2ToJf2, store);
            r.Ok? && r.value.0 == url && r.value.1.Keys == store.Keys
  {
    var item := Mf2Of(GetPost(url, opts, parse, store).value.1, opts.translateProps).value;
    SoftDeletePatch(item);
    Mf2Patch.SoftDeleteRoundTrip(item);
  }
}

=== FILE: endpoint.dfy ===
/** The request handlers: the method and configuration gates, token and
    scope checks, action dispatch, the queries and the media listing. */
module Endpoint {
  import opened Wrappers
  import opened Values
  import opened Text
  import Utils
  import Config
  import Auth
  import Jf2
  import Content

  /** A decoded request: the method, the `Authorization` and `Content-Type`
      headers, the decoded body (`None` when decoding gave nothing) and the
      media listing's numeric paging parameters. */
  datatype Request = Request(
    verb: string,
    authorization: Option<string>,
    contentType: Option<string>,
    body: Option<Value>,
    offset: Option<nat>,
    limit: Option<nat>)

  /** Everything outside the endpoint: the token endpoint, the URL parser,
      the mf2-to-jf2 library, the clock, the fetched page title, the store's
      answer to each upload, and the media directory listing (`None` when the
      directory does not exist). */
  datatype World = World(
    validate: Value -> Option<Value>,
    parse: string -> Option<Utils.UrlParts>,
    mf2ToJf2: Value -> Entries,
    now: Content.Clock,
    title: Value,
    accepts: Value -> bool,
    mediaFiles: Option<seq<string>>)

  /** The responses the handlers give. */
  datatype Response =
    | Created(location: string)
    | NoContent
    | JsonObject(entries: Entries)
    | JsonProperties(properties: Props)
    | JsonItem(item: Mf2)
    | MediaList(items: seq<string>, count: nat, total: nat)
    | Failed(failure: Failure)
  {
    function Status(): int {
      match this
      case Created(_) => 201
      case NoContent => 204
      case Failed(f) => f.Status()
      case _ => 200
    }
  }

  /** `#isConfigured`: a store, `me` and a token endpoint. */
  function IsConfigured(opts: Config.Options): (b: bool)
    ensures b <==> opts.hasStore && Truthy(Str(opts.me)) && Truthy(Str(opts.tokenEndpoint))
  {
    opts.hasStore && opts.me != "" && opts.tokenEndpoint != ""
  }

  /** `#isMethodAllowed` with its default list. */
  function IsMethodAllowed(verb: string): (b: bool)
    ensures b <==> verb == "GET" || verb == "POST"
  {
    verb in ["GET", "POST"]
  }

  /** `(body.action || default).toLowerCase()`: reading a property of a
      missing or `null` body, and lower-casing a non-string, are
      `TypeError`s. */
  function ActionOf(body: Option<Value>, default: string): (r: Result<string>)
    ensures r.Err? <==> body.None? || body.value.Null? ||
                        (Content.TruthyProp(body.value, "action") && !Content.Prop(body.value, "action").value.Str?)
    ensures r.Err? ==> r.error.Status() == 500
    ensures r.Ok? ==> Lower(r.value) == r.value
    ensures r.Ok? && !Content.TruthyProp(body.value, "action") ==> r.value == Lower(default)
    ensures r.Ok? && Content.TruthyProp(body.value, "action") ==>
              r.value == Lower(Content.Prop(body.value, "action").value.s)
  {
    if body.None? || body.value.Null? then Err(Internal("Cannot read properties of undefined"))
    else if !Content.TruthyProp(body.value, "action") then
      LowerIdempotent(default);
      Ok(Lower(default))
    else
      match Content.Prop(body.value, "action").value
      case Str(s) =>
        LowerIdempotent(s);
        Ok(Lower(s))
      case _ => Err(Internal("action.toLowerCase is not a function"))
  }

  lemma LowerIdempotent(s: string)
    ensures Lower(Lower(s)) == Lower(s)
  {
    assert forall i :: 0 <= i < |s| ==> Lower(Lower(s))[i] == Lower(s)[i];
  }

  /** `isValidScope(scope, action)` on the verification response: a scope
      that is not a string cannot be split, a `TypeError`. */
  function ScopeAllows(auth: Entries, action: string): (r: Result<bool>)
    ensures r.Err? <==> !(Get(auth, "scope").Some? && Get(auth, "scope").value.Str?)
    ensures r.Ok? ==> (r.value <==> Auth.IsValidScope(Get(auth, "scope").value.s, action))
  {
    match Get(auth, "scope")
    case Some(Str(s)) => Ok(Auth.IsValidScope(s, action))
    case _ => Err(Internal("scope.split is not a function"))
  }

  /** The URL an update, delete or undelete names: `body.url` as the URL
      constructor reads it. */
  function UrlArg(body: Value): string {
    match Content.Prop(body, "url")
    case None => "undefined"
    case Some(v) => JsString(v)
  }

  /** The outcome of one action, before the handler turns it into a
      response. */
  function Dispatch(action: string, body: Value, contentType: Option<string>, auth: Entries,
                    opts: Config.Options, w: World, store: Content.Store): (r: Result<(string, Content.Store)>)
    ensures action !in ["create", "update", "delete", "undelete"] ==>
              r == Err(BadRequest("action \"" + action + "\" not supported"))
    ensures action == "delete" && r.Ok? ==> r.value.1.Keys == store.Keys
    ensures action == "delete" ==>
              r == Content.UpdateContent(UrlArg(body), Content.SoftDeleteBody, opts, w.parse, w.mf2ToJf2, store)
    ensures action == "undelete" ==>
              r == Content.UpdateContent(UrlArg(body), Content.UndeleteBody, opts, w.parse, w.mf2ToJf2, store)
  {
    if action == "create" then
      Content.CreateContent(Jf2.ToJf2(contentType, body, w.mf2ToJf2), opts, Get(auth, "client_id").GetOr(Null),
                            w.now, w.title, w.accepts, store)
    else if action == "update" then
      Content.UpdateContent(UrlArg(body), body, opts, w.parse, w.mf2ToJf2, store)
    else if action == "delete" then
      Content.DeleteContent(UrlArg(body), opts, false, w.parse, w.mf2ToJf2, store)
    else if action == "undelete" then
      Content.UndeleteContent(UrlArg(body), opts, w.parse, w.mf2ToJf2, store)
    else Err(BadRequest("action \"" + action + "\" not supported"))
  }

  /** Create fails with a bare BadRequest exactly when the converted body has
      no post type, and a successful create adds exactly one new file. */
  lemma DispatchCreate(body: Value, contentType: Option<string>, auth: Entries,
                       opts: Config.Options, w: World, store: Content.Store)
    ensures var r := Dispatch("create", body, contentType, auth, opts, w, store);
            && (r == Err(BadRequest("")) <==> Content.PostTypeOf(Jf2.ToJf2(contentType, body, w.mf2ToJf2)).None?)
            && (r.Ok? ==> exists f :: f !in store && r.value.1.Keys == store.Keys + {f})
  {
    var jf2 := Jf2.ToJf2(contentType, body, w.mf2ToJf2);
    var r := Dispatch("create", body, contentType, auth, opts, w, store);
    assert r == Content.CreateContent(jf2, opts, Get(auth, "client_id").GetOr(Null), w.now, w.title, w.accepts, store);
  }

  /** Update, delete and undelete name a stored post by `url`: a lookup
      failure is their answer, and success answers that URL with the same
      files. An update succeeds only when the body carries a patch. */
  lemma DispatchByUrl(action: string, body: Value, contentType: Option<string>, auth: Entries,
                      opts: Config.Options, w: World, store: Content.Store)
    requires action in ["update", "delete", "undelete"]
    ensures var r := Dispatch(action, body, contentType, auth, opts, w, store);
            && (Content.GetPost(UrlArg(body), opts, w.parse, store).Err? ==>
                  r == Err(Content.GetPost(UrlArg(body), opts, w.parse, store).error))
            && (r.Ok? ==> r.value.0 == UrlArg(body) && r.value.1.Keys == store.Keys)
            && (action == "update" && r.Ok? ==>
                  Content.TruthyProp(body, "add") || Content.TruthyProp(body, "delete") || Content.TruthyProp(body, "replace"))
  {
    var patch := if action == "update" then body else if action == "delete" then Content.SoftDeleteBody else Content.UndeleteBody;
    var r := Dispatch(action, body, contentType, auth, opts, w, store);
    assert r == Content.UpdateContent(UrlArg(body), patch, opts, w.parse, w.mf2ToJf2, store);
    if action == "update" && r.Ok? {
      Content.UpdateNeedsPatch(UrlArg(body), body, opts, w.parse, w.mf2ToJf2, store);
    }
  }

  /** The POST half of `micropubHandler`, after authorization: the action,
      the scope gate, the dispatch, and the response. A falsy answer from an
      action is BadRequest, even when the store has already changed. */
  function MicropubPost(req: Request, auth: Entries, opts: Config.Options, w: World, store: Content.Store)
    : (r: (Response, Content.Store))
    ensures ActionOf(req.body, "create").Err? ==> r == (Failed(ActionOf(req.body, "create").error), store)
    ensures ActionOf(req.body, "create").Ok? && ScopeAllows(auth, ActionOf(req.body, "create").value).Err? ==>
              r == (Failed(ScopeAllows(auth, ActionOf(req.body, "create").value).error), store)
    ensures ActionOf(req.body, "create").Ok? && ScopeAllows(auth, ActionOf(req.body, "create").value) == Ok(false) ==>
              r.0 == Failed(Forbidden("token has insufficient scope")) && r.1 == store
    ensures r.0.Created? ==> ActionOf(req.body, "create") == Ok("create")
    ensures r.0.NoContent? ==> ActionOf(req.body, "create").Ok? && ActionOf(req.body, "create").value in ["update", "delete", "undelete"]
    ensures r.0.Failed? && r.1 != store ==> r.0.failure.BadRequest?
    ensures ActionOf(req.body, "create") == Ok("delete") ==> r.1.Keys == store.Keys
    ensures ActionOf(req.body, "create").Ok? && ScopeAllows(auth, ActionOf(req.body, "create").value) == Ok(true) ==>
              r == Act(ActionOf(req.body, "create").value, req.body.value, req.contentType, auth, opts, w, store)
  {
    match ActionOf(req.body, "create")
    case Err(e) => (Failed(e), store)
    case Ok(action) =>
      match ScopeAllows(auth, action)
      case Err(e) => (Failed(e), store)
      case Ok(allowed) =>
        if !allowed then (Failed(Forbidden("token has insufficient scope")), store)
        else Act(action, req.body.value, req.contentType, auth, opts, w, store)
  }

  /** One permitted action carried out and answered: 201 only for create,
      204 only for update, delete and undelete; an unknown action changes
      nothing; any failure after the store changed is BadRequest. */
  function Act(action: string, body: Value, contentType: Option<string>, auth: Entries,
               opts: Config.Options, w: World, store: Content.Store): (r: (Response, Content.Store))
    ensures r == Respond(action, Dispatch(action, body, contentType, auth, opts, w, store), store)
    ensures r.0.Created? ==> action == "create"
    ensures r.0.NoContent? ==> action in ["update", "delete", "undelete"]
    ensures r.0.Failed? && r.1 != store ==> r.0.failure.BadRequest?
    ensures action !in ["create", "update", "delete", "undelete"] ==> r.0.Failed? && r.1 == store
    ensures action == "delete" ==> r.1.Keys == store.Keys
  {
    Respond(action, Dispatch(action, body, contentType, auth, opts, w, store), store)
  }

  /** The answer to a dispatched action: its failure, BadRequest for an
      empty answer, 201 with the location for a creation, 204 otherwise. */
  function Respond(action: string, outcome: Result<(string, Content.Store)>, store: Content.Store)
    : (r: (Response, Content.Store))
    ensures outcome.Err? ==> r == (Failed(outcome.error), store)
    ensures outcome.Ok? ==> r.1 == outcome.value.1
    ensures outcome.Ok? && outcome.value.0 == "" ==> r.0.Status() == 400
    ensures outcome.Ok? && outcome.value.0 != "" ==> r.0.Status() == (if action == "create" then 201 else 204)
    ensures r.0.Created? <==> outcome.Ok? && outcome.value.0 != "" && action == "create"
    ensures r.0.Created? ==> r.0.location == outcome.value.0
  {
    match outcome
    case Err(e) => (Failed(e), store)
    case Ok((slug, after)) =>
      if slug == "" then (Failed(BadRequest("an error occured while processing action \"" + action + "\"")), after)
      else if action == "create" then (Created(slug), after)
      else (NoContent, after)
  }

  /** `micropubHandler`: the configuration and method gates, authorization,
      then a query for GET and an action for POST. */
  function MicropubHandler(req: Request, opts: Config.Options, w: World, store: Content.Store)
    : (r: (Response, Content.Store))
    ensures !IsConfigured(opts) ==> r == (Failed(BadRequest("not configured")), store)
    ensures IsConfigured(opts) && !IsMethodAllowed(req.verb) ==> r == (Failed(MethodNotAllowed), store)
    ensures r.0.Failed? && r.0.failure.Status() in {401, 403, 405, 500} ==> r.1 == store
    ensures req.verb == "GET" ==> r.1 == store
    ensures r.1 != store ==> req.verb == "POST"
    ensures IsConfigured(opts) && IsMethodAllowed(req.verb) &&
            Auth.IsAuthorized(req.authorization, req.body, w.validate, opts.me).Err? ==>
              r == (Failed(Auth.IsAuthorized(req.authorization, req.body, w.validate, opts.me).error), store)
    ensures IsConfigured(opts) && req.verb == "GET" && Auth.IsAuthorized(req.authorization, req.body, w.validate, opts.me).Ok? ==>
              r == (MicropubQuery(req.body, opts, w, store), store)
    ensures IsConfigured(opts) && req.verb == "POST" && Auth.IsAuthorized(req.authorization, req.body, w.validate, opts.me).Ok? ==>
              r == MicropubPost(req, Auth.IsAuthorized(req.authorization, req.body, w.validate, opts.me).value, opts, w, store)
  {
    if !IsConfigured(opts) then (Failed(BadRequest("not configured")), store)
    else if !IsMethodAllowed(req.verb) then (Failed(MethodNotAllowed), store)
    else
      match Auth.IsAuthorized(req.authorization, req.body, w.validate, opts.me)
      case Err(e) => (Failed(e), store)
      case Ok(auth) =>
        if req.verb == "GET" then (MicropubQuery(req.body, opts, w, store), store)
        else MicropubPost(req, auth, opts, w, store)
  }

  /** The configuration keys a query may ask for one by one. */
  const ConfigKeys: seq<string> := ["media-endpoint", "post-types", "syndicate-to"]

  /** A `q` that asks for the configuration, whole or one key of it. */
  predicate ConfigQuery(q: Option<Value>) {
    q.Some? && q.value.Str? && (q.value.s == "config" || q.value.s in ConfigKeys)
  }

  /** `#micropubQuery`: the whole configuration, one key of it (an absent key
      serialises to an empty object), or the source of a post, whole or
      restricted to the requested properties. */
  function MicropubQuery(query: Option<Value>, opts: Config.Options, w: World, store: Content.Store): (r: Response)
    ensures query.None? || !Truthy(query.value) ==> r == Failed(BadRequest(""))
    ensures query.Some? && Truthy(query.value) && !ConfigQuery(Content.Prop(query.value, "q")) &&
            !(Content.Prop(query.value, "q") == Some(Str("source")) && Content.TruthyProp(query.value, "url")) ==>
              r == Failed(BadRequest(""))
    ensures r.JsonObject? <==> query.Some? && Truthy(query.value) && ConfigQuery(Content.Prop(query.value, "q"))
    ensures !r.Created? && !r.NoContent? && !r.MediaList?
    ensures query.Some? && Content.Prop(query.value, "q") == Some(Str("config")) ==> r == JsonObject(opts.config)
    ensures forall q :: query.Some? && Truthy(query.value) && Content.Prop(query.value, "q") == Some(Str(q)) && q in ConfigKeys ==>
              r == JsonObject(match Get(opts.config, q) case None => [] case Some(v) => [(q, v)])
    ensures r.JsonItem? || r.JsonProperties? ==>
              query.Some? && Content.Prop(query.value, "q") == Some(Str("source")) && Content.TruthyProp(query.value, "url")
    ensures query.Some? && Truthy(query.value) && Content.Prop(query.value, "q") == Some(Str("source")) && Content.TruthyProp(query.value, "url") ==>
              r == SourceQuery(JsString(Content.Prop(query.value, "url").value), Content.Prop(query.value, "properties"), opts, w, store)
  {
    if query.None? || !Truthy(query.value) then Failed(BadRequest(""))
    else
      var q := Content.Prop(query.value, "q");
      if q == Some(Str("config")) then JsonObject(opts.config)
      else if q.Some? && q.value.Str? && q.value.s in ConfigKeys then
        JsonObject(match Get(opts.config, q.value.s) case None => [] case Some(v) => [(q.value.s, v)])
      else if !(q == Some(Str("source")) && Content.TruthyProp(query.value, "url")) then Failed(BadRequest(""))
      else
        SourceQuery(JsString(Content.Prop(query.value, "url").value), Content.Prop(query.value, "properties"), opts, w, store)
  }

  /** `properties?.length > 0`: a non-empty list or name of properties. */
  predicate Requested(properties: Option<Value>) {
    properties.Some? && ((properties.value.Arr? && |properties.value.items| > 0) || (properties.value.Str? && |properties.value.s| > 0))
  }

  /** The `q=source` query: the post at `url` as mf2, restricted to the
      requested properties when some are requested. A missing post fails as
      `getPost` does, and a post the conversion cannot read fails with 500. */
  function SourceQuery(url: string, properties: Option<Value>, opts: Config.Options, w: World, store: Content.Store): (r: Response)
    ensures Content.GetPost(url, opts, w.parse, store).Err? ==> r == Failed(Content.GetPost(url, opts, w.parse, store).error)
    ensures Content.GetPost(url, opts, w.parse, store).Ok? ==>
              var item := Content.Mf2Of(Content.GetPost(url, opts, w.parse, store).value.1, opts.translateProps);
              && (item.Err? ==> r.Failed? && r.failure.Status() == 500)
              && (item.Ok? && !Requested(properties) ==> r == JsonItem(item.value))
              && (item.Ok? && Requested(properties) ==>
                    && r.JsonProperties?
                    && (forall k :: k in r.properties <==> k in item.value.properties && Utils.Allows(properties.value, k))
                    && (forall k :: k in r.properties ==> r.properties[k] == item.value.properties[k]))
  {
    match Content.GetPost(url, opts, w.parse, store)
    case Err(e) => Failed(e)
    case Ok((_, post)) =>
      match Content.Mf2Of(post, opts.translateProps)
      case Err(e) => Failed(e)
      case Ok(item) =>
        if Requested(properties) then JsonProperties(Utils.Pick(properties.value, item.properties))
        else JsonItem(item)
  }

  // ---------------------------------------------------------------------
  // Media listing

  /** Descending order: no element is below a later one. */
  predicate SortedDesc(s: seq<string>) {
    forall i, j :: 0 <= i < j < |s| ==> !LexLess(s[i], s[j])
  }

  /** "Not below" is transitive. */
  lemma NotLessTransitive(a: string, b: string, c: string)
    requires !LexLess(a, b) && !LexLess(b, c)
    ensures !LexLess(a, c)
  {
    if a != b && b != c {
      LexLessTotal(a, b);
      LexLessTotal(b, c);
      LexLessTransitive(c, b, a);
      if LexLess(a, c) {
        LexLessIrreflexive(a);
        LexLessTransitive(a, c, a);
      }
    } else if a == b {
    } else {
    }
  }

  /** One step of insertion: `x` goes before the first element it is not
      below. */
  function Insert(x: string, s: seq<string>): (r: seq<string>)
    requires SortedDesc(s)
    ensures SortedDesc(r)
    ensures multiset(r) == multiset(s) + multiset{x}
    decreases |s|
  {
    if |s| == 0 then [x]
    else if !LexLess(x, s[0]) then
      forall j | 0 <= j < |s| ensures !LexLess(x, s[j]) {
        if j > 0 {
          NotLessTransitive(x, s[0], s[j]);
        }
      }
      [x] + s
    else
      var rest := Insert(x, s[1..]);
      assert s == [s[0]] + s[1..];
      forall j | 0 <= j < |rest| ensures !LexLess(s[0], rest[j]) {
        assert rest[j] in multiset(rest);
        if rest[j] == x {
          LexLessIrreflexive(x);
          if LexLess(s[0], x) {
            LexLessTransitive(x, s[0], x);
          }
        } else {
          assert rest[j] in multiset(s[1..]);
          var k :| 1 <= k < |s| && s[k] == rest[j];
        }
      }
      [s[0]] + rest
  }

  /** The listing's order: the comparator puts a larger URL first. */
  function SortDesc(s: seq<string>): (r: seq<string>)
    ensures SortedDesc(r)
    ensures multiset(r) == multiset(s)
    decreases |s|
  {
    if |s| == 0 then []
    else
      assert s == [s[0]] + s[1..];
      Insert(s[0], SortDesc(s[1..]))
  }

  /** Sorting an already sorted listing changes nothing. */
  lemma {:induction false} SortDescOfSorted(s: seq<string>)
    requires SortedDesc(s)
    ensures SortDesc(s) == s
    decreases |s|
  {
    if |s| > 0 {
      assert SortedDesc(s[1..]);
      SortDescOfSorted(s[1..]);
      assert s == [s[0]] + s[1..];
      if |s| > 1 {
        assert !LexLess(s[0], s[1..][0]);
      }
    }
  }

  function Min(a: nat, b: nat): nat {
    if a <= b then a else b
  }

  /** The URL of every file in the media directory. */
  function MediaUrls(me: string, files: seq<string>): (r: seq<string>)
    ensures |r| == |files|
    ensures forall i :: 0 <= i < |files| ==> r[i] == me + files[i]
  {
    seq(|files|, i requires 0 <= i < |files| => me + files[i])
  }

  /** The page `[offset, offset + limit)` of `sorted`, cut at its end. */
  function Page(sorted: seq<string>, offset: nat, limit: nat): (p: seq<string>)
    requires SortedDesc(sorted)
    ensures |p| == Min(limit, |sorted| - Min(offset, |sorted|))
    ensures offset + limit <= |sorted| ==> |p| == limit
    ensures SortedDesc(p)
    ensures multiset(p) <= multiset(sorted)
    ensures |sorted| <= offset ==> p == []
    ensures forall i :: 0 <= i < |p| ==> offset + i < |sorted| && p[i] == sorted[offset + i]
  {
    var lo := Min(offset, |sorted|);
    var hi := Min(offset + limit, |sorted|);
    SliceSorted(sorted, lo, hi);
    sorted[lo..hi]
  }

  /** `#mediaQuery`: BadRequest unless `q=source`, BadRequest when the media
      directory does not exist; otherwise the page `[offset, offset +
      limit)` of the file URLs sorted newest (largest) first, its length and
      the number of files. */
  function MediaQuery(query: Option<Value>, offset: Option<nat>, limit: Option<nat>,
                      opts: Config.Options, w: World): (r: Response)
    ensures !(query.Some? && Truthy(query.value) && Content.Prop(query.value, "q") == Some(Str("source"))) ==>
              r == Failed(BadRequest(""))
    ensures query.Some? && Truthy(query.value) && Content.Prop(query.value, "q") == Some(Str("source")) ==>
              (w.mediaFiles.None? <==> r.Failed?)
    ensures query.Some? && Truthy(query.value) && Content.Prop(query.value, "q") == Some(Str("source")) && w.mediaFiles.Some? ==>
              r.MediaList?
    ensures r.MediaList? ==>
              && r.count == |r.items| <= limit.GetOr(10)
              && r.total == |w.mediaFiles.value|
              && SortedDesc(r.items)
              && multiset(r.items) <= multiset(MediaUrls(opts.me, w.mediaFiles.value))
              && (offset.GetOr(0) + limit.GetOr(10) <= r.total ==> r.count == limit.GetOr(10))
              && (r.total <= offset.GetOr(0) ==> r.items == [])
              && r.count == Min(limit.GetOr(10), r.total - Min(offset.GetOr(0), r.total))
    ensures r.MediaList? ==>
              var sorted := SortDesc(MediaUrls(opts.me, w.mediaFiles.value));
              forall i :: 0 <= i < |r.items| ==> offset.GetOr(0) + i < |sorted| && r.items[i] == sorted[offset.GetOr(0) + i]
  {
    if !(query.Some? && Truthy(query.value) && Content.Prop(query.value, "q") == Some(Str("source"))) then
      Failed(BadRequest(""))
    else
      match w.mediaFiles
      case None => Failed(BadRequest("directory does not exist"))
      case Some(files) =>
        var sorted := SortDesc(MediaUrls(opts.me, files));
        assert |sorted| == |files| by {
          assert |multiset(sorted)| == |multiset(MediaUrls(opts.me, files))|;
        }
        var page := Page(sorted, offset.GetOr(0), limit.GetOr(10));
        MediaList(page, |page|, |files|)
  }

  /** A slice of a sorted sequence is sorted and part of it. */
  lemma SliceSorted(s: seq<string>, lo: nat, hi: nat)
    requires SortedDesc(s) && lo <= hi <= |s|
    ensures SortedDesc(s[lo..hi])
    ensures multiset(s[lo..hi]) <= multiset(s)
  {
    assert s == s[..lo] + s[lo..hi] + s[hi..];
  }

  /** `mediaHandler`: the gates and authorization as for posts, the listing
      for GET, and for POST the upload of the first file. */
  function MediaHandler(req: Request, opts: Config.Options, w: World): (r: Response)
    ensures !IsConfigured(opts) ==> r == Failed(BadRequest("not configured"))
    ensures IsConfigured(opts) && !IsMethodAllowed(req.verb) ==> r == Failed(MethodNotAllowed)
    ensures r.Created? ==> req.verb == "POST" && ActionOf(req.body, "media create").Ok?
    ensures r.Created? ==> StartsWith(r.location, opts.me + Utils.DropTrailingSlash(opts.mediaDir) + "/")
    ensures IsConfigured(opts) && IsMethodAllowed(req.verb) &&
            Auth.IsAuthorized(req.authorization, req.body, w.validate, opts.me).Err? ==>
              r == Failed(Auth.IsAuthorized(req.authorization, req.body, w.validate, opts.me).error)
    ensures IsConfigured(opts) && req.verb == "GET" &&
            Auth.IsAuthorized(req.authorization, req.body, w.validate, opts.me).Ok? ==>
              r == MediaQuery(req.body, req.offset, req.limit, opts, w)
    ensures IsConfigured(opts) && req.verb == "POST" &&
            Auth.IsAuthorized(req.authorization, req.body, w.validate, opts.me).Ok? ==>
              r == MediaPost(req.body, Auth.IsAuthorized(req.authorization, req.body, w.validate, opts.me).value, opts, w)
  {
    if !IsConfigured(opts) then Failed(BadRequest("not configured"))
    else if !IsMethodAllowed(req.verb) then Failed(MethodNotAllowed)
    else
      match Auth.IsAuthorized(req.authorization, req.body, w.validate, opts.me)
      case Err(e) => Failed(e)
      case Ok(auth) =>
        if req.verb == "GET" then MediaQuery(req.body, req.offset, req.limit, opts, w)
        else MediaPost(req.body, auth, opts, w)
  }

  /** The POST half of `mediaHandler`, after authorization: the action
      (`media create` by default), the scope gate, and the upload of the
      first file, answered with its URL. No file is BadRequest, and so is an
      upload that gives no URL. */
  function MediaPost(body: Option<Value>, auth: Entries, opts: Config.Options, w: World): (r: Response)
    ensures ActionOf(body, "media create").Err? ==> r == Failed(ActionOf(body, "media create").error)
    ensures ActionOf(body, "media create").Ok? && ScopeAllows(auth, ActionOf(body, "media create").value).Err? ==>
              r == Failed(ScopeAllows(auth, ActionOf(body, "media create").value).error)
    ensures ActionOf(body, "media create").Ok? && ScopeAllows(auth, ActionOf(body, "media create").value) == Ok(false) ==>
              r == Failed(Forbidden("token has insufficient scope"))
    ensures r.Created? ==> ActionOf(body, "media create").Ok? && ScopeAllows(auth, ActionOf(body, "media create").value) == Ok(true)
    ensures r.Created? ==> StartsWith(r.location, opts.me + Utils.DropTrailingSlash(opts.mediaDir) + "/")
    ensures ActionOf(body, "media create").Ok? && ScopeAllows(auth, ActionOf(body, "media create").value) == Ok(true) ==>
              var file := FirstFile(Content.Prop(body.value, "files"));
              && (file.None? ==> r == Failed(BadRequest("no files to upload")))
              && (file.Some? ==>
                    var up := Content.UploadImage(file.value, opts, w.now.nowMs, w.accepts(file.value));
                    && (up.Err? ==> r == Failed(up.error))
                    && (up == Ok(None) ==> r == Failed(BadRequest("")))
                    && (up.Ok? && up.value.Some? ==> r == Created(up.value.value)))
  {
    match ActionOf(body, "media create")
    case Err(e) => Failed(e)
    case Ok(action) =>
      match ScopeAllows(auth, action)
      case Err(e) => Failed(e)
      case Ok(allowed) =>
        if !allowed then Failed(Forbidden("token has insufficient scope"))
        else
          match FirstFile(Content.Prop(body.value, "files"))
          case None => Failed(BadRequest("no files to upload"))
          case Some(file) =>
            match Content.UploadImage(file, opts, w.now.nowMs, w.accepts(file))
            case Err(e) => Failed(e)
            case Ok(Some(url)) => Created(url)
            case Ok(None) => Failed(BadRequest(""))
  }

  /** `body.files[0]` when `body.files?.length` is truthy: an array's first
      element, or a string's first character. */
  function FirstFile(files: Option<Value>): (f: Option<Value>)
    ensures f.Some? <==> files.Some? && ((files.value.Arr? && |files.value.items| > 0) ||
                                         (files.value.Str? && |files.value.s| > 0))
    ensures f.Some? && files.value.Arr? ==> f.value == files.value.items[0]
    ensures f.Some? && files.value.Str? ==> f.value == Str([files.value.s[0]])
  {
    match files
    case Some(Arr(items)) => if |items| > 0 then Some(items[0]) else None
    case Some(Str(s)) => if |s| > 0 then Some(Str([s[0]])) else None
    case _ => None
  }

  /** Deleting through the handler is always the soft delete: whatever the
      outcome, no file leaves the store. */
  lemma HandlerDeleteKeepsFiles(req: Request, opts: Config.Options, w: World, store: Content.Store)
    requires req.verb == "POST"
    requires ActionOf(req.body, "create") == Ok("delete")
    ensures MicropubHandler(req, opts, w, store).1.Keys == store.Keys
  {
  }

  /** Updating and undeleting through the handler never add or remove a
      file, and an update answers 204 only when its body carries a patch. */
  lemma HandlerUpdateKeepsFiles(req: Request, opts: Config.Options, w: World, store: Content.Store)
    requires req.verb == "POST"
    requires ActionOf(req.body, "create") in {Ok("update"), Ok("undelete")}
    ensures MicropubHandler(req, opts, w, store).1.Keys == store.Keys
    ensures ActionOf(req.body, "create") == Ok("update") && MicropubHandler(req, opts, w, store).0.NoContent? ==>
              var body := req.body.value;
              Content.TruthyProp(body, "add") || Content.TruthyProp(body, "delete") || Content.TruthyProp(body, "replace")
  {
    var authorized := Auth.IsAuthorized(req.authorization, req.body, w.validate, opts.me);
    if IsConfigured(opts) && authorized.Ok? {
      PostKeepsFiles(req, authorized.value, opts, w, store);
    }
  }

  /** `MicropubPost` for update and undelete: the same files, and for
      update a 204 only with a patch in the body. */
  lemma PostKeepsFiles(req: Request, auth: Entries, opts: Config.Options, w: World, store: Content.Store)
    requires ActionOf(req.body, "create") in {Ok("update"), Ok("undelete")}
    ensures MicropubPost(req, auth, opts, w, store).1.Keys == store.Keys
    ensures ActionOf(req.body, "create") == Ok("update") && MicropubPost(req, auth, opts, w, store).0.NoContent? ==>
              var body := req.body.value;
              Content.TruthyProp(body, "add") || Content.TruthyProp(body, "delete") || Content.TruthyProp(body, "replace")
  {
    var action := ActionOf(req.body, "create").value;
    if ScopeAllows(auth, action) == Ok(true) {
      ActKeepsFiles(action, req.body.value, req.contentType, auth, opts, w, store);
    }
  }

  /** `Act` for update and undelete: the same files, and for update a 204
      only with a patch in the body. */
  lemma ActKeepsFiles(action: string, body: Value, contentType: Option<string>, auth: Entries,
                      opts: Config.Options, w: World, store: Content.Store)
    requires action in {"update", "undelete"}
    ensures Act(action, body, contentType, auth, opts, w, store).1.Keys == store.Keys
    ensures action == "update" && Act(action, body, contentType, auth, opts, w, store).0.NoContent? ==>
              Content.TruthyProp(body, "add") || Content.TruthyProp(body, "delete") || Content.TruthyProp(body, "replace")
  {
    DispatchByUrl(action, body, contentType, auth, opts, w, store);
  }

  /** A 201 from the handler means exactly one new file was stored, and
      every earlier file is still there. */
  lemma HandlerCreateAddsOneFile(req: Request, opts: Config.Options, w: World, store: Content.Store)
    ensures MicropubHandler(req, opts, w, store).0.Created? ==>
              exists f :: f !in store && MicropubHandler(req, opts, w, store).1.Keys == store.Keys + {f}
  {
    if MicropubHandler(req, opts, w, store).0.Created? {
      var authorized := Auth.IsAuthorized(req.authorization, req.body, w.validate, opts.me);
      assert IsConfigured(opts) && req.verb == "POST" && authorized.Ok?;
      PostCreateAddsOneFile(req, authorized.value, opts, w, store);
    }
  }

  /** `MicropubPost`: a 201 stored exactly one new file. */
  lemma PostCreateAddsOneFile(req: Request, auth: Entries, opts: Config.Options, w: World, store: Content.Store)
    ensures MicropubPost(req, auth, opts, w, store).0.Created? ==>
              exists f :: f !in store && MicropubPost(req, auth, opts, w, store).1.Keys == store.Keys + {f}
  {
    if MicropubPost(req, auth, opts, w, store).0.Created? {
      assert ScopeAllows(auth, "create") == Ok(true);
      ActCreateAddsOneFile(req.body.value, req.contentType, auth, opts, w, store);
    }
  }

  /** `Act` for create: a 201 stored exactly one new file. */
  lemma ActCreateAddsOneFile(body: Value, contentType: Option<string>, auth: Entries,
                             opts: Config.Options, w: World, store: Content.Store)
    ensures Act("create", body, contentType, auth, opts, w, store).0.Created? ==>
              exists f :: f !in store && Act("create", body, contentType, auth, opts, w, store).1.Keys == store.Keys + {f}
  {
    DispatchCreate(body, contentType, auth, opts, w, store);
  }

  /** The media action is two scope words, so a token granted either
      `media` or `create` may upload. */
  lemma MediaScopeEitherWord()
    ensures Auth.IsValidScope("create", "media create")
    ensures Auth.IsValidScope("media", "media create")
    ensures !Auth.IsValidScope("update", "media create")
  {
    assert "media create" == "media" + " " + "create";
    PairScope("create", "media", "create");
    PairScope("media", "media", "create");
    PairScope("update", "media", "create");
  }

  /** A one-word scope grants a two-word action exactly when it is one of
      the two words. */
  lemma PairScope(scope: string, a: string, b: string)
    requires ' ' !in scope && ' ' !in a && ' ' !in b
    ensures Auth.IsValidScope(scope, a + " " + b) <==> scope == a || scope == b
  {
    WordsOfPair(a, b);
    Auth.SplitWithoutSeparator(scope);
    if scope == a {
      assert a in Split(a + " " + b, ' ');
    } else if scope == b {
      assert b in Split(a + " " + b, ' ');
    }
  }

  /** Two words joined by one space split back into the two words. */
  lemma WordsOfPair(a: string, b: string)
    requires ' ' !in a && ' ' !in b
    ensures Split(a + " " + b, ' ') == [a, b]
  {
    SplitJoin([a, b], ' ');
    assert Join([b], [' ']) == b;
    assert Join([a, b], [' ']) == a + " " + b;
  }
}

=== FILE: frontmatter.dfy ===
/** Translation between jf2 posts, persisted documents (front-matter header
    plus body) and mf2 items. The YAML text of a document is represented by
    its parsed header and body. */
module Frontmatter {
  import opened Wrappers
  import opened Values
  import Text

  /** A persisted document: the front-matter header and the body text. */
  datatype Doc = Doc(header: Entries, body: string)

  /** The renaming dictionary `name -> title`, `category -> tags`,
      `published -> date`, or its inverse when `reverse` holds. Keys outside the
      dictionary pass through. */
  function Rename(k: string, reverse: bool): string {
    if !reverse then
      if k == "name" then "title"
      else if k == "category" then "tags"
      else if k == "published" then "date"
      else k
    else
      if k == "title" then "name"
      else if k == "tags" then "category"
      else if k == "date" then "published"
      else k
  }

  /** The keys a translation in direction `reverse` produces from other keys:
      two such keys, or one such key and its preimage, would collide. */
  predicate IsAlias(k: string, reverse: bool) {
    if !reverse then k == "title" || k == "tags" || k == "date"
    else k == "name" || k == "category" || k == "published"
  }

  /** Every key renamed, position by position. */
  function RenameAll(e: Entries, reverse: bool): (r: Entries)
    ensures |r| == |e|
  {
    seq(|e|, i requires 0 <= i < |e| => (Rename(e[i].0, reverse), e[i].1))
  }

  /** `translateProperties`: a fresh object that receives every entry under its
      renamed key, in order; its keys are exactly the renamed keys. */
  function TranslateProperties(data: Entries, reverse: bool): (r: Entries)
    ensures forall k :: Get(r, k).Some? <==> k in Keys(RenameAll(data, reverse))
  {
    FromEntries(RenameAll(data, reverse))
  }

  /** When two keys rename to the same key, the later entry wins: an entry
      that no later entry collides with is found under its renamed key. */
  lemma {:induction false} TranslateLastWins(data: Entries, reverse: bool, i: nat)
    requires i < |data|
    requires forall j :: i < j < |data| ==> Rename(data[j].0, reverse) != Rename(data[i].0, reverse)
    ensures Get(TranslateProperties(data, reverse), Rename(data[i].0, reverse)) == Some(data[i].1)
  {
    AssignLastWins([], RenameAll(data, reverse), i);
  }

  /** No two keys rename to the same key. */
  ghost predicate NoCollision(e: Entries, reverse: bool) {
    forall i, j :: 0 <= i < j < |e| ==> Rename(e[i].0, reverse) != Rename(e[j].0, reverse)
  }

  /** An object without alias keys cannot collide. */
  lemma {:induction false} NoAliasNoCollision(e: Entries, reverse: bool)
    requires Distinct(e)
    requires forall i :: 0 <= i < |e| ==> !IsAlias(e[i].0, reverse)
    ensures NoCollision(e, reverse)
  {
    DistinctPairwise(e);
    forall i, j | 0 <= i < j < |e| ensures Rename(e[i].0, reverse) != Rename(e[j].0, reverse) {
      RenameInjective(e[i].0, e[j].0, reverse);
    }
  }

  /** Renaming is one-to-one on keys that are not aliases. */
  lemma {:induction false} RenameInjective(x: string, y: string, reverse: bool)
    requires !IsAlias(x, reverse) && !IsAlias(y, reverse) && x != y
    ensures Rename(x, reverse) != Rename(y, reverse)
  {
  }

  /** Without collisions the translation renames in place. */
  lemma {:induction false} TranslateWithoutCollision(e: Entries, reverse: bool)
    requires NoCollision(e, reverse)
    ensures TranslateProperties(e, reverse) == RenameAll(e, reverse)
  {
    PairwiseDistinct(RenameAll(e, reverse));
    FromEntriesOfDistinct(RenameAll(e, reverse));
  }

  /** Reverse translation undoes forward translation for any object that has
      no key among `title`, `tags` and `date`. */
  lemma {:induction false} TranslateRoundTrip(d: Entries)
    requires Distinct(d)
    requires forall i :: 0 <= i < |d| ==> !IsAlias(d[i].0, false)
    ensures TranslateProperties(TranslateProperties(d, false), true) == d
  {
    NoAliasNoCollision(d, false);
    TranslateWithoutCollision(d, false);
    TranslateKeepsDistinct(d, false);
    var t := RenameAll(d, false);
    RenameAllBack(d);
    NoAliasNoCollision(t, true);
    TranslateWithoutCollision(t, true);
  }

  /** Renaming every key forward and then back restores the object. */
  lemma {:induction false} RenameAllBack(d: Entries)
    requires forall i :: 0 <= i < |d| ==> !IsAlias(d[i].0, false)
    ensures forall i :: 0 <= i < |d| ==> !IsAlias(RenameAll(d, false)[i].0, true)
    ensures RenameAll(RenameAll(d, false), true) == d
  {
    var t := RenameAll(d, false);
    var back := RenameAll(t, true);
    forall i | 0 <= i < |d| ensures !IsAlias(t[i].0, true) && back[i] == d[i] {
      RenameBack(d[i].0);
    }
  }

  /** The reverse dictionary undoes the forward one, and the forward one never
      produces a key the reverse one renames. */
  lemma {:induction false} RenameBack(x: string)
    requires !IsAlias(x, false)
    ensures !IsAlias(Rename(x, false), true)
    ensures Rename(Rename(x, false), true) == x
  {
  }

  /** The collision case: with both `name` and `title` present, the later
      entry decides the translated `title`. */
  lemma {:induction false} TranslateCollisionLaterWins(a: Value, b: Value)
    ensures Get(TranslateProperties([("name", a), ("title", b)], false), "title") == Some(b)
    ensures Get(TranslateProperties([("title", b), ("name", a)], false), "title") == Some(a)
  {
    TranslateLastWins([("name", a), ("title", b)], false, 1);
    TranslateLastWins([("title", b), ("name", a)], false, 1);
  }

  /** The translation is built by assignments, so its keys are unique. */
  lemma {:induction false} TranslateKeepsDistinct(data: Entries, reverse: bool)
    ensures Distinct(TranslateProperties(data, reverse))
  {
    AssignKeepsDistinct([], RenameAll(data, reverse));
  }

  /** Two objects with the same keys and values. */
  ghost predicate SameObject(a: Entries, b: Entries) {
    forall k :: Get(a, k) == Get(b, k)
  }

  /** Half of `TranslateRespectsSameObject`: what one translation finds, the
      other finds too. */
  lemma {:induction false} TranslateSameOneWay(a: Entries, b: Entries, reverse: bool, k: string)
    requires Distinct(a) && Distinct(b) && SameObject(a, b)
    requires NoCollision(a, reverse) && NoCollision(b, reverse)
    requires Get(TranslateProperties(a, reverse), k).Some?
    ensures Get(TranslateProperties(b, reverse), k) == Get(TranslateProperties(a, reverse), k)
  {
    var ra := RenameAll(a, reverse);
    var i :| 0 <= i < |ra| && Keys(ra)[i] == k;
    TranslateLastWins(a, reverse, i);
    DistinctGet(a, a[i].0, a[i].1);
    assert a[i] in a;
    DistinctGet(b, a[i].0, a[i].1);
    var j :| 0 <= j < |b| && b[j] == a[i];
    TranslateLastWins(b, reverse, j);
  }

  /** Without collisions, translation depends only on keys and values, not on
      their order. */
  lemma {:induction false} TranslateRespectsSameObject(a: Entries, b: Entries, reverse: bool)
    requires Distinct(a) && Distinct(b) && SameObject(a, b)
    requires NoCollision(a, reverse) && NoCollision(b, reverse)
    ensures SameObject(TranslateProperties(a, reverse), TranslateProperties(b, reverse))
  {
    forall k ensures Get(TranslateProperties(a, reverse), k) == Get(TranslateProperties(b, reverse), k) {
      if Get(TranslateProperties(a, reverse), k).Some? {
        TranslateSameOneWay(a, b, reverse, k);
      } else if Get(TranslateProperties(b, reverse), k).Some? {
        TranslateSameOneWay(b, a, reverse, k);
      }
    }
  }

  /** A key the forward dictionary neither renames nor produces keeps its
      value through a forward translation of an object without alias keys. */
  lemma {:induction false} TranslateKeepsPlainKey(d: Entries, k: string)
    requires Distinct(d)
    requires forall i :: 0 <= i < |d| ==> !IsAlias(d[i].0, false)
    requires !IsAlias(k, false) && !IsAlias(k, true)
    ensures Get(TranslateProperties(d, false), k) == Get(d, k)
  {
    var r := RenameAll(d, false);
    assert forall i :: 0 <= i < |d| ==> (Keys(r)[i] == k <==> Keys(d)[i] == k);
    assert k in Keys(r) <==> k in Keys(d);
    if Get(d, k).Some? {
      var i :| 0 <= i < |d| && Keys(d)[i] == k;
      DistinctGet(d, k, d[i].1);
      NoAliasNoCollision(d, false);
      TranslateLastWins(d, false, i);
    }
  }

  /** The body text written for a content value. A string is written as it
      is. For any other value the model chooses its string conversion; the
      YAML library that writes the document is not part of this model, and
      may reject such a value instead. */
  function BodyText(v: Value): string {
    if v.Str? then v.s else JsString(v)
  }

  /** `toFrontmatter`: the header is the data plus a truthy `client_id`, minus
      `content` and `access_token`; the body is `content.html`, else `content`,
      else empty. */
  function ToFrontmatter(data: Entries, clientId: Value): (doc: Doc)
    ensures forall k :: k != "content" && k != "access_token" && !(k == "client_id" && Truthy(clientId))
              ==> Get(doc.header, k) == Get(data, k)
    ensures Get(doc.header, "content") == None && Get(doc.header, "access_token") == None
    ensures Truthy(clientId) ==> Get(doc.header, "client_id") == Some(clientId)
    ensures forall s :: Get(data, "content") == Some(Str(s)) ==> doc.body == s
    ensures !TruthyAt(data, "content") ==> doc.body == ""
    ensures forall e, h :: Get(data, "content") == Some(Obj(e)) && Get(e, "html") == Some(Str(h)) && h != ""
              ==> doc.body == h
  {
    Doc(Header(data, clientId), Body(data))
  }

  /** The header `toFrontmatter` writes. */
  function Header(data: Entries, clientId: Value): (header: Entries)
    ensures forall k :: k != "content" && k != "access_token" && !(k == "client_id" && Truthy(clientId))
              ==> Get(header, k) == Get(data, k)
    ensures Get(header, "content") == None && Get(header, "access_token") == None
    ensures Truthy(clientId) ==> Get(header, "client_id") == Some(clientId)
  {
    var withClient := if Truthy(clientId) then Set(data, "client_id", clientId) else data;
    Delete(Delete(withClient, "content"), "access_token")
  }

  /** The body `toFrontmatter` writes. */
  function Body(data: Entries): (body: string)
    ensures forall s :: Get(data, "content") == Some(Str(s)) ==> body == s
    ensures !TruthyAt(data, "content") ==> body == ""
    ensures forall e, h :: Get(data, "content") == Some(Obj(e)) && Get(e, "html") == Some(Str(h)) && h != ""
              ==> body == h
  {
    var content := Get(data, "content");
    var html := if content.Some? && content.value.Obj? then Get(content.value.entries, "html") else None;
    if html.Some? && Truthy(html.value) then BodyText(html.value)
    else if content.Some? && Truthy(content.value) then BodyText(content.value)
    else ""
  }

  /** Writing keeps keys unique. */
  lemma {:induction false} ToFrontmatterKeepsDistinct(data: Entries, clientId: Value)
    requires Distinct(data)
    ensures Distinct(ToFrontmatter(data, clientId).header)
  {
    var withClient := if Truthy(clientId) then Set(data, "client_id", clientId) else data;
    if Truthy(clientId) {
      SetKeepsDistinct(data, "client_id", clientId);
    }
    DeleteKeepsDistinct(withClient, "content");
    DeleteKeepsDistinct(Delete(withClient, "content"), "access_token");
  }

  /** `parseFrontmatter`: `type` first in insertion order (the header's, else
      `entry`), then the header without `type`, with `content` set to the
      trimmed body. */
  function ParseFrontmatter(doc: Doc): (r: Entries)
    ensures |r| > 0 && r[0].0 == "type"
    ensures TruthyAt(doc.header, "type") ==> Get(r, "type") == Get(doc.header, "type")
    ensures !TruthyAt(doc.header, "type") ==> Get(r, "type") == Some(Str("entry"))
    ensures Get(r, "content") == Some(Str(Text.Trim(doc.body)))
    ensures forall k :: k != "type" && k != "content" ==> Get(r, k) == Get(doc.header, k)
  {
    var t := if TruthyAt(doc.header, "type") then Get(doc.header, "type").value else Str("entry");
    var props := Delete(Set(doc.header, "content", Str(Text.Trim(doc.body))), "type");
    [("type", t)] + props
  }

  /** Parsing keeps keys unique. */
  lemma {:induction false} ParseKeepsDistinct(doc: Doc)
    requires Distinct(doc.header)
    ensures Distinct(ParseFrontmatter(doc))
  {
    var t := if TruthyAt(doc.header, "type") then Get(doc.header, "type").value else Str("entry");
    var withContent := Set(doc.header, "content", Str(Text.Trim(doc.body)));
    SetKeepsDistinct(doc.header, "content", Str(Text.Trim(doc.body)));
    DeleteKeepsDistinct(withContent, "type");
    var props := Delete(withContent, "type");
    assert ([("type", t)] + props)[1..] == props;
  }

  /** Reading back a written document gives the same keys and values,
      provided the data has a truthy `type`, a trimmed string `content` and no
      `access_token`, and no client id is added. */
  lemma {:induction false} ParseInvertsToFrontmatter(data: Entries, content: string)
    requires TruthyAt(data, "type")
    requires Get(data, "content") == Some(Str(content)) && Text.Trim(content) == content
    requires Get(data, "access_token") == None
    ensures SameObject(ParseFrontmatter(ToFrontmatter(data, Null)), data)
  {
  }

  /** A document read back from a forward translation holds no key that the
      reverse dictionary renames. */
  lemma {:induction false} ParsedKeysNotAliases(p: Entries, t1: Entries, d: Entries)
    requires SameObject(p, t1)
    requires t1 == RenameAll(d, false)
    requires forall i :: 0 <= i < |d| ==> !IsAlias(d[i].0, false)
    ensures forall i :: 0 <= i < |p| ==> !IsAlias(p[i].0, true)
  {
    RenameAllBack(d);
    forall i | 0 <= i < |p| ensures !IsAlias(p[i].0, true) {
      assert Keys(p)[i] == p[i].0;
      assert Get(t1, p[i].0).Some?;
      var j :| 0 <= j < |t1| && Keys(t1)[j] == p[i].0;
    }
  }

  /** The facts about a stored post read back that the round trip needs. */
  lemma {:induction false} StoredPostFacts(d: Entries, t: string, content: string)
    requires Distinct(d)
    requires forall i :: 0 <= i < |d| ==> !IsAlias(d[i].0, false)
    requires Get(d, "type") == Some(Str(t)) && t != ""
    requires Get(d, "content") == Some(Str(content)) && Text.Trim(content) == content
    requires Get(d, "access_token") == None
    ensures var p := ParseFrontmatter(ToFrontmatter(TranslateProperties(d, false), Null));
            && Distinct(p) && NoCollision(p, true)
            && SameObject(p, TranslateProperties(d, false))
  {
    var t1 := TranslateProperties(d, false);
    TranslateKeepsPlainKey(d, "type");
    TranslateKeepsPlainKey(d, "content");
    TranslateKeepsPlainKey(d, "access_token");
    TranslateKeepsDistinct(d, false);
    ParseInvertsToFrontmatter(t1, content);
    StoredPostDistinct(t1);
    NoAliasNoCollision(d, false);
    TranslateWithoutCollision(d, false);
    var p := ParseFrontmatter(ToFrontmatter(t1, Null));
    ParsedKeysNotAliases(p, t1, d);
    NoAliasNoCollision(p, true);
  }

  /** Writing and reading back keeps keys unique. */
  lemma {:induction false} StoredPostDistinct(data: Entries)
    requires Distinct(data)
    ensures Distinct(ParseFrontmatter(ToFrontmatter(data, Null)))
  {
    ToFrontmatterKeepsDistinct(data, Null);
    ParseKeepsDistinct(ToFrontmatter(data, Null));
  }

  /** Writing a jf2 post as a document and reading it back, each with the
      renaming dictionary applied, gives the same keys and values, provided
      the post has a non-empty string `type`, a trimmed string `content`, no
      `access_token` and no key among `title`, `tags` and `date`. */
  lemma {:induction false} DocumentRoundTrip(d: Entries, t: string, content: string)
    requires Distinct(d)
    requires forall i :: 0 <= i < |d| ==> !IsAlias(d[i].0, false)
    requires Get(d, "type") == Some(Str(t)) && t != ""
    requires Get(d, "content") == Some(Str(content)) && Text.Trim(content) == content
    requires Get(d, "access_token") == None
    ensures SameObject(
              TranslateProperties(ParseFrontmatter(ToFrontmatter(TranslateProperties(d, false), Null)), true),
              d)
  {
    var t1 := TranslateProperties(d, false);
    var p := ParseFrontmatter(ToFrontmatter(t1, Null));
    TranslateKeepsDistinct(d, false);
    StoredPostFacts(d, t, content);
    NoAliasNoCollision(d, false);
    TranslateWithoutCollision(d, false);
    RenameAllBack(d);
    NoAliasNoCollision(t1, true);
    TranslateRespectsSameObject(p, t1, true);
    TranslateRoundTrip(d);
  }

  /** The type tag of an mf2 item: `h-` and the `type`, `entry` when absent
      or falsy. */
  function TypeTag(data: Entries): string {
    "h-" + (if TruthyAt(data, "type") then JsString(Get(data, "type").value) else "entry")
  }

  /** A value that becomes a nested mf2 item: an object with a truthy `type`. */
  predicate IsTypedObject(v: Value) {
    v.Obj? && TruthyAt(v.entries, "type")
  }

  /** `toMf2` with the `null` case corrected (see README, "Findings"): the type
      tag from `type`; each other value wrapped in a one-element sequence,
      arrays kept, and objects with a truthy `type` converted recursively. */
  function ToMf2(data: Value): (m: Mf2)
    requires data.Obj?
    ensures m.types == [TypeTag(data.entries)]
    ensures m.properties.Keys == (set i | 0 <= i < |data.entries| :: data.entries[i].0) - {"type"}
    decreases data, 1
  {
    Mf2([TypeTag(data.entries)], Mf2Props(data, |data.entries|))
  }

  /** The properties built from the first `n` entries of `data`. */
  function Mf2Props(data: Value, n: nat): (p: Props)
    requires data.Obj? && n <= |data.entries|
    ensures p.Keys == (set i | 0 <= i < n :: data.entries[i].0) - {"type"}
    decreases data, 0, n
  {
    if n == 0 then map[]
    else
      var (k, v) := data.entries[n - 1];
      var rest := Mf2Props(data, n - 1);
      if k == "type" then rest
      else
        var wrapped :=
          if IsTypedObject(v) then [Item(ToMf2(v))]
          else if v.Arr? then v.items
          else [v];
        rest[k := wrapped]
  }

  /** The wrapping `toMf2` applies to one property value. */
  function Wrapped(v: Value): seq<Value>
    decreases v, 2
  {
    if IsTypedObject(v) then [Item(ToMf2(v))]
    else if v.Arr? then v.items
    else [v]
  }

  /** Each property of the item holds the wrapped input value under the same
      key: arrays as they are, scalars as one-element sequences, typed objects
      as one nested item. */
  lemma {:induction false} ToMf2Wraps(data: Value, n: nat)
    requires data.Obj? && n <= |data.entries| && Distinct(data.entries)
    ensures forall i :: 0 <= i < n && data.entries[i].0 != "type" ==>
              Mf2Props(data, n)[data.entries[i].0] == Wrapped(data.entries[i].1)
    decreases n
  {
    if n > 0 {
      ToMf2Wraps(data, n - 1);
      DistinctPairwise(data.entries);
    }
  }

  /** `toMf2` as the source writes it: `typeof value === 'object' && value.type`
      reads `.type` of `null`, so a `null` value raises a TypeError. */
  function ToMf2AsWritten(data: Value): (r: Result<Mf2>)
    requires data.Obj?
    ensures r.Ok? ==> r.value == ToMf2(data)
    ensures r.Err? ==> r.error.Status() == 500
    decreases data, 1
  {
    var props :- Mf2PropsAsWritten(data, |data.entries|);
    Ok(Mf2([TypeTag(data.entries)], props))
  }

  function Mf2PropsAsWritten(data: Value, n: nat): (r: Result<Props>)
    requires data.Obj? && n <= |data.entries|
    ensures r.Ok? ==> r.value == Mf2Props(data, n)
    ensures r.Err? ==> r.error.Status() == 500
    decreases data, 0, n
  {
    if n == 0 then Ok(map[])
    else
      var (k, v) := data.entries[n - 1];
      var rest :- Mf2PropsAsWritten(data, n - 1);
      if k == "type" then Ok(rest)
      else if v.Null? then Err(Internal("Cannot read properties of null (reading 'type')"))
      else if IsTypedObject(v) then
        var nested :- ToMf2AsWritten(v);
        Ok(rest[k := [Item(nested)]])
      else Ok(rest[k := if v.Arr? then v.items else [v]])
  }

  /** A `null` value anywhere `toMf2` looks (outside `type`). */
  ghost predicate HasNull(data: Value)
    requires data.Obj?
    decreases data, 2
  {
    NullBefore(data, |data.entries|)
  }

  /** Some entry before position `n` is, or holds, a `null`. */
  ghost predicate NullBefore(data: Value, n: nat)
    requires data.Obj? && n <= |data.entries|
    decreases data, 1
  {
    exists i :: 0 <= i < n && NullAt(data, i)
  }

  /** Entry `i` is, or holds, a `null` that `toMf2` reads. */
  ghost predicate NullAt(data: Value, i: int)
    requires data.Obj? && 0 <= i < |data.entries|
    decreases data, 0
  {
    data.entries[i].0 != "type" &&
      (data.entries[i].1.Null? || (IsTypedObject(data.entries[i].1) && HasNull(data.entries[i].1)))
  }

  /** The as-written conversion fails exactly on documents holding a `null`
      value; otherwise it agrees with the corrected one. */
  lemma {:induction false} ToMf2AsWrittenFailsOnNull(data: Value)
    requires data.Obj?
    ensures ToMf2AsWritten(data).Err? <==> HasNull(data)
    ensures !HasNull(data) ==> ToMf2AsWritten(data) == Ok(ToMf2(data))
    decreases data, 1
  {
    PropsFailOnNull(data, |data.entries|);
  }

  lemma {:induction false} PropsFailOnNull(data: Value, n: nat)
    requires data.Obj? && n <= |data.entries|
    ensures Mf2PropsAsWritten(data, n).Err? <==> NullBefore(data, n)
    decreases data, 0, n
  {
    if n > 0 {
      PropsFailOnNull(data, n - 1);
      var (k, v) := data.entries[n - 1];
      if k != "type" && IsTypedObject(v) {
        ToMf2AsWrittenFailsOnNull(v);
      }
      assert Mf2PropsAsWritten(data, n).Err? <==> Mf2PropsAsWritten(data, n - 1).Err? || NullAt(data, n - 1);
      if NullBefore(data, n) {
        var i :| 0 <= i < n && NullAt(data, i);
        if i < n - 1 {
          assert NullBefore(data, n - 1);
        }
      }
    }
  }

  /** The concrete case: a header `title: null` (which `createContent` writes
      for a like whose page has no title) makes the as-written conversion
      fail, while the corrected one wraps the `null`. */
  lemma {:induction false} NullTitleCrashes()
    ensures ToMf2AsWritten(Obj([("type", Str("entry")), ("name", Null)])).Err?
    ensures ToMf2(Obj([("type", Str("entry")), ("name", Null)])).properties["name"] == [Null]
  {
    var d := Obj([("type", Str("entry")), ("name", Null)]);
    assert NullAt(d, 1);
    ToMf2AsWrittenFailsOnNull(d);
  }
}

=== FILE: jf2.dfy ===
/** Conversion of a decoded request body to a jf2 post. */
module Jf2 {
  import opened Wrappers
  import opened Values
  import opened Text

  /** `formToJf2`: `None` (the source's `undefined`) for a falsy body;
      otherwise `type` set to the body's `h` (or `entry`), then every entry of
      the body except `h` assigned in order, so a body key `type` overrides
      the default. */
  function FormToJf2(form: Value): (r: Option<Entries>)
    ensures r.None? <==> !Truthy(form)
    ensures r.Some? ==> Get(r.value, "h") == None
    ensures r.Some? ==> |r.value| > 0 && r.value[0].0 == "type"
    ensures r.Some? && Distinct(ObjectEntries(form)) ==>
              forall k :: k != "h" && k != "type" ==> Get(r.value, k) == Get(ObjectEntries(form), k)
    ensures r.Some? && Get(ObjectEntries(form), "type").None? ==>
              Get(r.value, "type") ==
                (if TruthyAt(ObjectEntries(form), "h") then Get(ObjectEntries(form), "h") else Some(Str("entry")))
    ensures r.Some? && Distinct(ObjectEntries(form)) && Get(ObjectEntries(form), "type").Some? ==>
              Get(r.value, "type") == Get(ObjectEntries(form), "type")
  {
    if !Truthy(form) then None
    else
      var e := ObjectEntries(form);
      var t := if TruthyAt(e, "h") then Get(e, "h").value else Str("entry");
      FormFacts(e, t);
      Some(Assign([("type", t)], Delete(e, "h")))
  }

  /** What the assignments in `formToJf2` produce from body entries `e` and
      default type `t`. */
  lemma {:induction false} FormFacts(e: Entries, t: Value)
    ensures var r := Assign([("type", t)], Delete(e, "h"));
            && Get(r, "h") == None
            && |r| > 0 && r[0].0 == "type"
            && (Distinct(e) ==> forall k :: k != "h" && k != "type" ==> Get(r, k) == Get(e, k))
            && (Get(e, "type").None? ==> Get(r, "type") == Some(t))
            && (Distinct(e) && Get(e, "type").Some? ==> Get(r, "type") == Get(e, "type"))
  {
    assert Keys([("type", t)]) == ["type"];
    AssignKeepsHead([("type", t)], Delete(e, "h"));
    FormKeys(e, t);
    if Distinct(e) && Get(e, "type").Some? {
      TypeFromBody(e, t);
    }
  }

  /** Keys other than `type` come from the body, without `h`. */
  lemma {:induction false} FormKeys(e: Entries, t: Value)
    ensures var r := Assign([("type", t)], Delete(e, "h"));
            && Get(r, "h") == None
            && (Distinct(e) ==> forall k :: k != "h" && k != "type" ==> Get(r, k) == Get(e, k))
            && (Get(e, "type").None? ==> Get(r, "type") == Some(t))
  {
    var target: Entries := [("type", t)];
    var rest := Delete(e, "h");
    var r := Assign(target, rest);
    assert Keys(target) == ["type"];
    assert Get(target, "h") == None;
    assert Get(target, "type") == Some(t);
    if Distinct(e) {
      DeleteKeepsDistinct(e, "h");
    }
    forall k | Distinct(e) && k != "h" && k != "type" ensures Get(r, k) == Get(e, k) {
      if k in Keys(rest) {
        AssignOwnKey(target, rest, k);
      } else {
        assert Get(target, k) == None;
      }
    }
  }

  /** With the body's own `type` present, the assigned value wins. */
  lemma {:induction false} TypeFromBody(e: Entries, t: Value)
    requires Distinct(e) && Get(e, "type").Some?
    ensures Get(Assign([("type", t)], Delete(e, "h")), "type") == Get(e, "type")
  {
    var rest := Delete(e, "h");
    DeleteKeepsDistinct(e, "h");
    DistinctPairwise(rest);
    var v := Get(rest, "type").value;
    assert ("type", v) in rest;
    var i :| 0 <= i < |rest| && rest[i] == ("type", v);
    AssignLastWins([("type", t)], rest, i);
  }

  /** `type` always comes first in insertion order, whatever the body's key
      order (JavaScript would still list integer-like keys before it). */
  lemma {:induction false} FormTypeFirst(form: Value)
    requires Truthy(form)
    ensures FormToJf2(form).Some? && FormToJf2(form).value[0].0 == "type"
  {
  }

  /** The assignments never let the first entry move in insertion order. */
  lemma {:induction false} AssignKeepsHead(target: Entries, src: Entries)
    requires |target| > 0
    ensures |Assign(target, src)| > 0 && Assign(target, src)[0].0 == target[0].0
    decreases |src|
  {
    if |src| > 0 {
      var init := src[..|src| - 1];
      var last := src[|src| - 1];
      AssignKeepsHead(target, init);
      var prev := Assign(target, init);
      if last.0 in Keys(prev) {
        assert Keys(Set(prev, last.0, last.1))[0] == Keys(prev)[0];
      } else {
        assert Set(prev, last.0, last.1) == prev + [last];
      }
    }
  }

  /** Converting a converted form again changes nothing: the result already
      has its `type` first and no `h`, so the second pass assigns every entry
      back onto itself. */
  lemma {:induction false} FormToJf2Idempotent(form: Value)
    requires Truthy(form)
    ensures FormToJf2(Obj(FormToJf2(form).value)) == FormToJf2(form)
  {
    var e := ObjectEntries(form);
    var t := if TruthyAt(e, "h") then Get(e, "h").value else Str("entry");
    var r := FormToJf2(form).value;
    assert Distinct(r) by {
      assert r == Assign([("type", t)], Delete(e, "h"));
      AssignKeepsDistinct([("type", t)], Delete(e, "h"));
    }
    Reconvert(r);
  }

  /** An object with distinct keys, `type` first and no `h` converts to
      itself. */
  lemma Reconvert(r: Entries)
    requires Distinct(r) && |r| > 0 && r[0].0 == "type" && Get(r, "h") == None
    ensures FormToJf2(Obj(r)) == Some(r)
  {
    FormOfObject(r);
    AssignOntoHead("type", Str("entry"), r);
  }

  /** `formToJf2` on an object without `h`: `type: entry` and then its own
      entries. */
  lemma FormOfObject(r: Entries)
    requires Get(r, "h") == None
    ensures FormToJf2(Obj(r)) == Some(Assign([("type", Str("entry"))], r))
  {
    assert "h" !in Keys(r);
    assert Delete(r, "h") == r;
    assert ObjectEntries(Obj(r)) == r;
  }

  /** A body that is not JSON becomes a jf2 post whose first key is `type`
      (the body's own, else its `h`, else `entry`), without `h`, and which a
      second conversion leaves as it is. */
  lemma FormBodyJf2(contentType: Option<string>, body: Value, mf2ToJf2: Value -> Entries)
    requires !(contentType.Some? && Contains(contentType.value, "application/json")) && Truthy(body)
    ensures var r := ToJf2(contentType, body, mf2ToJf2);
            && r.Some? && r.value[0].0 == "type" && Get(r.value, "h") == None
            && (Get(ObjectEntries(body), "type").None? ==>
                  Get(r.value, "type") ==
                    (if TruthyAt(ObjectEntries(body), "h") then Get(ObjectEntries(body), "h") else Some(Str("entry"))))
            && ToJf2(contentType, Obj(r.value), mf2ToJf2) == r
  {
    FormToJf2Idempotent(body);
  }

  /** `toJf2`: the JSON path (`mf2tojf2` on `{items: [body]}`, a parameter)
      exactly when the content type contains `application/json`, the form
      path otherwise. */
  function ToJf2(contentType: Option<string>, body: Value, mf2ToJf2: Value -> Entries): (r: Option<Entries>)
    ensures contentType.Some? && Contains(contentType.value, "application/json") ==>
              r == Some(mf2ToJf2(Obj([("items", Arr([body]))])))
    ensures !(contentType.Some? && Contains(contentType.value, "application/json")) ==>
              r == FormToJf2(body)
    ensures r.None? <==> !(contentType.Some? && Contains(contentType.value, "application/json")) && !Truthy(body)
  {
    if contentType.Some? && Contains(contentType.value, "application/json") then
      Some(mf2ToJf2(Obj([("items", Arr([body]))])))
    else FormToJf2(body)
  }
}

=== FILE: mf2.dfy ===
/** The update operations of section 3.4 of the W3C Micropub Recommendation
    (replace, add, remove), applied to the properties of an mf2 item.
    Each returns the changed item, or `None` (the source's `false`) when the
    result equals the item before the operation. */
module Mf2Patch {
  import opened Wrappers
  import opened Values

  /** The current values of `k`, or none. */
  function Existing(props: Props, k: string): seq<Value> {
    if k in props then props[k] else []
  }

  /** `vals` without the values listed in `remove`, in order, repeats kept:
      the filter that add uses to find new values and remove uses to drop
      listed ones. */
  function Without(vals: seq<Value>, remove: seq<Value>): (r: seq<Value>)
    ensures forall v :: v in r <==> v in vals && v !in remove
    ensures |r| <= |vals|
    decreases |vals|
  {
    if |vals| == 0 then []
    else (if vals[0] in remove then [] else [vals[0]]) + Without(vals[1..], remove)
  }

  /** The deep-equality check against the snapshot: `None` when nothing changed. */
  function Outcome(item: Mf2, after: Props): (r: Option<Mf2>)
    ensures r.None? <==> after == item.properties
    ensures r.Some? ==> r.value == Mf2(item.types, after)
  {
    if after == item.properties then None else Some(Mf2(item.types, after))
  }

  /** `addProperties`: appends to each patched property the patch values it
      does not hold yet, creating absent properties. */
  function AddProperties(item: Mf2, patch: Props): (r: Option<Mf2>)
    ensures r.None? <==>
              forall k :: k in patch ==>
                k in item.properties && forall v :: v in patch[k] ==> v in item.properties[k]
    ensures r.Some? ==> r.value.types == item.types
    ensures r.Some? ==> r.value.properties.Keys == item.properties.Keys + patch.Keys
    ensures r.Some? ==>
              forall k :: k in item.properties && k !in patch ==>
                r.value.properties[k] == item.properties[k]
    ensures r.Some? ==>
              forall k :: k in patch ==>
                var old_ := Existing(item.properties, k);
                var new_ := r.value.properties[k];
                && old_ <= new_
                && (forall v :: v in new_ <==> v in old_ || v in patch[k])
                && (forall i :: |old_| <= i < |new_| ==> new_[i] in patch[k] && new_[i] !in old_)
  {
    var p := item.properties;
    var after := map k | k in p.Keys + patch.Keys ::
      if k in patch then Existing(p, k) + Without(patch[k], Existing(p, k)) else p[k];
    if after == p then
      None
    else
      assert exists k :: k in patch && !(k in p && forall v :: v in patch[k] ==> v in p[k]) by {
        var k :| k in after && (k !in p || after[k] != p[k]);
        if k !in p {
        } else {
          assert k in patch;
          var f := Without(patch[k], p[k]);
          assert f != [] by {
            assert after[k] == p[k] + f;
          }
          assert f[0] in f;
        }
      }
      Some(Mf2(item.types, after))
  }

  /** `deleteProperties` with a list of names: removes each named property. */
  function DeleteKeys(item: Mf2, keys: seq<string>): (r: Option<Mf2>)
    ensures r.None? <==> forall k :: k in keys ==> k !in item.properties
    ensures r.Some? ==> r.value.types == item.types
    ensures r.Some? ==>
              forall k :: k in r.value.properties <==> k in item.properties && k !in keys
    ensures r.Some? ==>
              forall k :: k in r.value.properties ==> r.value.properties[k] == item.properties[k]
  {
    var p := item.properties;
    var after := map k | k in p && k !in keys :: p[k];
    if after == p then
      assert forall k :: k in keys ==> k !in p by {
        forall k | k in keys ensures k !in p {
          assert k !in after;
        }
      }
      None
    else
      Some(Mf2(item.types, after))
  }

  /** `deleteProperties` with a map of names to values: removes the listed
      values, and a property left with no values is removed entirely. */
  function DeleteValues(item: Mf2, patch: Props): (r: Option<Mf2>)
    ensures r.None? <==>
              forall k :: k in patch && k in item.properties ==>
                item.properties[k] != [] && forall v :: v in item.properties[k] ==> v !in patch[k]
    ensures r.Some? ==> r.value.types == item.types
    ensures r.Some? ==>
              forall k :: k in item.properties && k !in patch ==>
                k in r.value.properties && r.value.properties[k] == item.properties[k]
    ensures r.Some? ==>
              forall k :: k in item.properties && k in patch ==>
                (k in r.value.properties <==> exists v :: v in item.properties[k] && v !in patch[k])
    ensures r.Some? ==>
              forall k :: k in r.value.properties ==>
                k in item.properties &&
                (k in patch ==>
                   forall v :: v in r.value.properties[k] <==> v in item.properties[k] && v !in patch[k])
  {
    var p := item.properties;
    var after := map k | k in p && (k !in patch || Without(p[k], patch[k]) != []) ::
      if k in patch then Without(p[k], patch[k]) else p[k];
    if after == p then
      assert forall k :: k in patch && k in p ==> p[k] != [] && forall v :: v in p[k] ==> v !in patch[k] by {
        forall k | k in patch && k in p ensures p[k] != [] {
          assert k in after;
          assert Without(p[k], patch[k]) != [];
        }
        forall k, v | k in patch && k in p && v in p[k] ensures v !in patch[k] {
          assert k in after;
          assert after[k] == Without(p[k], patch[k]);
        }
      }
      None
    else
      assert exists k :: k in patch && k in p && (p[k] == [] || exists v :: v in p[k] && v in patch[k]) by {
        var k :| k in p && (k !in after || after[k] != p[k]);
        assert k in patch;
        if p[k] != [] && forall v :: v in p[k] ==> v !in patch[k] {
          WithoutNothing(p[k], patch[k]);
        }
      }
      assert forall k :: k in p && k in patch ==>
               (k in after <==> exists v :: v in p[k] && v !in patch[k]) by {
        forall k | k in p && k in patch
          ensures k in after <==> exists v :: v in p[k] && v !in patch[k]
        {
          var w := Without(p[k], patch[k]);
          if w != [] {
            assert w[0] in w;
          }
        }
      }
      Some(Mf2(item.types, after))
  }

  /** Removing values none of which occur leaves the sequence as it was. */
  lemma {:induction false} WithoutNothing(vals: seq<Value>, remove: seq<Value>)
    requires forall v :: v in vals ==> v !in remove
    ensures Without(vals, remove) == vals
    decreases |vals|
  {
    if |vals| > 0 {
      WithoutNothing(vals[1..], remove);
      assert vals == [vals[0]] + vals[1..];
    }
  }

  /** The replacement values of an update: each array-valued entry, a later
      one overriding an earlier one with the same key; other entries are
      skipped. */
  function Replacements(patch: Entries): (m: Props)
    ensures forall k :: k in m <==> exists i :: 0 <= i < |patch| && patch[i].0 == k && patch[i].1.Arr?
    ensures forall i :: 0 <= i < |patch| && patch[i].1.Arr? &&
                        (forall j :: i < j < |patch| && patch[j].1.Arr? ==> patch[j].0 != patch[i].0)
                        ==> m[patch[i].0] == patch[i].1.items
    decreases |patch|
  {
    if |patch| == 0 then map[]
    else
      var init := patch[..|patch| - 1];
      var last := patch[|patch| - 1];
      var m := Replacements(init);
      assert forall i :: 0 <= i < |init| ==> init[i] == patch[i];
      if last.1.Arr? then m[last.0 := last.1.items] else m
  }

  /** `updateProperties`: each array-valued entry replaces the whole sequence
      of its property, creating it if absent; other entries are ignored. */
  function UpdateProperties(item: Mf2, patch: Entries): (r: Option<Mf2>)
    ensures r.None? <==>
              forall k :: k in Replacements(patch) ==>
                k in item.properties && item.properties[k] == Replacements(patch)[k]
    ensures r.Some? ==> r.value.types == item.types
    ensures r.Some? ==>
              r.value.properties.Keys == item.properties.Keys + Replacements(patch).Keys
    ensures r.Some? ==>
              forall k :: k in item.properties && k !in Replacements(patch) ==>
                r.value.properties[k] == item.properties[k]
    ensures r.Some? ==>
              forall i :: 0 <= i < |patch| && patch[i].1.Arr? &&
                          (forall j :: i < j < |patch| && patch[j].1.Arr? ==> patch[j].0 != patch[i].0)
                          ==> r.value.properties[patch[i].0] == patch[i].1.items
  {
    var m := Replacements(patch);
    var after := item.properties + m;
    if after == item.properties then
      assert forall k :: k in m ==> k in item.properties && item.properties[k] == m[k] by {
        forall k | k in m ensures k in item.properties && item.properties[k] == m[k] {
          assert after[k] == m[k];
        }
      }
      None
    else
      Some(Mf2(item.types, after))
  }

  /** Applying the same add patch twice changes nothing the second time. */
  lemma AddIdempotent(item: Mf2, patch: Props)
    ensures AddProperties(AddProperties(item, patch).GetOr(item), patch).None?
  {
  }

  /** A replace patch without a single array value is a no-op. */
  lemma ReplaceWithoutArraysIsNoop(item: Mf2, patch: Entries)
    requires forall i :: 0 <= i < |patch| ==> !patch[i].1.Arr?
    ensures UpdateProperties(item, patch).None?
  {
  }

  /** Removing values from properties the item does not have is a no-op. */
  lemma DeleteValuesOfAbsentKeys(item: Mf2, patch: Props)
    requires forall k :: k in patch ==> k !in item.properties
    ensures DeleteValues(item, patch).None?
  {
  }

  /** Soft delete then undelete (section 3.5 of the Micropub Recommendation):
      adding `deleted: [true]` to an item without a `deleted` property and
      then removing the `deleted` key restores the item exactly. */
  lemma SoftDeleteRoundTrip(item: Mf2)
    requires "deleted" !in item.properties
    ensures AddProperties(item, map["deleted" := [Bool(true)]]).Some?
    ensures DeleteKeys(AddProperties(item, map["deleted" := [Bool(true)]]).value, ["deleted"]) == Some(item)
  {
    var added := AddProperties(item, map["deleted" := [Bool(true)]]).value;
    var after := map k | k in added.properties && k !in ["deleted"] :: added.properties[k];
    assert after == item.properties;
  }

  /** Soft-deleting an item whose `deleted` property already holds `true`
      changes nothing. */
  lemma SoftDeleteTwiceIsNoop(item: Mf2)
    requires "deleted" in item.properties && Bool(true) in item.properties["deleted"]
    ensures AddProperties(item, map["deleted" := [Bool(true)]]).None?
  {
  }
}

=== FILE: parse_body.dfy ===
/** Decoding of form fields into a request body: the multipart field
    accumulator and the conversion of URL-encoded pairs to an object. */
module ParseBody {
  import opened Wrappers
  import opened Values
  import opened Text

  /** A field name with one trailing `[]` removed. */
  function Normalize(name: string): (key: string)
    ensures EndsWith(name, "[]") ==> key + "[]" == name
    ensures !EndsWith(name, "[]") ==> key == name
  {
    if EndsWith(name, "[]") then name[..|name| - 2] else name
  }

  /** The values a `name[]` field would push onto: the current array, or
      nothing when the key is absent or falsy. */
  function Pushed(store: Entries, key: string): seq<Value> {
    if TruthyAt(store, key) && Get(store, key).value.Arr? then Get(store, key).value.items else []
  }

  /** `addProperty`: a `name[]` field appends its value to the array under
      `name`, starting a new array when the key is absent or falsy; a plain
      field overwrites. Pushing onto a truthy non-array (a plain field that
      arrived first) is a `TypeError` in the source; here it is `None`. */
  function AddProperty(store: Entries, name: string, value: string): (r: Option<Entries>)
    ensures !EndsWith(name, "[]") ==> r == Some(Set(store, name, Str(value)))
    ensures EndsWith(name, "[]") ==>
              (r.None? <==> TruthyAt(store, Normalize(name)) && !Get(store, Normalize(name)).value.Arr?)
    ensures r.Some? ==>
              Get(r.value, Normalize(name)) ==
                Some(if EndsWith(name, "[]") then Arr(Pushed(store, Normalize(name)) + [Str(value)]) else Str(value))
    ensures r.Some? ==> forall k :: k != Normalize(name) ==> Get(r.value, k) == Get(store, k)
  {
    if EndsWith(name, "[]") then
      var key := Normalize(name);
      var cur := Get(store, key);
      if cur.None? || !Truthy(cur.value) then
        assert Pushed(store, key) + [Str(value)] == [Str(value)];
        Some(Set(store, key, Arr([Str(value)])))
      else if cur.value.Arr? then Some(Set(store, key, Arr(cur.value.items + [Str(value)])))
      else None
    else Some(Set(store, name, Str(value)))
  }

  /** The `field` events of one multipart body, folded through `addProperty`
      in arrival order; `None` when one of them throws. */
  function ParseFields(fields: seq<(string, string)>): (r: Option<Entries>)
    decreases |fields|
  {
    if |fields| == 0 then Some([])
    else
      var before :- ParseFields(fields[..|fields| - 1]);
      AddProperty(before, fields[|fields| - 1].0, fields[|fields| - 1].1)
  }

  /** A parsed body has a key exactly when some field's name, with one
      trailing `[]` removed, is that key. */
  lemma {:induction false} ParseFieldsKeys(fields: seq<(string, string)>, k: string)
    requires ParseFields(fields).Some?
    ensures Get(ParseFields(fields).value, k).Some? <==> exists i :: 0 <= i < |fields| && Normalize(fields[i].0) == k
    decreases |fields|
  {
    if |fields| > 0 {
      var init := fields[..|fields| - 1];
      var last := fields[|fields| - 1];
      var before := ParseFields(init).value;
      var r := ParseFields(fields).value;
      assert Some(r) == AddProperty(before, last.0, last.1);
      if Normalize(last.0) == k {
        assert Get(r, k).Some?;
        assert Normalize(fields[|fields| - 1].0) == k;
      } else {
        ParseFieldsKeys(init, k);
        NamedAmongInit(fields, init, k);
        assert Get(r, k) == Get(before, k);
      }
    }
  }

  /** When the last field is not called `k`, some field is exactly when some
      earlier one is. */
  lemma NamedAmongInit(fields: seq<(string, string)>, init: seq<(string, string)>, k: string)
    requires |fields| > 0 && init == fields[..|fields| - 1] && Normalize(fields[|fields| - 1].0) != k
    ensures (exists i :: 0 <= i < |fields| && Normalize(fields[i].0) == k) <==>
            (exists i :: 0 <= i < |init| && Normalize(init[i].0) == k)
  {
    if exists i :: 0 <= i < |fields| && Normalize(fields[i].0) == k {
      var i :| 0 <= i < |fields| && Normalize(fields[i].0) == k;
      assert init[i] == fields[i];
    }
    if exists i :: 0 <= i < |init| && Normalize(init[i].0) == k {
      var i :| 0 <= i < |init| && Normalize(init[i].0) == k;
      assert init[i] == fields[i];
    }
  }

  /** The body `parseMultipart` resolves to: the fields, then `files` (the
      uploaded files, here an opaque value). A field handler that throws is
      modelled as a failed parse, after which `parseBody` has no body; how
      the multipart stream reports an exception thrown by its listener is not
      part of this model. */
  function ParseMultipart(fields: seq<(string, string)>, files: Value): (r: Option<Entries>)
    ensures r.Some? <==> ParseFields(fields).Some?
    ensures r.Some? ==> Get(r.value, "files") == Some(files)
    ensures r.Some? ==> forall k :: k != "files" ==> Get(r.value, k) == Get(ParseFields(fields).value, k)
  {
    var fs :- ParseFields(fields);
    Some(Set(fs, "files", files))
  }

  /** The values of the fields called exactly `name`, in arrival order. */
  function ValuesOf(fields: seq<(string, string)>, name: string): (vs: seq<string>)
    ensures |vs| <= |fields|
    decreases |fields|
  {
    if |fields| == 0 then []
    else
      var last := fields[|fields| - 1];
      ValuesOf(fields[..|fields| - 1], name) + (if last.0 == name then [last.1] else [])
  }

  /** `name[]` fields accumulate into an array in arrival order, as long as
      no plain field of the same key interferes. */
  lemma {:induction false} ArrayFieldsAccumulate(fields: seq<(string, string)>, key: string)
    requires forall i :: 0 <= i < |fields| ==> fields[i].0 != key
    ensures ParseFields(fields).Some? ==>
              var vs := ValuesOf(fields, key + "[]");
              Get(ParseFields(fields).value, key) == (if vs == [] then None else Some(Arr(Strs(vs))))
    decreases |fields|
  {
    if |fields| > 0 && ParseFields(fields).Some? {
      var init := fields[..|fields| - 1];
      var last := fields[|fields| - 1];
      ArrayFieldsAccumulate(init, key);
      var before := ParseFields(init).value;
      AccumulateStep(before, last.0, last.1, key, ValuesOf(init, key + "[]"));
    }
  }

  /** One field of `ArrayFieldsAccumulate`. */
  lemma {:induction false} AccumulateStep(before: Entries, name: string, value: string, key: string, vs: seq<string>)
    requires name != key
    requires Get(before, key) == (if vs == [] then None else Some(Arr(Strs(vs))))
    requires AddProperty(before, name, value).Some?
    ensures var vs' := vs + (if name == key + "[]" then [value] else []);
            Get(AddProperty(before, name, value).value, key) == (if vs' == [] then None else Some(Arr(Strs(vs'))))
  {
    if name == key + "[]" {
      assert EndsWith(name, "[]");
      assert Normalize(name) == key;
      assert Pushed(before, key) == Strs(vs);
      assert Strs(vs) + [Str(value)] == Strs(vs + [value]);
    } else if Normalize(name) == key {
      assert false;
    } else {
      assert vs + [] == vs;
    }
  }

  /** A plain field is worth its last value: the value of the last field
      naming its key decides. */
  lemma {:induction false} PlainFieldLastWins(fields: seq<(string, string)>, name: string, value: string)
    requires !EndsWith(name, "[]")
    requires |fields| > 0 && fields[|fields| - 1] == (name, value)
    ensures ParseFields(fields).Some? <==> ParseFields(fields[..|fields| - 1]).Some?
    ensures ParseFields(fields).Some? ==> Get(ParseFields(fields).value, name) == Some(Str(value))
  {
  }

  /** `data.getAll(name)` of URL-encoded pairs: the values named `name`, in
      order. */
  function GetAll(data: seq<(string, string)>, name: string): (vs: seq<string>)
    ensures |vs| <= |data|
    ensures (exists i :: 0 <= i < |data| && data[i].0 == name) <==> |vs| > 0
    decreases |data|
  {
    if |data| == 0 then []
    else (if data[0].0 == name then [data[0].1] else []) + GetAll(data[1..], name)
  }

  /** The entry `dataToJson` makes for one key: one value alone, several as
      an array. */
  function Entry(data: seq<(string, string)>, name: string): (e: (string, Value)) {
    var vs := GetAll(data, name);
    (Normalize(name), if |vs| == 1 then Str(vs[0]) else Arr(Strs(vs)))
  }

  /** `dataToJson`: `None` (the source's `undefined`) for a missing form;
      otherwise one entry per key, with `[]` stripped, a single value as a
      scalar and repeated values as an array, built with
      `Object.fromEntries`. */
  function DataToJson(data: Option<seq<(string, string)>>): (r: Option<Entries>)
    ensures r.None? <==> data.None?
    ensures r.Some? ==>
              forall k :: Get(r.value, k).Some? <==>
                exists i :: 0 <= i < |data.value| && Normalize(data.value[i].0) == k
  {
    match data
    case None => None
    case Some(d) =>
      var entries := seq(|d|, i requires 0 <= i < |d| => Entry(d, d[i].0));
      assert forall i :: 0 <= i < |d| ==> Keys(entries)[i] == Normalize(d[i].0);
      Some(FromEntries(entries))
  }

  /** A key whose normalized form no other key shares maps to its values: the
      one value as a scalar (even for `x[]`), several as an array in order. */
  lemma {:induction false} DataToJsonValue(d: seq<(string, string)>, name: string)
    requires exists i :: 0 <= i < |d| && d[i].0 == name
    requires forall i :: 0 <= i < |d| && Normalize(d[i].0) == Normalize(name) ==> d[i].0 == name
    ensures var vs := GetAll(d, name);
            Get(DataToJson(Some(d)).value, Normalize(name)) ==
              Some(if |vs| == 1 then Str(vs[0]) else Arr(Strs(vs)))
  {
    var entries := seq(|d|, i requires 0 <= i < |d| => Entry(d, d[i].0));
    var i := LastIndexOf(d, name);
    forall j | i < j < |entries| ensures entries[j].0 != entries[i].0 {
      assert d[j].0 != name;
    }
    AssignLastWins([], entries, i);
  }

  /** The last position holding `name`. */
  function LastIndexOf(d: seq<(string, string)>, name: string): (i: nat)
    requires exists i :: 0 <= i < |d| && d[i].0 == name
    ensures i < |d| && d[i].0 == name
    ensures forall j :: i < j < |d| ==> d[j].0 != name
    decreases |d|
  {
    if d[|d| - 1].0 == name then |d| - 1
    else
      var k :| 0 <= k < |d| && d[k].0 == name;
      assert d[..|d| - 1][k].0 == name;
      LastIndexOf(d[..|d| - 1], name)
  }

  /** A lone `x[]` field gives a scalar, not a one-element array. */
  lemma SingleArrayFieldIsScalar(v: string)
    ensures DataToJson(Some([("tags[]", v)])) == Some([("tags", Str(v))])
  {
    var d := [("tags[]", v)];
    assert GetAll(d, "tags[]") == [v];
    assert Normalize("tags[]") == "tags";
    var entries := seq(|d|, i requires 0 <= i < |d| => Entry(d, d[i].0));
    assert entries == [("tags", Str(v))];
    assert Assign([], entries) == Set([], "tags", Str(v));
  }
}

=== FILE: post_types.dfy ===
/** Post Type Discovery: the ordered first-match classifier of jf2 posts. */
module PostTypes {
  import opened Wrappers
  import opened Values

  /** The thirteen post types the classifier can answer. */
  datatype PostType =
    | Rsvp | Reply | Repost | Like | Bookmark | Checkin | Photo
    | Article | Watch | Read | Listen | Play | Note
  {
    /** The tag the source uses for the type. */
    function Name(): string {
      match this
      case Rsvp => "rsvp"
      case Reply => "reply"
      case Repost => "repost"
      case Like => "like"
      case Bookmark => "bookmark"
      case Checkin => "checkin"
      case Photo => "photo"
      case Article => "article"
      case Watch => "watch"
      case Read => "read"
      case Listen => "listen"
      case Play => "play"
      case Note => "note"
    }
  }

  /** The answers `rsvp` accepts. */
  predicate IsRsvpAnswer(v: Value) {
    v == Str("yes") || v == Str("no") || v == Str("maybe") || v == Str("interested")
  }

  /** The rules after `rsvp`, in order: the property that must be truthy and
      the type it gives. */
  const Rules: seq<(string, PostType)> := [
    ("in-reply-to", Reply), ("repost-of", Repost), ("like-of", Like),
    ("bookmark-of", Bookmark), ("checkin", Checkin), ("photo", Photo),
    ("name", Article), ("watch-of", Watch), ("read-of", Read),
    ("listen-of", Listen), ("play-of", Play)
  ]

  /** The type of the first rule from `from` on whose property is truthy, or
      `note` when none is. */
  function FirstMatch(data: Entries, from: nat): (t: PostType)
    requires from <= |Rules|
    ensures t == Note || exists i :: from <= i < |Rules| && Rules[i].1 == t && TruthyAt(data, Rules[i].0)
    ensures t == Note <==> forall i :: from <= i < |Rules| ==> !TruthyAt(data, Rules[i].0)
    decreases |Rules| - from
  {
    if from == |Rules| then Note
    else if TruthyAt(data, Rules[from].0) then Rules[from].1
    else FirstMatch(data, from + 1)
  }

  /** The classification of an object's entries. */
  function ClassifyEntries(data: Entries): PostType {
    if TruthyAt(data, "rsvp") && IsRsvpAnswer(Get(data, "rsvp").value) && TruthyAt(data, "in-reply-to") then Rsvp
    else if TruthyAt(data, "in-reply-to") then Reply
    else if TruthyAt(data, "repost-of") then Repost
    else if TruthyAt(data, "like-of") then Like
    else if TruthyAt(data, "bookmark-of") then Bookmark
    else if TruthyAt(data, "checkin") then Checkin
    else if TruthyAt(data, "photo") then Photo
    else if TruthyAt(data, "name") then Article
    else if TruthyAt(data, "watch-of") then Watch
    else if TruthyAt(data, "read-of") then Read
    else if TruthyAt(data, "listen-of") then Listen
    else if TruthyAt(data, "play-of") then Play
    else Note
  }

  /** `postTypes`: `None` (the source's `null`) for non-objects and for objects
      without keys. An array with elements is an object with keys but none of
      the rule properties, so it is a note; so is a nested mf2 item. `null`
      makes `Object.keys` throw. */
  function Classify(data: Value): (r: Result<Option<PostType>>)
    ensures r.Err? <==> data.Null?
    ensures r.Ok? && r.value.None? <==>
              !data.Null? && !(data.Obj? && |data.entries| > 0) && !(data.Arr? && |data.items| > 0) && !data.Item?
    ensures data.Obj? && |data.entries| > 0 ==> r == Ok(Some(ClassifyEntries(data.entries)))
  {
    match data
    case Null => Err(Internal("Cannot convert undefined or null to object"))
    case Obj(e) => if |e| == 0 then Ok(None) else Ok(Some(ClassifyEntries(e)))
    case Arr(items) => if |items| == 0 then Ok(None) else Ok(Some(Note))
    case Item(_) => Ok(Some(Note))
    case _ => Ok(None)
  }

  /** The `rsvp` rule first, then the rule table, first match wins. */
  lemma {:induction false} ClassifyIsFirstMatch(data: Entries)
    ensures ClassifyEntries(data) ==
              if TruthyAt(data, "rsvp") && IsRsvpAnswer(Get(data, "rsvp").value) && TruthyAt(data, "in-reply-to")
              then Rsvp else FirstMatch(data, 0)
  {
    assert FirstMatch(data, 10) == if TruthyAt(data, "play-of") then Play else Note;
    assert FirstMatch(data, 9) == if TruthyAt(data, "listen-of") then Listen else FirstMatch(data, 10);
    assert FirstMatch(data, 8) == if TruthyAt(data, "read-of") then Read else FirstMatch(data, 9);
    assert FirstMatch(data, 7) == if TruthyAt(data, "watch-of") then Watch else FirstMatch(data, 8);
    assert FirstMatch(data, 6) == if TruthyAt(data, "name") then Article else FirstMatch(data, 7);
    assert FirstMatch(data, 5) == if TruthyAt(data, "photo") then Photo else FirstMatch(data, 6);
    assert FirstMatch(data, 4) == if TruthyAt(data, "checkin") then Checkin else FirstMatch(data, 5);
    assert FirstMatch(data, 3) == if TruthyAt(data, "bookmark-of") then Bookmark else FirstMatch(data, 4);
    assert FirstMatch(data, 2) == if TruthyAt(data, "like-of") then Like else FirstMatch(data, 3);
    assert FirstMatch(data, 1) == if TruthyAt(data, "repost-of") then Repost else FirstMatch(data, 2);
    assert FirstMatch(data, 0) == if TruthyAt(data, "in-reply-to") then Reply else FirstMatch(data, 1);
  }

  /** `rsvp` exactly when the answer is one of the four and there is a reply
      target. */
  lemma RsvpExactly(data: Entries)
    ensures ClassifyEntries(data) == Rsvp <==>
              TruthyAt(data, "rsvp") && IsRsvpAnswer(Get(data, "rsvp").value) && TruthyAt(data, "in-reply-to")
  {
  }

  /** A note is a post that none of the rule properties marks. */
  lemma {:induction false} NoteExactly(data: Entries)
    ensures ClassifyEntries(data) == Note <==> forall i :: 0 <= i < |Rules| ==> !TruthyAt(data, Rules[i].0)
  {
    ClassifyIsFirstMatch(data);
    assert Rules[0].0 == "in-reply-to";
  }

  /** Earlier rules take precedence: a reply that is also a like is a reply. */
  lemma ReplyBeatsLike(target: Value, liked: Value)
    requires Truthy(target) && Truthy(liked)
    ensures ClassifyEntries([("like-of", liked), ("in-reply-to", target)]) == Reply
  {
    var d: Entries := [("like-of", liked), ("in-reply-to", target)];
    assert Get(d, "rsvp") == None;
    assert Get(d, "in-reply-to") == Some(target);
  }

  /** The tag of every classification is one of the thirteen, and tags are
      distinct. */
  lemma NamesDistinct(a: PostType, b: PostType)
    ensures a.Name() == b.Name() <==> a == b
  {
  }
}

=== FILE: slug_literals.dfy ===
/** The slugs of a few literal titles, worked out character by character:
    the lower-cased text, then its hyphenation. */
module SlugLiterals {
  import opened Text
  import Utils

  /** `slugify("My Post")` is `my-post`. */
  lemma MyPost()
    ensures Utils.Slugify("My Post") == "my-post"
  {
    LowerMyPost();
    HyphenateMyPost();
    Utils.SlugifyWords("My Post", "my post", "my-post");
  }

  lemma LowerMyPost()
    ensures Lower("My Post") == "my post"
  {
    assert forall i :: 0 <= i < 7 ==> Lower("My Post")[i] == "my post"[i];
  }

  lemma HyphenateMyPost()
    ensures Utils.Hyphenate("my post") == "my-post"
  {
    assert forall i :: 0 <= i < 7 ==> Utils.Hyphenate("my post")[i] == "my-post"[i];
  }

  /** `slugify("Title")` is `title`. */
  lemma Title()
    ensures Utils.Slugify("Title") == "title"
  {
    LowerTitle();
    HyphenateTitle();
    Utils.SlugifyWords("Title", "title", "title");
  }

  lemma LowerTitle()
    ensures Lower("Title") == "title"
  {
    assert forall i :: 0 <= i < 5 ==> Lower("Title")[i] == "title"[i];
  }

  lemma HyphenateTitle()
    ensures Utils.Hyphenate("title") == "title"
  {
    assert forall i :: 0 <= i < 5 ==> Utils.Hyphenate("title")[i] == "title"[i];
  }

  /** `slugify("1234-Star Wars-1977")` is `1234-star-wars-1977`. */
  lemma StarWars()
    ensures Utils.Slugify("1234-Star Wars-1977") == "1234-star-wars-1977"
  {
    LowerStarWars();
    HyphenateStarWars();
    Utils.SlugifyWords("1234-Star Wars-1977", "1234-star wars-1977", "1234-star-wars-1977");
  }

  /** The joined parts of the Star Wars example. */
  lemma StarWarsText()
    ensures "1234-" + "Star Wars" + "-" + "1977" == "1234-Star Wars-1977"
  {
    assert forall i :: 0 <= i < 19 ==> ("1234-" + "Star Wars" + "-" + "1977")[i] == "1234-Star Wars-1977"[i];
  }

  lemma LowerStarWars()
    ensures Lower("1234-Star Wars-1977") == "1234-star wars-1977"
  {
    assert forall i :: 0 <= i < 19 ==> Lower("1234-Star Wars-1977")[i] == "1234-star wars-1977"[i];
  }

  lemma HyphenateStarWars()
    ensures Utils.Hyphenate("1234-star wars-1977") == "1234-star-wars-1977"
  {
    assert forall i :: 0 <= i < 19 ==> Utils.Hyphenate("1234-star wars-1977")[i] == "1234-star-wars-1977"[i];
  }

  /** The decimal renderings of 1234 and 1977. */
  lemma Digits()
    ensures IntToString(1234) == "1234"
    ensures IntToString(1977) == "1977"
  {
    assert NatToString(1) == "1" && NatToString(12) == "12" && NatToString(123) == "123";
    assert NatToString(19) == "19" && NatToString(197) == "197";
  }
}

=== FILE: text.dfy ===
/** The JavaScript string operations the endpoint relies on, over `seq<char>`.
    Case mapping is the ASCII one (see README, "Left out"). */
module Text {

  /** Whitespace as `String.prototype.trim` sees it: the white space and line
      terminator characters of section 12.2 and 12.3 of ECMA-262, that is tab,
      line feed, vertical tab, form feed, carriage return, the space
      separators of Unicode category Zs, the two Unicode line terminators and
      the byte order mark. */
  predicate IsSpace(c: char) {
    c == '\t' || c == '\n' || c == '\U{000B}' || c == '\U{000C}' || c == '\r' || c == ' '
    || c == '\U{00A0}' || c == '\U{1680}' || '\U{2000}' <= c <= '\U{200A}'
    || c == '\U{2028}' || c == '\U{2029}' || c == '\U{202F}' || c == '\U{205F}'
    || c == '\U{3000}' || c == '\U{FEFF}'
  }

  /** Removes the longest all-whitespace prefix. */
  function TrimStart(s: string): (r: string)
    ensures |r| <= |s| && r == s[|s| - |r|..]
    ensures |r| > 0 ==> !IsSpace(r[0])
    ensures forall i :: 0 <= i < |s| - |r| ==> IsSpace(s[i])
    decreases |s|
  {
    if |s| > 0 && IsSpace(s[0]) then TrimStart(s[1..]) else s
  }

  /** Removes the longest all-whitespace suffix. */
  function TrimEnd(s: string): (r: string)
    ensures |r| <= |s| && r == s[..|r|]
    ensures |r| > 0 ==> !IsSpace(r[|r| - 1])
    ensures forall i :: |r| <= i < |s| ==> IsSpace(s[i])
    decreases |s|
  {
    if |s| > 0 && IsSpace(s[|s| - 1]) then TrimEnd(s[..|s| - 1]) else s
  }

  /** `String.prototype.trim`. */
  function Trim(s: string): string {
    TrimEnd(TrimStart(s))
  }

  /** `toLowerCase` on one character (ASCII letters only). */
  function LowerChar(c: char): char {
    if 'A' <= c <= 'Z' then (c as int + 32) as char else c
  }

  /** `String.prototype.toLowerCase`, ASCII letters only. */
  function Lower(s: string): (r: string)
    ensures |r| == |s|
    ensures forall i :: 0 <= i < |s| ==> r[i] == LowerChar(s[i])
  {
    seq(|s|, i requires 0 <= i < |s| => LowerChar(s[i]))
  }

  predicate StartsWith(s: string, prefix: string) {
    |prefix| <= |s| && s[..|prefix|] == prefix
  }

  predicate EndsWith(s: string, suffix: string) {
    |suffix| <= |s| && s[|s| - |suffix|..] == suffix
  }

  /** `String.prototype.includes`: `sub` occurs somewhere in `s`. */
  predicate Contains(s: string, sub: string)
    decreases |s|
  {
    StartsWith(s, sub) || (|s| > 0 && Contains(s[1..], sub))
  }

  predicate IsDigit(c: char) {
    '0' <= c <= '9'
  }

  /** Decimal rendering of a natural number, as JavaScript prints it. */
  function NatToString(n: nat): (r: string)
    ensures |r| >= 1
    ensures forall i :: 0 <= i < |r| ==> IsDigit(r[i])
    decreases n
  {
    var d := ['0' + (n % 10) as char];
    if n < 10 then d else NatToString(n / 10) + d
  }

  /** Decimal rendering of an integer, with a leading `-` when negative. */
  function IntToString(n: int): string {
    if n < 0 then "-" + NatToString(-n) else NatToString(n)
  }

  /** `Array.prototype.join(sep)`. */
  function Join(parts: seq<string>, sep: string): string
    decreases |parts|
  {
    if |parts| == 0 then ""
    else if |parts| == 1 then parts[0]
    else parts[0] + sep + Join(parts[1..], sep)
  }

  /** Two parts joined behind at most one leading part. */
  lemma JoinBehind(lead: seq<string>, a: string, b: string)
    requires |lead| <= 1
    ensures Join(lead + [a, b], "-") == (if lead == [] then "" else lead[0] + "-") + a + "-" + b
  {
    if lead == [] {
      JoinTwo(a, b);
    } else {
      assert lead + [a, b] == [lead[0], a, b];
      JoinThree(lead[0], a, b);
    }
  }

  /** Two parts joined. */
  lemma JoinTwo(a: string, b: string)
    ensures Join([a, b], "-") == a + "-" + b
  {
    assert [a, b][1..] == [b];
  }

  /** Three parts joined. */
  lemma JoinThree(a: string, b: string, c: string)
    ensures Join([a, b, c], "-") == a + "-" + b + "-" + c
  {
    assert [a, b, c][1..] == [b, c];
    JoinTwo(b, c);
    assert a + "-" + (b + "-" + c) == a + "-" + b + "-" + c;
  }

  /** `String.prototype.split` on a one-character separator: always at least
      one piece, empty pieces kept. */
  function Split(s: string, c: char): (r: seq<string>)
    ensures |r| >= 1
    decreases |s|
  {
    if |s| == 0 then [""]
    else if s[0] == c then [""] + Split(s[1..], c)
    else
      var rest := Split(s[1..], c);
      [[s[0]] + rest[0]] + rest[1..]
  }

  /** No piece produced by `Split` contains the separator. */
  lemma {:induction false} SplitPiecesFree(s: string, c: char)
    ensures forall t :: t in Split(s, c) ==> c !in t
    decreases |s|
  {
    if |s| > 0 {
      SplitPiecesFree(s[1..], c);
    }
  }

  /** Joining the pieces with the separator gives back the string. */
  lemma {:induction false} JoinSplit(s: string, c: char)
    ensures Join(Split(s, c), [c]) == s
    decreases |s|
  {
    if |s| > 0 {
      var rest := Split(s[1..], c);
      JoinSplit(s[1..], c);
      if s[0] == c {
        assert Split(s, c) == [""] + rest;
        assert Split(s, c)[1..] == rest;
      } else {
        var r := Split(s, c);
        assert r == [[s[0]] + rest[0]] + rest[1..];
        if |rest| == 1 {
          assert r == [[s[0]] + rest[0]];
        } else {
          assert r[1..] == rest[1..];
          assert Join(rest, [c]) == rest[0] + [c] + Join(rest[1..], [c]);
        }
      }
    }
  }

  /** Splitting a join of separator-free pieces gives back the pieces. */
  lemma {:induction false} SplitJoin(parts: seq<string>, c: char)
    requires |parts| >= 1
    requires forall t :: t in parts ==> c !in t
    ensures Split(Join(parts, [c]), c) == parts
    decreases |parts|, |parts[0]|, 1
  {
    if |parts[0]| == 0 {
      SplitJoinEmptyHead(parts, c);
    } else {
      SplitJoinHeadChar(parts, c);
    }
  }

  /** `SplitJoin` when the first piece is empty: the join starts with the
      separator (or is empty). */
  lemma {:induction false} SplitJoinEmptyHead(parts: seq<string>, c: char)
    requires |parts| >= 1 && parts[0] == ""
    requires forall t :: t in parts ==> c !in t
    ensures Split(Join(parts, [c]), c) == parts
    decreases |parts|, 0, 0
  {
    if |parts| == 1 {
      assert Join(parts, [c]) == "";
    } else {
      assert forall t :: t in parts[1..] ==> t in parts;
      SplitJoin(parts[1..], c);
      var j := Join(parts, [c]);
      assert j == [c] + Join(parts[1..], [c]);
      assert j[1..] == Join(parts[1..], [c]);
      assert parts == [""] + parts[1..];
    }
  }

  /** `SplitJoin` when the first piece is not empty: its first character
      starts the first piece of the split. */
  lemma {:induction false} SplitJoinHeadChar(parts: seq<string>, c: char)
    requires |parts| >= 1 && |parts[0]| > 0
    requires forall t :: t in parts ==> c !in t
    ensures Split(Join(parts, [c]), c) == parts
    decreases |parts|, |parts[0]|, 0
  {
    var p := parts[0];
    assert p in parts;
    var shorter := [p[1..]] + parts[1..];
    assert c !in p[1..] by {
      assert forall x :: x in p[1..] ==> x in p;
    }
    assert forall t :: t in shorter ==> c !in t by {
      assert forall t :: t in parts[1..] ==> t in parts;
    }
    SplitJoin(shorter, c);
    var j := Join(parts, [c]);
    assert j[1..] == Join(shorter, [c]) by {
      if |parts| == 1 {
        assert j == p;
      } else {
        assert j == p + [c] + Join(parts[1..], [c]);
        assert Join(shorter, [c]) == p[1..] + [c] + Join(parts[1..], [c]);
      }
    }
    assert p[0] in p;
    assert j[0] == p[0] && p[0] != c;
    assert Split(j, c) == [[p[0]] + shorter[0]] + shorter[1..];
    assert [p[0]] + p[1..] == p;
    assert parts == [p] + parts[1..];
  }

  /** Lexicographic order on characters, which stands for JavaScript's `<`
      on strings. The two agree on strings whose characters all lie in the
      Basic Multilingual Plane; JavaScript compares UTF-16 code units, so a
      character above U+FFFF sorts before U+E000-U+FFFF there, and after
      them here. */
  predicate LexLess(a: string, b: string)
    decreases |a|
  {
    if |b| == 0 then false
    else if |a| == 0 then true
    else if a[0] != b[0] then a[0] < b[0]
    else LexLess(a[1..], b[1..])
  }

  lemma {:induction false} LexLessIrreflexive(a: string)
    ensures !LexLess(a, a)
    decreases |a|
  {
    if |a| > 0 {
      LexLessIrreflexive(a[1..]);
    }
  }

  lemma {:induction false} LexLessTransitive(a: string, b: string, c: string)
    requires LexLess(a, b) && LexLess(b, c)
    ensures LexLess(a, c)
    decreases |a|
  {
    if |a| > 0 && a[0] == b[0] && b[0] == c[0] {
      LexLessTransitive(a[1..], b[1..], c[1..]);
    }
  }

  lemma {:induction false} LexLessTotal(a: string, b: string)
    requires a != b
    ensures LexLess(a, b) || LexLess(b, a)
    decreases |a|
  {
    if |a| > 0 && |b| > 0 && a[0] == b[0] {
      assert a == [a[0]] + a[1..] && b == [b[0]] + b[1..];
      LexLessTotal(a[1..], b[1..]);
    }
  }
}

=== FILE: utils.dfy ===
/** Helpers for naming posts: property filtering, slugs and the mapping from
    a post URL to the file that stores it. */
module Utils {
  import opened Wrappers
  import opened Values
  import opened Text

  /** Whether `pick` keeps `key`: the allow list is usually an array of names;
      a single query value arrives as a string, and `includes` on a string
      tests for a substring. */
  predicate Allows(allow: Value, key: string)
    requires allow.Arr? || allow.Str?
  {
    if allow.Arr? then Str(key) in allow.items else Contains(allow.s, key)
  }

  /** `pick`: the properties whose names the allow list admits, values
      unchanged. */
  function Pick(allow: Value, props: Props): (r: Props)
    requires allow.Arr? || allow.Str?
    ensures forall k :: k in r <==> k in props && Allows(allow, k)
    ensures forall k :: k in r ==> r[k] == props[k]
  {
    map k | k in props && Allows(allow, k) :: props[k]
  }

  /** Picking twice with the same list is picking once. */
  lemma PickIdempotent(allow: Value, props: Props)
    requires allow.Arr? || allow.Str?
    ensures Pick(allow, Pick(allow, props)) == Pick(allow, props)
  {
  }

  /** An array naming every property keeps them all. */
  lemma PickAllIsIdentity(names: seq<Value>, props: Props)
    requires forall k :: k in props ==> Str(k) in names
    ensures Pick(Arr(names), props) == props
  {
  }

  /** A character `slugify` keeps: `\w` (ASCII letters, digits, `_`), `-` and
      the space. */
  predicate Kept(c: char) {
    'a' <= c <= 'z' || 'A' <= c <= 'Z' || IsDigit(c) || c == '_' || c == '-' || c == ' '
  }

  /** A character a slug may hold. */
  predicate SlugChar(c: char) {
    'a' <= c <= 'z' || IsDigit(c) || c == '_' || c == '-'
  }

  predicate IsSlug(s: string) {
    forall i :: 0 <= i < |s| ==> SlugChar(s[i])
  }

  /** `replace(/[^\w- ]+/g, '')`: drops every character outside the kept set. */
  function KeepOnly(s: string): (r: string)
    ensures forall i :: 0 <= i < |r| ==> Kept(r[i])
    ensures |r| <= |s|
    decreases |s|
  {
    if |s| == 0 then ""
    else (if Kept(s[0]) then [s[0]] else "") + KeepOnly(s[1..])
  }

  /** `replace(/ /g, '-')`. */
  function Hyphenate(s: string): (r: string)
    ensures |r| == |s|
    ensures forall i :: 0 <= i < |s| ==> r[i] == (if s[i] == ' ' then '-' else s[i])
  {
    seq(|s|, i requires 0 <= i < |s| => if s[i] == ' ' then '-' else s[i])
  }

  /** `slugify`: lower-case, keep `[\w- ]`, trim, then one hyphen per space. */
  function Slugify(text: string): (r: string)
    ensures IsSlug(r)
    ensures |r| <= |text|
  {
    var trimmed := Trim(KeepOnly(Lower(text)));
    SlugifyChars(text);
    Hyphenate(trimmed)
  }

  /** What survives filtering and trimming is a kept, lower-case character. */
  lemma SlugifyChars(text: string)
    ensures var trimmed := Trim(KeepOnly(Lower(text)));
            |trimmed| <= |text| &&
            forall i :: 0 <= i < |trimmed| ==> Kept(trimmed[i]) && !('A' <= trimmed[i] <= 'Z')
  {
    var kept := KeepOnly(Lower(text));
    TrimmedChars(kept);
    forall c | c in kept ensures Kept(c) && !('A' <= c <= 'Z') {
      KeepOnlyLower(Lower(text), c);
    }
  }

  /** Trimming only removes characters. */
  lemma TrimmedChars(s: string)
    ensures |Trim(s)| <= |s|
    ensures forall i :: 0 <= i < |Trim(s)| ==> Trim(s)[i] in s
  {
    var start := TrimStart(s);
    forall i | 0 <= i < |Trim(s)| ensures Trim(s)[i] in s {
      assert Trim(s)[i] == start[i];
      assert start[i] == s[|s| - |start| + i];
    }
  }

  /** Filtering a lower-cased string keeps it lower-case. */
  lemma {:induction false} KeepOnlyLower(s: string, c: char)
    requires forall i :: 0 <= i < |s| ==> !('A' <= s[i] <= 'Z')
    ensures c in KeepOnly(s) ==> !('A' <= c <= 'Z') && c in s
    decreases |s|
  {
    if |s| > 0 {
      KeepOnlyLower(s[1..], c);
    }
  }

  /** A slug passes through every step of `slugify` unchanged. */
  lemma {:induction false} SlugIsFixedPoint(s: string)
    requires IsSlug(s)
    ensures Slugify(s) == s
  {
    InteriorSpacesBecomeHyphens(s);
    assert Hyphenate(s) == s;
  }

  /** In text that needs no filtering or trimming, each space becomes one
      hyphen and every other character stays. */
  lemma {:induction false} InteriorSpacesBecomeHyphens(s: string)
    requires forall i :: 0 <= i < |s| ==> Kept(s[i]) && !('A' <= s[i] <= 'Z')
    requires |s| > 0 ==> s[0] != ' ' && s[|s| - 1] != ' '
    ensures Slugify(s) == Hyphenate(s)
    ensures forall i :: 0 <= i < |s| ==> Slugify(s)[i] == (if s[i] == ' ' then '-' else s[i])
  {
    LowerOfLower(s);
    KeepOnlyAll(s);
    TrimKept(s);
  }

  /** The slug of text whose lower-cased form needs no filtering or
      trimming: that form with each space turned into a hyphen. */
  lemma SlugifyWords(text: string, lowered: string, slug: string)
    requires Lower(text) == lowered
    requires forall i :: 0 <= i < |lowered| ==> Kept(lowered[i]) && !('A' <= lowered[i] <= 'Z')
    requires |lowered| > 0 ==> lowered[0] != ' ' && lowered[|lowered| - 1] != ' '
    requires Hyphenate(lowered) == slug
    ensures Slugify(text) == slug
  {
    SlugifyOfLower(text);
    InteriorSpacesBecomeHyphens(lowered);
  }

  /** `slugify` lower-cases first, so it sees the same text either way. */
  lemma SlugifyOfLower(text: string)
    ensures Slugify(text) == Slugify(Lower(text))
  {
    LowerOfLower(Lower(text));
  }

  /** Lower-casing text without upper-case letters changes nothing. */
  lemma LowerOfLower(s: string)
    requires forall i :: 0 <= i < |s| ==> !('A' <= s[i] <= 'Z')
    ensures Lower(s) == s
  {
    assert forall i :: 0 <= i < |s| ==> Lower(s)[i] == s[i];
  }

  /** Kept characters include no whitespace but the space, so text that
      neither starts nor ends with a space has nothing to trim. */
  lemma TrimKept(s: string)
    requires forall i :: 0 <= i < |s| ==> Kept(s[i])
    requires |s| > 0 ==> s[0] != ' ' && s[|s| - 1] != ' '
    ensures Trim(s) == s
  {
    if |s| > 0 {
      assert !IsSpace(s[0]);
      assert TrimStart(s) == s;
      assert !IsSpace(s[|s| - 1]);
    }
  }

  /** A string of kept characters passes the filter unchanged. */
  lemma {:induction false} KeepOnlyAll(s: string)
    requires forall i :: 0 <= i < |s| ==> Kept(s[i])
    ensures KeepOnly(s) == s
    decreases |s|
  {
    if |s| > 0 {
      KeepOnlyAll(s[1..]);
      assert s == [s[0]] + s[1..];
    }
  }

  /** `slugify` is idempotent. */
  lemma SlugifyIdempotent(s: string)
    ensures Slugify(Slugify(s)) == Slugify(s)
  {
    SlugIsFixedPoint(Slugify(s));
  }

  /** Spaces at either end do not reach the slug: trimming happens before the
      spaces turn into hyphens. */
  lemma SurroundingSpacesIgnored(s: string)
    ensures Slugify(" " + s) == Slugify(s)
    ensures Slugify(s + " ") == Slugify(s)
  {
    LowerAppend(" ", s);
    LowerAppend(s, " ");
    KeepOnlyAppend(" ", Lower(s));
    KeepOnlyAppend(Lower(s), " ");
    assert Lower(" ") == " ";
    assert KeepOnly(" ") == " ";
    var k := KeepOnly(Lower(s));
    assert TrimStart(" " + k) == TrimStart(k) by {
      assert (" " + k)[1..] == k;
    }
    TrimEndSpace(k);
    TrimStartKeepsTrailing(k);
  }

  lemma LowerAppend(a: string, b: string)
    ensures Lower(a + b) == Lower(a) + Lower(b)
  {
  }

  lemma {:induction false} KeepOnlyAppend(a: string, b: string)
    ensures KeepOnly(a + b) == KeepOnly(a) + KeepOnly(b)
    decreases |a|
  {
    if |a| == 0 {
      assert a + b == b;
    } else {
      KeepOnlyAppend(a[1..], b);
      assert (a + b)[0] == a[0];
      assert (a + b)[1..] == a[1..] + b;
    }
  }

  /** A trailing space disappears in `trim`. */
  lemma TrimEndSpace(k: string)
    ensures Trim(k + " ") == Trim(k)
  {
    TrimStartKeepsTrailing(k);
    var t := TrimStart(k);
    if |t| == 0 {
      TrimStartAllSpaces(k);
    } else {
      assert TrimEnd(t + " ") == TrimEnd((t + " ")[..|t + " "| - 1]);
      assert (t + " ")[..|t + " "| - 1] == t;
    }
  }

  /** Leading whitespace removal does not look at the end when the string has
      a non-space character. */
  lemma {:induction false} TrimStartKeepsTrailing(k: string)
    ensures |TrimStart(k)| > 0 ==> TrimStart(k + " ") == TrimStart(k) + " "
    decreases |k|
  {
    if |k| > 0 {
      assert (k + " ")[1..] == k[1..] + " ";
      TrimStartKeepsTrailing(k[1..]);
    }
  }

  /** An all-space string trims to nothing, with or without one more space. */
  lemma {:induction false} TrimStartAllSpaces(k: string)
    requires |TrimStart(k)| == 0
    ensures Trim(k + " ") == "" && Trim(k) == ""
    decreases |k|
  {
    if |k| > 0 {
      assert (k + " ")[1..] == k[1..] + " ";
      TrimStartAllSpaces(k[1..]);
    } else {
      assert TrimStart(" ") == TrimStart("");
    }
  }

  /** `new URL(...)` reduced to the two parts the mapping reads. */
  datatype UrlParts = UrlParts(origin: string, pathname: string)

  /** `replace(/\/$/, '')`: at most one trailing slash removed. */
  function DropTrailingSlash(s: string): (r: string)
    ensures r == s || (r + "/" == s)
    ensures |s| > 0 && s[|s| - 1] == '/' ==> |r| == |s| - 1
  {
    if |s| > 0 && s[|s| - 1] == '/' then s[..|s| - 1] else s
  }

  /** `replace(/^\/|\/$/g, '')`: one leading and one trailing slash removed. */
  function StripSlashes(s: string): (r: string)
    ensures |s| > 0 && s[0] == '/' ==> DropTrailingSlash(s[1..]) == r
    ensures (|s| == 0 || s[0] != '/') ==> DropTrailingSlash(s) == r
  {
    var t := if |s| > 0 && s[0] == '/' then s[1..] else s;
    DropTrailingSlash(t)
  }

  /** `urlToFilename`: `None` (the source's `undefined`) when the URL does not
      parse, belongs to another origin than `me`, or has an empty path;
      otherwise the stripped directory and path, empty parts dropped, joined
      with `/`, plus `.md`. */
  function UrlToFilename(parse: string -> Option<UrlParts>, url: string, me: string, dir: string): (r: Option<string>)
    ensures r.Some? <==>
              parse(url).Some? && parse(url).value.origin == DropTrailingSlash(me) && parse(url).value.pathname != ""
    ensures r.Some? ==>
              var d := StripSlashes(dir);
              var p := StripSlashes(parse(url).value.pathname);
              r.value == (if d == "" then p else if p == "" then d else d + "/" + p) + ".md"
  {
    match parse(url)
    case None => None
    case Some(u) =>
      if u.origin != DropTrailingSlash(me) || u.pathname == "" then None
      else
        var d := StripSlashes(dir);
        var p := StripSlashes(u.pathname);
        var nonEmpty := (if d != "" then [d] else []) + (if p != "" then [p] else []);
        assert |nonEmpty| == 2 ==> nonEmpty == [d, p] && Join(nonEmpty, "/") == d + "/" + Join([p], "/");
        Some(Join(nonEmpty, "/") + ".md")
  }
}

=== FILE: values.dfy ===
/** The JavaScript values the endpoint passes around: decoded request bodies,
    jf2 posts, front-matter headers and mf2 items. */
module Values {
  import opened Wrappers
  import Text

  /** A JSON-like value. Objects keep their entries in insertion order, for
      every key: JavaScript lists integer-like keys (`"1"`, `"42"`) first, in
      ascending order, and the model does not. `Item` is a nested mf2 item
      (`{type, properties}`). */
  datatype Value =
    | Null
    | Bool(b: bool)
    | Num(n: int)
    | Str(s: string)
    | Arr(items: seq<Value>)
    | Obj(entries: seq<(string, Value)>)
    | Item(item: Mf2)

  /** The entries of a JavaScript object, in insertion order (integer-like
      keys included). */
  type Entries = seq<(string, Value)>

  /** The `properties` of an mf2 item: every property is a sequence of values. */
  type Props = map<string, seq<Value>>

  /** An mf2 item: its type tags (`["h-entry"]`) and its properties. */
  datatype Mf2 = Mf2(types: seq<string>, properties: Props)

  /** JavaScript truthiness. */
  predicate Truthy(v: Value) {
    match v
    case Null => false
    case Bool(b) => b
    case Num(n) => n != 0
    case Str(s) => s != ""
    case _ => true
  }

  /** String conversion as in a template literal or `Array.prototype.join`. */
  function JsString(v: Value): string
    decreases v
  {
    match v
    case Null => "null"
    case Bool(b) => if b then "true" else "false"
    case Num(n) => Text.IntToString(n)
    case Str(s) => s
    case Arr(items) =>
      Text.Join(seq(|items|, i requires 0 <= i < |items| =>
                      if items[i].Null? then "" else JsString(items[i])), ",")
    case Obj(_) => "[object Object]"
    case Item(_) => "[object Object]"
  }

  /** Strings as string values. */
  function Strs(vs: seq<string>): (r: seq<Value>)
    ensures |r| == |vs| && forall i :: 0 <= i < |vs| ==> r[i] == Str(vs[i])
  {
    seq(|vs|, i requires 0 <= i < |vs| => Str(vs[i]))
  }

  /** The keys of an object, in order. */
  function Keys(e: Entries): (ks: seq<string>)
    ensures |ks| == |e|
    ensures forall i {:trigger ks[i]} :: 0 <= i < |e| ==> ks[i] == e[i].0
  {
    seq(|e|, i requires 0 <= i < |e| => e[i].0)
  }

  /** Property lookup `obj[k]`; `None` is `undefined`. */
  function Get(e: Entries, k: string): (r: Option<Value>)
    ensures r.Some? <==> k in Keys(e)
    ensures r.Some? ==> (k, r.value) in e
    decreases |e|
  {
    if |e| == 0 then None
    else if e[0].0 == k then
      assert Keys(e)[0] == k;
      Some(e[0].1)
    else
      assert Keys(e) == [e[0].0] + Keys(e[1..]);
      Get(e[1..], k)
  }

  /** `obj[k]` is present and truthy. */
  predicate TruthyAt(e: Entries, k: string) {
    Get(e, k).Some? && Truthy(Get(e, k).value)
  }

  /** Assignment `obj[k] = v`: an existing key keeps its position, a new key
      goes last. */
  function Set(e: Entries, k: string, v: Value): (r: Entries)
    ensures Get(r, k) == Some(v)
    ensures forall k' :: k' != k ==> Get(r, k') == Get(e, k')
    ensures k in Keys(e) ==> Keys(r) == Keys(e)
    ensures k !in Keys(e) ==> r == e + [(k, v)]
    decreases |e|
  {
    if |e| == 0 then [(k, v)]
    else if e[0].0 == k then
      assert e == [e[0]] + e[1..];
      KeysCons((k, v), e[1..]);
      KeysCons(e[0], e[1..]);
      [(k, v)] + e[1..]
    else
      var rest := Set(e[1..], k, v);
      assert e == [e[0]] + e[1..];
      KeysCons(e[0], e[1..]);
      KeysCons(e[0], rest);
      assert [e[0]] + (e[1..] + [(k, v)]) == e + [(k, v)];
      [e[0]] + rest
  }

  /** The keys of an object with one entry in front. */
  lemma KeysCons(x: (string, Value), e: Entries)
    ensures Keys([x] + e) == [x.0] + Keys(e)
  {
    assert forall i :: 0 <= i < |e| + 1 ==> Keys([x] + e)[i] == ([x.0] + Keys(e))[i];
  }

  /** `delete obj[k]`. */
  function Delete(e: Entries, k: string): (r: Entries)
    ensures Get(r, k) == None
    ensures forall k' :: k' != k ==> Get(r, k') == Get(e, k')
    ensures k !in Keys(e) ==> r == e
    ensures k !in Keys(r)
    ensures forall k' :: k' in Keys(r) <==> k' in Keys(e) && k' != k
    decreases |e|
  {
    if |e| == 0 then e
    else
      var rest := Delete(e[1..], k);
      assert Keys(e) == [e[0].0] + Keys(e[1..]);
      if e[0].0 == k then rest
      else
        assert Keys([e[0]] + rest) == [e[0].0] + Keys(rest);
        assert k !in Keys(e) ==> [e[0]] + rest == e;
        [e[0]] + rest
  }

  /** No key occurs twice: every JavaScript object satisfies this. */
  predicate Distinct(e: Entries)
    decreases |e|
  {
    |e| == 0 || (e[0].0 !in Keys(e[1..]) && Distinct(e[1..]))
  }

  /** In an object without repeated keys, an entry is exactly what lookup finds. */
  lemma {:induction false} DistinctGet(e: Entries, k: string, v: Value)
    requires Distinct(e)
    ensures (k, v) in e <==> Get(e, k) == Some(v)
    decreases |e|
  {
    if |e| > 0 {
      DistinctGet(e[1..], k, v);
      assert e == [e[0]] + e[1..];
    }
  }

  /** The recursive definition agrees with "no two positions share a key". */
  lemma {:induction false} DistinctPairwise(e: Entries)
    requires Distinct(e)
    ensures forall i, j :: 0 <= i < j < |e| ==> e[i].0 != e[j].0
    decreases |e|
  {
    if |e| > 0 {
      DistinctPairwise(e[1..]);
      forall i, j | 0 <= i < j < |e| ensures e[i].0 != e[j].0 {
        if i == 0 {
          assert e[j].0 == Keys(e[1..])[j - 1];
        } else {
          assert e[i] == e[1..][i - 1] && e[j] == e[1..][j - 1];
        }
      }
    }
  }

  lemma {:induction false} PairwiseDistinct(e: Entries)
    requires forall i, j :: 0 <= i < j < |e| ==> e[i].0 != e[j].0
    ensures Distinct(e)
    decreases |e|
  {
    if |e| > 0 {
      forall i, j | 0 <= i < j < |e[1..]| ensures e[1..][i].0 != e[1..][j].0 {
        assert e[1..][i] == e[i + 1] && e[1..][j] == e[j + 1];
      }
      PairwiseDistinct(e[1..]);
    }
  }

  lemma {:induction false} AppendKeepsDistinct(e: Entries, x: (string, Value))
    requires Distinct(e) && x.0 !in Keys(e)
    ensures Distinct(e + [x])
    decreases |e|
  {
    if |e| > 0 {
      assert Keys(e) == [e[0].0] + Keys(e[1..]);
      AppendKeepsDistinct(e[1..], x);
      assert (e + [x])[1..] == e[1..] + [x];
      assert Keys(e[1..] + [x]) == Keys(e[1..]) + [x.0];
    }
  }

  lemma {:induction false} SameKeysSameDistinct(a: Entries, b: Entries)
    requires Keys(a) == Keys(b)
    ensures Distinct(a) == Distinct(b)
    decreases |a|
  {
    if |a| > 0 {
      assert Keys(a[1..]) == Keys(a)[1..] == Keys(b)[1..] == Keys(b[1..]);
      assert a[0].0 == Keys(a)[0] == Keys(b)[0] == b[0].0;
      SameKeysSameDistinct(a[1..], b[1..]);
    }
  }

  lemma SetKeepsDistinct(e: Entries, k: string, v: Value)
    requires Distinct(e)
    ensures Distinct(Set(e, k, v))
  {
    if k in Keys(e) {
      SameKeysSameDistinct(e, Set(e, k, v));
    } else {
      AppendKeepsDistinct(e, (k, v));
    }
  }

  lemma {:induction false} DeleteKeepsDistinct(e: Entries, k: string)
    requires Distinct(e)
    ensures Distinct(Delete(e, k))
    decreases |e|
  {
    if |e| > 0 {
      DeleteKeepsDistinct(e[1..], k);
      var rest := Delete(e[1..], k);
      if e[0].0 != k {
        var r := [e[0]] + rest;
        assert r[1..] == rest;
      }
    }
  }

  /** Assigning every entry of `src` to `target` in order, as a `for` loop of
      assignments or `Object.assign` does. */
  function Assign(target: Entries, src: Entries): (r: Entries)
    ensures forall k :: Get(r, k).Some? <==> k in Keys(target) || k in Keys(src)
    ensures forall k :: k !in Keys(src) ==> Get(r, k) == Get(target, k)
    decreases |src|
  {
    if |src| == 0 then target
    else
      var init := src[..|src| - 1];
      var last := src[|src| - 1];
      assert Keys(src) == Keys(init) + [last.0];
      Set(Assign(target, init), last.0, last.1)
  }

  /** `Object.fromEntries`: assignment into an empty object. */
  function FromEntries(e: Entries): (r: Entries)
    ensures forall k :: Get(r, k).Some? <==> k in Keys(e)
  {
    Assign([], e)
  }

  /** The last entry of `src` with a given key decides its value. */
  lemma {:induction false} AssignLastWins(target: Entries, src: Entries, i: nat)
    requires i < |src|
    requires forall j :: i < j < |src| ==> src[j].0 != src[i].0
    ensures Get(Assign(target, src), src[i].0) == Some(src[i].1)
    decreases |src|
  {
    if i < |src| - 1 {
      var init := src[..|src| - 1];
      assert init[i] == src[i];
      AssignLastWins(target, init, i);
    }
  }

  /** With distinct source keys, every source key ends up with its source
      value. */
  lemma {:induction false} AssignOwnKey(target: Entries, src: Entries, k: string)
    requires Distinct(src) && k in Keys(src)
    ensures Get(Assign(target, src), k) == Get(src, k)
  {
    var i :| 0 <= i < |src| && Keys(src)[i] == k;
    DistinctPairwise(src);
    assert src[i].0 == k;
    AssignLastWins(target, src, i);
    DistinctGet(src, k, src[i].1);
  }

  /** Assignment never repeats a key. */
  lemma {:induction false} AssignKeepsDistinct(target: Entries, src: Entries)
    requires Distinct(target)
    ensures Distinct(Assign(target, src))
    decreases |src|
  {
    if |src| > 0 {
      var init := src[..|src| - 1];
      var last := src[|src| - 1];
      AssignKeepsDistinct(target, init);
      SetKeepsDistinct(Assign(target, init), last.0, last.1);
    }
  }

  lemma KeysAppend(a: Entries, b: Entries)
    ensures Keys(a + b) == Keys(a) + Keys(b)
  {
    assert forall i :: 0 <= i < |a + b| ==> Keys(a + b)[i] == (Keys(a) + Keys(b))[i];
  }

  /** Distinctness of an object extended by one entry. */
  lemma {:induction false} DistinctSnoc(e: Entries, x: (string, Value))
    ensures Distinct(e + [x]) <==> Distinct(e) && x.0 !in Keys(e)
    decreases |e|
  {
    if |e| > 0 {
      DistinctSnoc(e[1..], x);
      assert (e + [x])[1..] == e[1..] + [x];
      assert Keys(e) == [e[0].0] + Keys(e[1..]);
      assert Keys(e[1..] + [x]) == Keys(e[1..]) + [x.0];
    }
  }

  /** Assigning distinct entries onto a one-entry object whose key is
      their first key gives exactly those entries. */
  lemma {:induction false} AssignOntoHead(k: string, v: Value, src: Entries)
    requires |src| > 0 && src[0].0 == k && Distinct(src)
    ensures Assign([(k, v)], src) == src
    decreases |src|
  {
    var init := src[..|src| - 1];
    var last := src[|src| - 1];
    if |src| == 1 {
      assert src == [last];
      assert Assign([(k, v)], src) == Set(Assign([(k, v)], init), last.0, last.1);
    } else {
      assert src == init + [last];
      DistinctSnoc(init, last);
      assert init[0] == src[0];
      AssignOntoHead(k, v, init);
      assert Assign([(k, v)], src) == Set(init, last.0, last.1);
    }
  }

  /** Assigning entries with fresh, distinct keys appends them in order. */
  lemma {:induction false} AssignFreshAppends(target: Entries, src: Entries)
    requires Distinct(src)
    requires forall k :: k in Keys(src) ==> k !in Keys(target)
    ensures Assign(target, src) == target + src
    decreases |src|
  {
    if |src| > 0 {
      var init := src[..|src| - 1];
      var last := src[|src| - 1];
      assert src == init + [last];
      KeysAppend(init, [last]);
      DistinctSnoc(init, last);
      assert forall k :: k in Keys(init) ==> k in Keys(src);
      AssignFreshAppends(target, init);
      var before := target + init;
      KeysAppend(target, init);
      assert last.0 !in Keys(before) by {
        assert Keys(src)[|src| - 1] == last.0;
      }
      assert Assign(target, src) == Set(before, last.0, last.1);
      assert before + [last] == target + src;
    }
  }

  /** Rebuilding an object with distinct keys from its entries gives it back. */
  lemma FromEntriesOfDistinct(e: Entries)
    requires Distinct(e)
    ensures FromEntries(e) == e
  {
    AssignFreshAppends([], e);
  }

  /** `Object.entries(v)`: an object's own entries, an array's or a string's
      indexed elements, and nothing for other primitives. (An mf2 `Item` never
      occurs in a decoded request body; it has no entries here.) */
  function ObjectEntries(v: Value): (r: Entries)
    ensures v.Obj? ==> r == v.entries
    ensures v.Arr? ==> |r| == |v.items| && forall i :: 0 <= i < |r| ==> r[i].1 == v.items[i]
  {
    match v
    case Obj(e) => e
    case Arr(items) =>
      seq(|items|, i requires 0 <= i < |items| => (Text.NatToString(i), items[i]))
    case Str(s) =>
      seq(|s|, i requires 0 <= i < |s| => (Text.NatToString(i), Str([s[i]])))
    case _ => []
  }

  /** The property map denoted by a sequence of entries whose values are all
      arrays; a later entry overwrites an earlier one with the same key. */
  function ArrayProps(e: Entries): (r: Option<Props>)
    ensures r.Some? <==> forall i :: 0 <= i < |e| ==> e[i].1.Arr?
    ensures r.Some? ==> r.value.Keys == set i | 0 <= i < |e| :: e[i].0
    decreases |e|
  {
    if |e| == 0 then Some(map[])
    else
      var last := e[|e| - 1];
      match ArrayProps(e[..|e| - 1])
      case None => None
      case Some(m) =>
        if last.1.Arr? then
          assert forall i :: 0 <= i < |e| - 1 ==> e[..|e| - 1][i] == e[i];
          Some(m[last.0 := last.1.items])
        else None
  }
}

=== FILE: wrappers.dfy ===
/** Failure-compatible wrappers shared by every module of the model. */
module Wrappers {

  /** A value that may be absent: JavaScript's `undefined` (or `null` where the
      source treats both alike). */
  datatype Option<+T> = None | Some(value: T) {

    predicate IsFailure() {
      None?
    }

    function PropagateFailure<U>(): Option<U>
      requires None?
    {
      None
    }

    function Extract(): T
      requires Some?
    {
      value
    }

    function GetOr(default: T): T {
      match this
      case Some(v) => v
      case None => default
    }
  }

  /** The failures an endpoint request can end in, tagged with the HTTP status
      that the response layer gives each of them. */
  datatype Failure =
    | BadRequest(message: string)
    | Unauthorized
    | Forbidden(message: string)
    | NotFound(message: string)
    | MethodNotAllowed
      /** A JavaScript TypeError the source does not catch; the response layer
          answers such errors with status 500. */
    | Internal(message: string)
  {
    function Status(): int {
      match this
      case BadRequest(_) => 400
      case Unauthorized => 401
      case Forbidden(_) => 403
      case NotFound(_) => 404
      case MethodNotAllowed => 405
      case Internal(_) => 500
    }
  }

  /** Either a value or a typed failure; usable with `:-`. */
  datatype Result<+T> = Ok(value: T) | Err(error: Failure) {

    predicate IsFailure() {
      Err?
    }

    function PropagateFailure<U>(): Result<U>
      requires Err?
    {
      Err(error)
    }

    function Extract(): T
      requires Ok?
    {
      value
    }
  }
}
